=== FILE: README.md ===
# Expense tracker core, modelled in Dafny

A model of the logic of a small offline expense tracker (a browser app written
in JavaScript). The user records expenses, filters and totals them in a list,
exports them as CSV and imports them as JSON, and looks at an insights screen with a line
chart per period, breakdowns by category, payment method, kind and delivery
provider, and three headline numbers (total, average per day, top category).

The model covers:

- the date keys that group records into days, weeks, months and years;
- the insights aggregation: five running-total objects filled in one pass,
  sorted into chart data, plus the days estimate, the average and the top
  category;
- the list's range, category, payment and text filters and its total;
- the CSV writer and the character-level CSV reader, with a round trip (the reader, `parseCSV`, is exported by js/utils.js but no part of the app calls it: the app imports only `toCSV`, and its import path reads JSON);
- the submit payload and its validation, and the "copy last expense" form;
- the category configuration updates;
- the list's labels, badges and HTML escaping.

Every module is pure: dates are calendar triples, amounts are `real`, and the
browser (`Number(...)`, `formatBRL`, the clock) enters as function or value
parameters.

| module | file | what it holds |
|---|---|---|
| `Wrappers` | wrappers.dfy | `Option` and `Result` |
| `Text` | text.dfy | decimal text, `padStart`, string order, `trim`, `toLowerCase`, `includes`, `replaceAll`, `join` |
| `Calendar` | calendar.dfy | dates, day numbers, weekday, the `YYYY-MM-DD` form, the week, month and year keys |
| `Records` | records.dfy | the stored expense record and the sum of amounts |
| `Tally` | tally.dfy | insertion-ordered running totals and the two stable sorts the charts use |
| `Insights` | insights.dfy | `buildInsights`, `estimateDays`, `summarizeTopCategory` |
| `Filters` | filters.dfy | `inRangeISO`, `includesText`, the list filter and total, the insights input |
| `Taxonomy` | taxonomy.dfy | `ensureCategoryExists`, `ensureSubcategoryExists` |
| `Form` | form.dfy | the submit payload and checks, the quick copy |
| `Csv` | csv.dfy | `toCSV`, `parseCSV` |
| `Ui` | ui.dfy | `escapeHTML`, the `label*` functions, `deliveryBadges`, `fuelBadges` |

## Model

| member | source | states |
|---|---|---|
| Calendar.Parse | js/utils.js:83 | only a real calendar date is read from a `YYYY-MM-DD` string; anything else is an invalid date |
| Calendar.ParseFormat | js/utils.js:18-23 | reading back the `YYYY-MM-DD` text of a valid date gives the same date |
| Calendar.FormatParse | js/utils.js:83 | a date string is exactly the text form of the date it denotes, so each date has one spelling |
| Calendar.StringOrderIsChronological | js/utils.js:67-71 | JavaScript's string `<` on two date strings holds exactly when the first day is earlier |
| Calendar.MonthKey | js/utils.js:90-92 | the month key is the first 7 characters of the string, or all of it when shorter |
| Calendar.YearKey | js/utils.js:94-96 | the year key is the first 4 characters of the string, or all of it when shorter |
| Calendar.KeyPrefixes | js/utils.js:90-96 | for a date, the year key (4 characters) is a prefix of the month key (7), which is a prefix of the date |
| Calendar.YearKeyGroups | js/utils.js:94-96 | two dates share a year key if and only if they fall in the same year |
| Calendar.MonthKeyGroups | js/utils.js:90-92 | two dates share a month key if and only if they fall in the same month of the same year |
| Calendar.WeekNumber | js/utils.js:84-86 | the week number of a date is between 1 and 54 |
| Calendar.WeekKeyGroups | js/utils.js:81-88 | two dates share a week key if and only if they have the same year and the same week number |
| Calendar.WeekKeyYear | js/utils.js:87 | the week key ends in "-W" and two more characters, and everything before them is a digit string whose value is the date's year |
| Calendar.WeekKeyStartsWithYearKey | js/utils.js:81-96 | for a four-digit year the week key starts with the year key |
| Calendar.WeekNumberMonotone | js/utils.js:84-86 | within a year, week numbers never go backwards, and a date seven or more days later is in a later week |
| Calendar.WeekKeysSeparate | js/utils.js:81-88 | two dates of one year that are at least seven days apart get different week keys |
| Calendar.WeekKeyExamples | js/utils.js:81-88 | 2024-01-01 and 2024-01-05 are in week 2024-W01 and 2024-01-08 is in 2024-W02 |
| Text.Trim | js/utils.js:75 | `trim` removes exactly the leading and trailing white space: the result is a slice with non-space ends, empty only for blank text |
| Text.TrimIdempotent | js/utils.js:75 | trimming twice is trimming once |
| Text.LexLessTotal | js/charts.js:118 | string order is total, so the default sort of keys is well defined |
| Text.LexLessTransitive | js/charts.js:118 | string order is transitive |
| Text.ReplaceCharAppend | js/utils.js:112 | `replaceAll` of one character works piecewise over a concatenation |
| Records.SumAmountsPermutation | js/app.js:496 | the sum of amounts does not depend on the order of the records |
| Tally.Add | js/charts.js:98 | adding to a running-total object raises the label's total by the amount (from 0 for a new label), appends a new label at the end, and keeps the labels distinct |
| Tally.Totals | js/charts.js:96-116 | the running-total object of a list of (label, amount) pairs has one entry per distinct label of the pairs and the same grand total |
| Tally.TotalsValues | js/charts.js:96-116 | each total in the object is the sum of the amounts paired with its label |
| Tally.SortAsc | js/charts.js:118 | the key sort returns an ascending permutation of its input |
| Tally.SortAscStrict | js/charts.js:118 | sorting distinct keys gives a strictly ascending order |
| Tally.SortDesc | js/charts.js:121 | the value sort returns a descending permutation of its input |
| Tally.SortDescStable | js/charts.js:121 | entries of equal value keep their relative order (the sort is stable) |
| Tally.SortAscStable | js/app.js:454-456 | the key sort is stable: the elements of any one key come out in the order they went in |
| Tally.StableSortUnique | js/app.js:454-456 | two ascending permutations of the same elements that list each key's elements in the same order are equal |
| Tally.SortAscUnique | js/app.js:454-456 | an ascending permutation that keeps equal keys in their input order is exactly the key sort's result, so a stable sort has one possible outcome |
| Tally.TotalOfPermutation | js/charts.js:133 | reordering entries does not change their total |
| Insights.PaymentLabelSeparates | js/charts.js:102-103 | two records share a payment label if and only if they share the method, and for credit also the card |
| Insights.DeliveryLabelNonEmpty | js/charts.js:110-113 | a delivery label is never empty: "ifood" is "iFood", "99" is "99", "outros" is the typed name or "Outros", no provider is "(não informado)", and any other provider is shown as stored |
| Insights.Grouped | js/charts.js:96-116 | each running-total object has distinct labels, exactly the labels some record carries, each worth the amounts of its records, adding up to the sum of amounts |
| Insights.Series | js/charts.js:96-119 | the line chart has one point per bucket some record falls in, in strictly ascending string order, each worth the amounts of its bucket |
| Insights.Breakdown | js/charts.js:121-131 | a breakdown lists each label once, largest total first, ties in first-appearance order, each label worth the amounts of its records |
| Insights.Deliveries | js/charts.js:109 | the delivery chart counts exactly the records of subcategory "Delivery" |
| Insights.TopCategory | js/utils.js:98-104 | "—" when no category total is positive, otherwise the first category holding the greatest total |
| Insights.TopCategoryIsPieHead | js/utils.js:98-104 | a positive top category is the first entry of the value-sorted category list |
| Insights.EstimateDays | js/charts.js:151-159 | no records count as 0 days; a defined estimate for one or more records is at least one day |
| Insights.EstimateDaysPermutation | js/charts.js:153 | the estimate does not depend on the order of the records |
| Insights.EstimateDaysSpan | js/charts.js:151-159 | for valid dates the estimate is one more than the day distance between the earliest and the latest date |
| Insights.Average | js/charts.js:135 | the average times the days gives the total; no days, or an undefined count, gives 0 |
| Insights.BuildInsights | js/charts.js:82-149 | the total is the sum of amounts; the category, payment and kind charts add up to it; the delivery chart adds up to the delivery records; line labels strictly ascend |
| Insights.LineChartMeaning | js/charts.js:118-119 | each line point is worth exactly the amounts of its bucket, and every record's bucket is a point |
| Insights.LinePlots | js/charts.js:96-119 | the line chart shows each bucket some record falls in, and no other, once and in ascending order, each worth the amounts of its records |
| Insights.PlotsPermutation | js/charts.js:96-119 | what the line chart shows does not depend on the order of the records |
| Insights.PlotsSameBuckets | js/app.js:458 | two modes that bucket every date alike give line charts with the same meaning |
| Insights.AmountWherePermutation | js/charts.js:96-116 | a label's total does not depend on the order of the records |
| Insights.ChartMeaning | js/charts.js:96-131 | a breakdown chart lists each label once, largest value first, each worth the amounts of its records, with exactly the labels some record carries |
| Insights.DescribesPermutation | js/charts.js:96-131 | what a breakdown chart shows does not depend on the order of the records |
| Insights.BreakdownMeaning | js/charts.js:121-131 | the category, payment, kind and delivery charts each list every label once, largest first, worth the amounts of its records, with exactly the labels some record carries; the delivery chart over the "Delivery" records only |
| Insights.TopCategoryIsFirstSlice | js/charts.js:121-146 | a top category other than "—" is the first slice of the category chart |
| Insights.SingleDateAverage | js/charts.js:133-158 | records that all share one valid date have an average equal to their total |
| Insights.EmptyInsights | js/charts.js:82-152 | no records give empty charts, a zero total and average, and "—" |
| Insights.RangeModeIsDaily | js/charts.js:83-88 | any mode other than weekly, monthly or yearly (such as "range") groups by day |
| Insights.NonDeliveryIgnored | js/charts.js:109-115 | a record outside "Delivery" leaves the delivery chart unchanged |
| Filters.InRangeChronological | js/utils.js:67-71 | for valid dates, a date is in range exactly when it lies between start and end, ends included |
| Filters.InRangeUnbounded | js/utils.js:67-71 | an empty start or end bounds nothing; with one bound, the test is that bound's string order |
| Filters.BlankQueryMatches | js/utils.js:73-76 | a blank query matches every record |
| Filters.QueryInFieldMatches | js/utils.js:73-78 | a trimmed, lower-cased query found in the lower-cased description, merchant, category or subcategory matches |
| Filters.QueryTrimmed | js/utils.js:75 | surrounding white space in the query makes no difference |
| Filters.FilterList | js/app.js:488-494 | the list shows exactly the records that pass all four filters |
| Filters.FilterListAppend | js/app.js:488-494 | filtering works record by record, keeping the records' order |
| Filters.NoFilterShowsAll | js/app.js:488-494 | with every filter empty the list shows all records |
| Filters.ListTotal | js/app.js:496 | the list total is the sum of the amounts of the shown records |
| Filters.FilterRange | js/app.js:454-455 | the insights input is exactly the records whose date is in range |
| Filters.NormalizeMode | js/app.js:458 | "range" becomes a mode that groups exactly as the chosen mode does |
| Filters.RefreshInsights | js/app.js:448-459 | the insights are `buildInsights` of the in-range records arranged by ascending date, equal dates kept in list order, in the normalised mode; the total is the sum over the in-range records |
| Filters.RefreshSortsByDate | js/app.js:454-458 | any arrangement of the in-range records by ascending date that keeps equal dates in list order gives exactly the insights shown |
| Filters.RefreshAverageMeaning | js/app.js:454-458 | the average is the in-range total over the days the in-range dates span |
| Filters.RefreshLineMeaning | js/app.js:454-458 | the line chart shows each bucket (of the chosen mode, "range" as days) that an in-range record falls in, and no other, ascending, each worth the amounts of the in-range records in it |
| Filters.RefreshChartsMeaning | js/app.js:454-458 | the category, payment, kind and delivery charts describe the in-range records, each label once with its records' amounts |
| Taxonomy.EnsureCategoryAsWritten | js/app.js:153-158 | as written, it agrees with the corrected update except on a name inherited from `Object.prototype`, which it never adds |
| Taxonomy.InheritedNameNotAdded | js/app.js:153-158 | as written, the category "constructor" is never created |
| Taxonomy.EnsureCategory | js/app.js:153-158 | a blank name changes nothing; otherwise the trimmed name exists afterwards, a new one with ["Diversos"], and every existing category is kept as it was |
| Taxonomy.EnsureCategoryIdempotent | js/app.js:153-158 | ensuring a category twice is ensuring it once |
| Taxonomy.EnsureSubcategory | js/app.js:160-167 | with both names non-blank, the category exists and lists the subcategory: appended at the end only if absent, a new category listing "Diversos" and then the subcategory; other categories are untouched (built on the corrected `Taxonomy.EnsureCategory`) |
| Taxonomy.EnsureSubcategoryNoDuplicates | js/app.js:166 | a subcategory list without duplicates stays without duplicates |
| Taxonomy.EnsureSubcategoryIdempotent | js/app.js:160-167 | ensuring a subcategory twice is ensuring it once |
| Form.ParseAmount | js/utils.js:62-65 | a finite number is kept and anything else is 0 |
| Form.BuildPayload | js/app.js:316-332 | card and installments only for credit, delivery fields only for "Delivery" (the typed name only for "outros"), fuel fields only for "Combustível", merchant and description trimmed |
| Form.Submit | js/app.js:334-335 | a submit succeeds if and only if a date is set and the amount is a finite number above zero; a missing date gives "Selecione a data." |
| Form.NonNumericAmountRejected | js/app.js:318-335 | a non-numeric amount is always rejected, with "Informe um valor maior que zero." when a date is set |
| Form.QuickCopy | js/app.js:292-306 | the copy is a fresh form for today with no amount and no id; kind defaults to "compra", installments to "1", and every other field of the last record is carried over |
| Csv.Escape | js/utils.js:110-114 | a cell holding a quote, comma or line feed is enclosed in quotes; any other cell is written as is |
| Csv.Tokenize | js/utils.js:135-184 | the reading loop computes the rows of the state machine, cell by cell and row by row |
| Csv.RunKeeps | js/utils.js:170-184 | no row read is a lone empty cell |
| Csv.NoRowsFromEmptyText | js/utils.js:183-186 | empty text has no rows |
| Csv.CellRoundTrip | js/utils.js:110-181 | reading an escaped cell gives back the cell, when its carriage returns are quoted |
| Csv.RowRoundTrip | js/utils.js:116-176 | reading a written line gives back its cells |
| Csv.LinesRoundTrip | js/utils.js:116-184 | reading written lines gives back the rows, less those that are a lone empty cell |
| Csv.TableRoundTrip | js/utils.js:106-184 | reading a written table gives back its rows, less those that are a lone empty cell |
| Csv.CarriageReturnDropped | js/utils.js:178 | an unquoted carriage return is lost: a cell "a\r" reads back as "a" |
| Csv.KeptRowsMembers | js/utils.js:173 | the rows read are exactly the rows that are not a lone empty cell |
| Csv.AssignFacts | js/utils.js:191-194 | the keys are exactly the headers (and those already present); every header names a key; a header no later column repeats maps to its column's cell, or "" when the row is short |
| Csv.Record | js/utils.js:190-195 | an object's keys are exactly the column names, so extra cells are ignored; a name no later column repeats maps to its cell, or "" when the row is short |
| Csv.RecordsOf | js/utils.js:186-198 | no rows give no objects; otherwise one object per row after the first |
| Csv.RecordsOfKeys | js/utils.js:186-198 | every object's keys are exactly the trimmed names of the header row, even when its own row is shorter or longer |
| Csv.ParseCsv | js/utils.js:135-199 | empty text gives no objects |
| Csv.HeadersPlain | js/utils.js:107-109 | each column name is written unquoted and is not changed by trimming |
| Csv.HeadersDistinct | js/utils.js:107-109 | no two columns share a name |
| Csv.ExportImport | js/utils.js:106-199 | reading an export back with `parseCSV` gives one object per record, whose keys are exactly the column names, each mapped to that record's cell |
| Ui.LabelPayment | js/ui.js:58-62 | credit shows exactly "Crédito" without a card and "Crédito (<card>)" with one; "Débito" exactly for debit; "Pix" for any other method |
| Ui.LabelPaymentAgrees | js/ui.js:58-62 | the list shows the payment label the bar chart groups by |
| Ui.LabelInstallments | js/ui.js:64-69 | an installment label appears if and only if the purchase is credit with a finite count above one, and then reads "<n>x" |
| Ui.LabelKind | js/ui.js:95-99 | "Conta" exactly for "conta", "Doação" exactly for "doacao", "Compra" otherwise |
| Ui.LabelKindAgrees | js/ui.js:95-99 | the list shows the kind label the kind chart groups by |
| Ui.LabelPriority | js/ui.js:89-93 | "Alta" exactly for "essencial", "Média" exactly for "importante", "Baixa" otherwise |
| Ui.LabelFuelType | js/ui.js:81-87 | "etanol", "etanol_aditivado", "gasolina" and "gasolina_aditivada" read "Etanol", "Etanol aditivado", "Gasolina" and "Gasolina aditivada"; any other value is shown as stored |
| Ui.LabelDeliveryProvider | js/ui.js:108-113 | "ifood" reads "iFood", "99" reads "99", "outros" the typed name or "Outros", any other provider as stored; the label is empty exactly when there is no provider |
| Ui.LabelDeliveryProviderAgrees | js/ui.js:108-113 | for a record with a provider, the list shows the label the delivery chart groups by |
| Ui.EscapeHTML | js/ui.js:115-122 | the five replace passes escape each character on its own (a per-character reference) |
| Ui.EscapeHTMLPerChar | js/ui.js:115-122 | no pass changes what an earlier pass wrote, because ampersands go first |
| Ui.EscapedSafe | js/ui.js:115-122 | escaped text holds no `<`, `>`, `"` or `'`, and text without special characters is unchanged |
| Ui.EscapeRoundTrip | js/ui.js:115-122 | decoding the entities of escaped text gives back the text |
| Ui.DeliveryBadges | js/ui.js:101-106 | a badge appears if and only if the record is a delivery with a provider, and holds the escaped delivery-chart label |
| Ui.DeliveryBadgeText | js/ui.js:101-106 | the badge reads as the delivery chart's label |
| Ui.FuelBadgesAsWritten | js/ui.js:71-79 | as written, only fuel records get badges; the fuel-type badge comes first and holds the label unescaped; the price badge comes last and appears exactly when the price per liter is a finite number above zero |
| Ui.FuelTypeMarkupPassesThrough | js/ui.js:74 | as written, a fuel type "<b>" reaches the page as markup |
| Ui.FuelBadges | js/ui.js:71-79 | corrected: badges appear if and only if it is a fuel record with a fuel type or a positive finite price; the fuel-type badge comes first, decodes to the label and holds no `<` or `>`; the price badge comes last and appears exactly when the price is finite and above zero |
| Ui.FuelTypeMarkupEscaped | js/ui.js:74 | corrected: a fuel type "<b>" is shown as the text "<b>" |

## Left out

- The page itself is not modelled. This covers the DOM, events, dialogs, Chart.js (`initCharts`, `renderCharts`, `colorsFor`), `setOptions`, `renderExpenses`, tabs and toasts. It is presentation only.
- Storage is not modelled: js/db.js, the configuration in local storage, and the JSON import and export loops. This is persistence I/O. Records enter the model as a sequence.
- The service worker, `downloadFile` and the "sheets" button are not modelled. They are browser and network plumbing.
- JavaScript's `Date` is replaced by exact calendar arithmetic. Three effects are therefore not modelled:
  - the time-zone and daylight-saving shifts that can put `Math.floor(diff / 86400000)` off by one day (js/utils.js:85, js/charts.js:156-157);
  - the engine's rollover of out-of-range days such as "2024-02-31";
  - the mapping of years 0-99 to 1900-1999.
- The model's dates have years 1 to 9999. A string that is not a real `YYYY-MM-DD` date gives the week key "NaN-WNaN" and an undefined days estimate, as the code does for text the engine cannot read at all.
- Calendar.Parse: accepts only `YYYY-MM-DD`. The ECMAScript date-only forms `YYYY` and `YYYY-MM` (read by the engine as the first day of that year or month), expanded years and engine-specific fallback formats are not modelled. For such text `Calendar.WeekKey` gives "NaN-WNaN" and `Insights.EstimateDays` no value, where the code gives a week key and a day count (js/utils.js:83, js/charts.js:156-157).
- `todayISO`, `toISODate`, `toLocalISOString` and `uid` are not modelled. They read the clock or a random source; where the core uses them, the value is a parameter (`today` in `Form.QuickCopy`).
- `Csv.CreatedAtCell` takes the "Z" branch of `normalizeCreatedAt` (local-time rewriting) as a parameter.
- Amounts are `real`, so floating-point rounding is not modelled. `Number(...)` string parsing and `formatBRL` (Intl) are function parameters.
- A stored record that lacks `date` or `category` is outside the model. JSON import stores records as read (js/app.js:420-424), so such records can exist. The code charts a missing category under "undefined", keeps a missing date in every date range (js/utils.js:68-69), and throws in `monthKey` and `yearKey` (js/utils.js:91, 95). The model gives every record string fields.
- A stored amount is a finite number. A record whose amount is NaN or infinite, or is not a number at all, is outside the model.
- Negative amounts are not clamped to 0 anywhere in the model. The code never clamps them, and the model follows the code.
- `trim` uses the ECMAScript white-space set. `toLowerCase` covers ASCII and Latin-1 letters only; wider Unicode case mapping is not modelled.
- String order is code-point order. It differs from JavaScript's UTF-16 order only for characters outside the Basic Multilingual Plane. `localeCompare` (js/app.js:456) is also modelled as code-point order, which agrees with it on `YYYY-MM-DD` dates.
- Tally.Add: the code's running totals are plain objects, and a label inherited from `Object.prototype` does not start from 0. `obj["__proto__"] || 0` reads the prototype and the `__proto__` setter ignores the sum, so no own key is made. "constructor", "toString" and the other inherited names start from a function, so the sum becomes a string. The model treats every label as a fresh own key starting at 0 (js/charts.js:97-114).
- Insights.Grouped: for the same reason a category, card or typed provider name such as "__proto__" is not among the code's labels, and "constructor" or "toString" gets a string in place of a sum. The model keeps each such name as an ordinary label with its sum.
- Insights.Breakdown: for an inherited label the code's value sort compares a string or drops the label; the model sorts it like any other label.
- Insights.Breakdown: ties are ordered by first appearance. JavaScript enumerates integer-like keys (such as the provider label "99" or a category named "2024") before all other keys, so tie order differs when such a label ties.
- Insights.TopCategory: among equal maxima it picks the first in first-appearance order. It differs from the code in the same way when an integer-like category name ties.
- Csv.ExportImport needs every cell to be `Readable` (a carriage return only inside a cell that is quoted anyway). Csv.CarriageReturnDropped shows what happens otherwise.
- A column header named `__proto__` or another inherited property name is not modelled; it would not become an own key of the object `parseCSV` builds.
- Taxonomy.EnsureSubcategory: it is built on the corrected `Taxonomy.EnsureCategory`. As written, an inherited name such as "constructor" is not added, `cfg.categories[cat]` is then the inherited value, and `list.includes` throws a TypeError (js/app.js:165-166). That exception is not modelled.
- Form.QuickCopy models the record as a map from field name to text, with an absent field standing for `null` or `undefined`. `fillForm`'s own normalisation of the copied values is not modelled.
- `refreshInsights` writes a period label to the page (js/app.js:466-469). This is display only and is not modelled.

## Findings

| source | as written | input that shows it | evidently intended | confidence | as-written member | corrected member |
|---|---|---|---|---|---|---|
| js/app.js:157 | the presence test is the truthiness of `cfg.categories[name]`, which also holds for names inherited from `Object.prototype` | a new category typed as "constructor" | create the category unless the configuration has its own entry for it | medium, not executed | Taxonomy.EnsureCategoryAsWritten (shown by Taxonomy.InheritedNameNotAdded) | Taxonomy.EnsureCategory |
| js/ui.js:74 | the fuel type's label is placed in the badge markup without `escapeHTML`, unlike the provider label in `deliveryBadges` (js/ui.js:105) | an imported record in "Combustível" with fuel type "<b>" | escape the label as the delivery badge does | low, not executed | Ui.FuelBadgesAsWritten (shown by Ui.FuelTypeMarkupPassesThrough) | Ui.FuelBadges |

=== FILE: calendar.dfy ===
/** Calendar dates and the grouping keys the insights screen derives from
    them (js/utils.js, `weekKey`, `monthKey`, `yearKey`). A record's date is
    a `YYYY-MM-DD` string; it is read as a plain proleptic-Gregorian
    calendar date, never as an instant, so day counts are exact. */
module Calendar {
  import opened Text
  import opened Wrappers

  datatype Date = Date(year: int, month: int, day: int)

  predicate IsLeapYear(y: int) {
    y % 4 == 0 && (y % 100 != 0 || y % 400 == 0)
  }

  function DaysInYear(y: int): int {
    if IsLeapYear(y) then 366 else 365
  }

  function DaysInMonth(y: int, m: int): int
    requires 1 <= m <= 12
  {
    if m == 2 then (if IsLeapYear(y) then 29 else 28)
    else if m == 4 || m == 6 || m == 9 || m == 11 then 30
    else 31
  }

  /** A date with a four-digit year, a month 1..12 and a day that exists in
      that month. */
  predicate Valid(d: Date) {
    && 1 <= d.year <= 9999
    && 1 <= d.month <= 12
    && 1 <= d.day <= DaysInMonth(d.year, d.month)
  }

  /** Days of year `y` that lie before the first of month `m`. */
  function DaysBeforeMonth(y: int, m: int): int
    requires 1 <= m <= 12
  {
    var common := [0, 31, 59, 90, 120, 151, 181, 212, 243, 273, 304, 334][m - 1];
    if m > 2 && IsLeapYear(y) then common + 1 else common
  }

  /** Days from 0001-01-01 to the first of January of year `y`. */
  function DaysBeforeYear(y: int): int
    requires y >= 1
  {
    var p := y - 1;
    365 * p + p / 4 - p / 100 + p / 400
  }

  /** Days elapsed since 0001-01-01: that date is day 0. */
  function DayNumber(d: Date): int
    requires Valid(d)
  {
    DaysBeforeYear(d.year) + DaysBeforeMonth(d.year, d.month) + d.day - 1
  }

  /** `getDay()`: 0 for Sunday up to 6 for Saturday; 0001-01-01 was a
      Monday. */
  function Weekday(n: int): int {
    (n + 1) % 7
  }

  /** 1-based position of `d` within its year. */
  function DayOfYear(d: Date): int
    requires Valid(d)
  {
    DaysBeforeMonth(d.year, d.month) + d.day
  }

  // ---------------------------------------------------------------------
  // The calendar arithmetic agrees with counting days one by one
  // ---------------------------------------------------------------------

  /** Month by month, the days before a month add up. */
  lemma DaysBeforeMonthStep(y: int, m: int)
    requires 1 <= m <= 12
    ensures m < 12 ==> DaysBeforeMonth(y, m + 1) == DaysBeforeMonth(y, m) + DaysInMonth(y, m)
    ensures m == 12 ==> DaysBeforeMonth(y, m) + DaysInMonth(y, m) == DaysInYear(y)
  {
  }

  lemma DivStep(y: int)
    requires y >= 1
    ensures y / 4 - (y - 1) / 4 == if y % 4 == 0 then 1 else 0
    ensures y / 100 - (y - 1) / 100 == if y % 100 == 0 then 1 else 0
    ensures y / 400 - (y - 1) / 400 == if y % 400 == 0 then 1 else 0
  {
  }

  lemma DivChain(y: int)
    ensures y % 400 == 0 ==> y % 100 == 0
    ensures y % 100 == 0 ==> y % 4 == 0
  {
    var k, q, c := y / 400, y / 100, y / 4;
    assert y == 400 * k + y % 400 && y == 100 * q + y % 100 && y == 4 * c + y % 4;
    if y % 400 == 0 {
      assert y % 100 == 100 * (4 * k - q);
    }
    if y % 100 == 0 {
      assert y % 4 == 4 * (25 * q - c);
    }
  }

  /** The closed form for the days before a year counts each year's
      length: the next year starts `DaysInYear(y)` days later. */
  lemma DaysBeforeYearStep(y: int)
    requires y >= 1
    ensures DaysBeforeYear(y + 1) == DaysBeforeYear(y) + DaysInYear(y)
  {
    DivStep(y);
    DivChain(y);
    var leaps := (y / 4 - (y - 1) / 4) - (y / 100 - (y - 1) / 100) + (y / 400 - (y - 1) / 400);
    assert DaysBeforeYear(y + 1) - DaysBeforeYear(y) == 365 + leaps;
    assert leaps == if IsLeapYear(y) then 1 else 0;
  }

  lemma {:induction false} DaysBeforeYearMonotone(y1: int, y2: int)
    requires 1 <= y1 < y2
    ensures DaysBeforeYear(y1) + DaysInYear(y1) <= DaysBeforeYear(y2)
    decreases y2 - y1
  {
    DaysBeforeYearStep(y1);
    if y1 + 1 < y2 {
      DaysBeforeYearMonotone(y1 + 1, y2);
    }
  }

  lemma {:induction false} DaysBeforeMonthMonotone(y: int, m1: int, m2: int)
    requires 1 <= m1 < m2 <= 12
    ensures DaysBeforeMonth(y, m1) + DaysInMonth(y, m1) <= DaysBeforeMonth(y, m2)
    decreases m2 - m1
  {
    DaysBeforeMonthStep(y, m1);
    if m1 + 1 < m2 {
      DaysBeforeMonthMonotone(y, m1 + 1, m2);
    }
  }

  /** A date's position within its year runs from 1 to the year's length. */
  lemma DayOfYearRange(d: Date)
    requires Valid(d)
    ensures 1 <= DayOfYear(d) <= DaysInYear(d.year)
  {
    DaysBeforeMonthStep(d.year, 12);
    if d.month < 12 {
      DaysBeforeMonthMonotone(d.year, d.month, 12);
    }
  }

  /** Lexicographic order on (year, month, day). */
  predicate Before(a: Date, b: Date) {
    || a.year < b.year
    || (a.year == b.year && a.month < b.month)
    || (a.year == b.year && a.month == b.month && a.day < b.day)
  }

  lemma BeforeDayNumber(a: Date, b: Date)
    requires Valid(a) && Valid(b) && Before(a, b)
    ensures DayNumber(a) < DayNumber(b)
  {
    DayOfYearRange(a);
    if a.year < b.year {
      DaysBeforeYearMonotone(a.year, b.year);
    } else if a.month < b.month {
      DaysBeforeMonthMonotone(a.year, a.month, b.month);
    }
  }

  /** Day numbers order dates exactly as (year, month, day) does. */
  lemma DayNumberOrder(a: Date, b: Date)
    requires Valid(a) && Valid(b)
    ensures DayNumber(a) < DayNumber(b) <==> Before(a, b)
    ensures DayNumber(a) == DayNumber(b) <==> a == b
  {
    if Before(a, b) {
      BeforeDayNumber(a, b);
    } else if Before(b, a) {
      BeforeDayNumber(b, a);
    }
  }

  /** Two dates of one year are as many days apart as their positions in
      the year. */
  lemma SameYearDistance(a: Date, b: Date)
    requires Valid(a) && Valid(b) && a.year == b.year
    ensures DayNumber(b) - DayNumber(a) == DayOfYear(b) - DayOfYear(a)
  {
  }

  // ---------------------------------------------------------------------
  // The YYYY-MM-DD text form
  // ---------------------------------------------------------------------

  function Pad(n: nat, width: nat): string {
    PadStart(Decimal(n), width, '0')
  }

  /** A date written as `YYYY-MM-DD`. */
  function Format(d: Date): string
    requires Valid(d)
  {
    Pad(d.year, 4) + "-" + Pad(d.month, 2) + "-" + Pad(d.day, 2)
  }

  /** Reads a `YYYY-MM-DD` string; a day that does not exist is `None`
      (JavaScript's "Invalid Date"). Every other string is `None` as well,
      although JavaScript's `Date` reads the shorter forms `YYYY` and
      `YYYY-MM` as the first day of that year or month. */
  function Parse(s: string): (r: Option<Date>)
    ensures r.Some? ==> Valid(r.value)
  {
    if && |s| == 10 && s[4] == '-' && s[7] == '-'
       && AllDigits(s[..4]) && AllDigits(s[5..7]) && AllDigits(s[8..])
    then
      var d := Date(DigitsValue(s[..4]), DigitsValue(s[5..7]), DigitsValue(s[8..]));
      if Valid(d) then Some(d) else None
    else None
  }

  predicate IsDate(s: string) {
    Parse(s).Some?
  }

  lemma {:induction false} DecimalShort(n: nat, w: nat)
    requires 1 <= w && n < Pow10(w)
    ensures |Decimal(n)| <= w
  {
    if n >= 10 {
      DecimalShort(n / 10, w - 1);
    }
  }

  lemma {:induction false} DecimalLong(n: nat, w: nat)
    requires 1 <= w && Pow10(w - 1) <= n
    ensures |Decimal(n)| >= w
  {
    if w > 1 {
      DecimalLong(n / 10, w - 1);
    }
  }

  /** A zero-padded number that fits its width reads back as itself. */
  lemma PadFacts(n: nat, width: nat)
    requires 1 <= width && n < Pow10(width)
    ensures |Pad(n, width)| == width && AllDigits(Pad(n, width))
    ensures DigitsValue(Pad(n, width)) == n
  {
    DecimalShort(n, width);
    ZeroPadValue(Decimal(n), width);
    DecimalRoundTrip(n);
  }

  lemma FormatSlices(d: Date)
    requires Valid(d)
    ensures var s := Format(d);
      && |s| == 10 && s[4] == '-' && s[7] == '-'
      && s[..4] == Pad(d.year, 4) && s[5..7] == Pad(d.month, 2) && s[8..] == Pad(d.day, 2)
  {
    PadFacts(d.year, 4);
    PadFacts(d.month, 2);
    PadFacts(d.day, 2);
    DashedSlices(Pad(d.year, 4), Pad(d.month, 2), Pad(d.day, 2));
  }

  /** The three fields of a dashed 4-2-2 string sit at fixed positions. */
  lemma DashedSlices(y: string, m: string, d: string)
    requires |y| == 4 && |m| == 2 && |d| == 2
    ensures var s := y + "-" + m + "-" + d;
      && |s| == 10 && s[4] == '-' && s[7] == '-'
      && s[..4] == y && s[5..7] == m && s[8..] == d
  {
  }

  /** Writing a date and reading it back gives the date. */
  lemma ParseFormat(d: Date)
    requires Valid(d)
    ensures Parse(Format(d)) == Some(d)
  {
    FormatSlices(d);
    PadFacts(d.year, 4);
    PadFacts(d.month, 2);
    PadFacts(d.day, 2);
  }

  /** A string that reads as a date is exactly that date written out: the
      text form of a date is unique. */
  lemma FormatParse(s: string)
    requires IsDate(s)
    ensures Format(Parse(s).value) == s
  {
    var d := Parse(s).value;
    FormatSlices(d);
    PadFacts(d.year, 4);
    PadFacts(d.month, 2);
    PadFacts(d.day, 2);
    var f := Format(d);
    DigitsValueInjective(f[..4], s[..4]);
    DigitsValueInjective(f[5..7], s[5..7]);
    DigitsValueInjective(f[8..], s[8..]);
    assert f[4] == s[4] && f[7] == s[7];
    SamePieces(f, s);
  }

  /** Two ten-character strings that agree piece by piece are equal. */
  lemma SamePieces(f: string, s: string)
    requires |f| == |s| == 10
    requires f[..4] == s[..4] && f[4] == s[4] && f[5..7] == s[5..7] && f[7] == s[7] && f[8..] == s[8..]
    ensures f == s
  {
    forall i | 0 <= i < 10 ensures f[i] == s[i] {
      if i < 4 {
        assert f[..4][i] == s[..4][i];
      } else if 5 <= i < 7 {
        assert f[5..7][i - 5] == s[5..7][i - 5];
      } else if 8 <= i {
        assert f[8..][i - 8] == s[8..][i - 8];
      }
    }
  }

  /** A date string is its year, month and day joined by dashes. */
  lemma DateSplit(s: string)
    requires |s| == 10 && s[4] == '-' && s[7] == '-'
    ensures s == s[..4] + ("-" + (s[5..7] + ("-" + s[8..])))
  {
  }

  /** JavaScript's `<` on two date strings is chronological order. */
  lemma StringOrderIsChronological(s: string, t: string)
    requires IsDate(s) && IsDate(t)
    ensures LexLess(s, t) <==> DayNumber(Parse(s).value) < DayNumber(Parse(t).value)
  {
    var a, b := Parse(s).value, Parse(t).value;
    DayNumberOrder(a, b);
    var ya, yb := s[..4], t[..4];
    var ma, mb := s[5..7], t[5..7];
    var da, db := s[8..], t[8..];
    DateSplit(s);
    DateSplit(t);
    LexLessAppend(ya, "-" + (ma + ("-" + da)), yb, "-" + (mb + ("-" + db)));
    LexLessAppend("-", ma + ("-" + da), "-", mb + ("-" + db));
    LexLessAppend(ma, "-" + da, mb, "-" + db);
    LexLessAppend("-", da, "-", db);
    LexLessDigits(ya, yb);
    LexLessDigits(ma, mb);
    LexLessDigits(da, db);
    if ya == yb { assert a.year == b.year; }
    if ma == mb { assert a.month == b.month; }
    if a.year == b.year { DigitsValueInjective(ya, yb); }
    if a.month == b.month { DigitsValueInjective(ma, mb); }
  }

  // ---------------------------------------------------------------------
  // Grouping keys
  // ---------------------------------------------------------------------

  /** `dateISO.slice(0, 7)`. */
  function MonthKey(s: string): (r: string)
    ensures r <= s
    ensures |r| == if |s| >= 7 then 7 else |s|
  {
    if |s| >= 7 then s[..7] else s
  }

  /** `dateISO.slice(0, 4)`. */
  function YearKey(s: string): (r: string)
    ensures r <= s
    ensures |r| == if |s| >= 4 then 4 else |s|
  {
    if |s| >= 4 then s[..4] else s
  }

  /** The week of the year of the source's own scheme (not ISO 8601):
      ceil((dayOfYear + weekday of 1 January) / 7). */
  function WeekNumber(d: Date): (w: int)
    requires Valid(d)
    ensures 1 <= w <= 54
  {
    DayOfYearRange(d);
    (DayOfYear(d) + Weekday(DaysBeforeYear(d.year)) + 6) / 7
  }

  /** `weekKey`: `<year>-W<week, two digits>`. A string that is not a date
      gives what JavaScript prints for an invalid date's fields. */
  function WeekKey(s: string): string {
    match Parse(s)
    case None => "NaN-WNaN"
    case Some(d) => Decimal(d.year) + "-W" + Pad(WeekNumber(d), 2)
  }

  /** For a date, the year key is a prefix of the month key, which is a
      prefix of the date; the two keys are four and seven characters. */
  lemma KeyPrefixes(s: string)
    requires IsDate(s)
    ensures |YearKey(s)| == 4 && |MonthKey(s)| == 7
    ensures YearKey(s) <= MonthKey(s) <= s
  {
  }

  /** Two dates share a year key exactly when they fall in the same year. */
  lemma YearKeyGroups(s: string, t: string)
    requires IsDate(s) && IsDate(t)
    ensures YearKey(s) == YearKey(t) <==> Parse(s).value.year == Parse(t).value.year
  {
    if Parse(s).value.year == Parse(t).value.year {
      DigitsValueInjective(s[..4], t[..4]);
    }
  }

  /** Two dates share a month key exactly when they fall in the same month
      of the same year. */
  lemma MonthKeyGroups(s: string, t: string)
    requires IsDate(s) && IsDate(t)
    ensures MonthKey(s) == MonthKey(t) <==>
      Parse(s).value.year == Parse(t).value.year && Parse(s).value.month == Parse(t).value.month
  {
    var a, b := Parse(s).value, Parse(t).value;
    assert s[..7] == s[..4] + [s[4]] + s[5..7];
    assert t[..7] == t[..4] + [t[4]] + t[5..7];
    if MonthKey(s) == MonthKey(t) {
      assert s[..4] == s[..7][..4] && t[..4] == t[..7][..4];
      assert s[5..7] == s[..7][5..] && t[5..7] == t[..7][5..];
    }
    if a.year == b.year && a.month == b.month {
      DigitsValueInjective(s[..4], t[..4]);
      DigitsValueInjective(s[5..7], t[5..7]);
    }
  }

  lemma WeekPadFacts(d: Date)
    requires Valid(d)
    ensures |Pad(WeekNumber(d), 2)| == 2 && AllDigits(Pad(WeekNumber(d), 2))
    ensures DigitsValue(Pad(WeekNumber(d), 2)) == WeekNumber(d)
  {
    PadFacts(WeekNumber(d), 2);
  }

  /** Two dates share a week key exactly when they fall in the same year
      and get the same week number. */
  lemma WeekKeyGroups(s: string, t: string)
    requires IsDate(s) && IsDate(t)
    ensures WeekKey(s) == WeekKey(t) <==>
      Parse(s).value.year == Parse(t).value.year && WeekNumber(Parse(s).value) == WeekNumber(Parse(t).value)
  {
    var a, b := Parse(s).value, Parse(t).value;
    WeekPadFacts(a);
    WeekPadFacts(b);
    var ya, yb := Decimal(a.year), Decimal(b.year);
    var pa, pb := Pad(WeekNumber(a), 2), Pad(WeekNumber(b), 2);
    if ya + "-W" + pa == yb + "-W" + pb {
      SameLengthSuffix(ya + "-W", pa, yb + "-W", pb);
      SameLengthSuffix(ya, "-W", yb, "-W");
      DecimalRoundTrip(a.year);
      DecimalRoundTrip(b.year);
    }
  }

  /** Two concatenations that agree, with tails of one length, agree part
      by part. */
  lemma SameLengthSuffix(x: string, u: string, y: string, v: string)
    requires x + u == y + v && |u| == |v|
    ensures x == y && u == v
  {
    assert x == (x + u)[..|x|];
    assert y == (y + v)[..|y|];
    assert u == (x + u)[|x|..];
    assert v == (y + v)[|y|..];
  }

  /** The year part of a week key, before the four characters "-Www", is
      the date's year written in decimal. */
  lemma WeekKeyYear(s: string)
    requires IsDate(s)
    ensures var k := WeekKey(s);
      && |k| >= 5 && k[|k| - 4..|k| - 2] == "-W"
      && AllDigits(k[..|k| - 4]) && DigitsValue(k[..|k| - 4]) == Parse(s).value.year
  {
    var d := Parse(s).value;
    WeekPadFacts(d);
    DecimalRoundTrip(d.year);
    var y, p := Decimal(d.year), Pad(WeekNumber(d), 2);
    assert WeekKey(s) == y + ("-W" + p);
    assert (y + ("-W" + p))[..|y|] == y;
  }

  /** For a four-digit year, the week key starts with the year key. */
  lemma WeekKeyStartsWithYearKey(s: string)
    requires IsDate(s) && 1000 <= Parse(s).value.year
    ensures WeekKey(s)[..4] == YearKey(s)
  {
    var d := Parse(s).value;
    DecimalLong(d.year, 4);
    DecimalShort(d.year, 4);
    DecimalRoundTrip(d.year);
    DigitsValueInjective(Decimal(d.year), s[..4]);
    assert WeekKey(s)[..4] == Decimal(d.year);
  }

  /** Within one year the week number never goes down as the date moves
      forward, and a date at least seven days later has a later week. */
  lemma WeekNumberMonotone(a: Date, b: Date)
    requires Valid(a) && Valid(b) && a.year == b.year
    ensures DayNumber(a) <= DayNumber(b) ==> WeekNumber(a) <= WeekNumber(b)
    ensures DayNumber(a) + 7 <= DayNumber(b) ==> WeekNumber(a) < WeekNumber(b)
  {
    SameYearDistance(a, b);
  }

  /** Two dates of one year seven or more days apart get different week
      keys. */
  lemma WeekKeysSeparate(s: string, t: string)
    requires IsDate(s) && IsDate(t)
    requires Parse(s).value.year == Parse(t).value.year
    requires DayNumber(Parse(s).value) + 7 <= DayNumber(Parse(t).value)
    ensures WeekKey(s) != WeekKey(t)
  {
    WeekNumberMonotone(Parse(s).value, Parse(t).value);
    WeekKeyGroups(s, t);
  }

  lemma Decimal2024()
    ensures Decimal(2024) == "2024"
  {
    assert Decimal(2) == "2";
    assert Decimal(20) == "20";
    assert Decimal(202) == "202";
  }

  /** The January 2024 dates used in the examples below read as dates. */
  lemma ParseJanuary2024(day: int)
    requires 1 <= day <= 9
    ensures Parse("2024-01-0" + [DigitChar(day)]) == Some(Date(2024, 1, day))
  {
    var d := Date(2024, 1, day);
    ParseFormat(d);
    Decimal2024();
    assert Pad(2024, 4) == "2024";
    assert Pad(1, 2) == "01";
    assert Decimal(day) == [DigitChar(day)];
    assert Repeat('0', 1) == "0";
    assert Pad(day, 2) == "0" + [DigitChar(day)];
    assert Format(d) == "2024-01-0" + [DigitChar(day)];
  }

  /** 2024-01-01 and 2024-01-05 fall in week 1 of 2024, 2024-01-08 in
      week 2. */
  lemma WeekKeyExamples()
    ensures WeekKey("2024-01-01") == "2024-W01"
    ensures WeekKey("2024-01-05") == "2024-W01"
    ensures WeekKey("2024-01-08") == "2024-W02"
  {
    ParseJanuary2024(1);
    ParseJanuary2024(5);
    ParseJanuary2024(8);
    assert "2024-01-0" + [DigitChar(1)] == "2024-01-01";
    assert "2024-01-0" + [DigitChar(5)] == "2024-01-05";
    assert "2024-01-0" + [DigitChar(8)] == "2024-01-08";
    Decimal2024();
    assert Weekday(DaysBeforeYear(2024)) == 1;
    assert WeekNumber(Date(2024, 1, 1)) == 1;
    assert WeekNumber(Date(2024, 1, 5)) == 1;
    assert WeekNumber(Date(2024, 1, 8)) == 2;
    assert Pad(1, 2) == "01";
    assert Pad(2, 2) == "02";
  }
}

=== FILE: csv.dfy ===
/** The CSV export and import (js/utils.js `toCSV`, `parseCSV`). Cells are
    quoted as in section 2 of RFC 4180 (rules 5 to 7: a cell holding a
    quote, a comma or a line break is enclosed in quotes, inner quotes
    doubled), but rows end with a bare line feed, and the reader drops a
    carriage return found outside quotes. */
module Csv {
  import opened Wrappers
  import opened Text
  import opened Records

  // ---------------------------------------------------------------------
  // Writing
  // ---------------------------------------------------------------------

  /** The export's columns, in order. */
  const Headers: seq<string> := [
    "id", "date", "amount", "category", "subcategory", "kind", "deliveryProvider",
    "deliveryProviderOther", "paymentMethod", "card", "installments", "fuelPricePerLiter",
    "fuelType", "priority", "merchant", "description", "createdAt"]

  predicate NeedsQuotes(s: string) {
    '"' in s || ',' in s || '\n' in s
  }

  /** The `escape` of `toCSV`: a cell that needs quotes is enclosed in
      quotes with every inner quote doubled; any other cell is written as
      is. */
  function Escape(s: string): (r: string)
    ensures !NeedsQuotes(s) ==> r == s
    ensures NeedsQuotes(s) ==> |r| >= 2 && r[0] == '"' && r[|r| - 1] == '"'
  {
    if NeedsQuotes(s) then "\"" + ReplaceChar(s, '"', "\"\"") + "\"" else s
  }

  function EscapeAll(cells: seq<string>): (r: seq<string>)
    ensures |r| == |cells| && forall i :: 0 <= i < |cells| ==> r[i] == Escape(cells[i])
  {
    seq(|cells|, i requires 0 <= i < |cells| => Escape(cells[i]))
  }

  /** One line of the file: the escaped cells joined by commas. */
  function JoinRow(cells: seq<string>): string {
    Join(EscapeAll(cells), ",")
  }

  function JoinRows(rows: seq<seq<string>>): (r: seq<string>)
    ensures |r| == |rows| && forall i :: 0 <= i < |rows| ==> r[i] == JoinRow(rows[i])
  {
    seq(|rows|, i requires 0 <= i < |rows| => JoinRow(rows[i]))
  }

  /** The lines joined by line feeds. */
  function JoinLines(rows: seq<seq<string>>): string {
    Join(JoinRows(rows), "\n")
  }

  /** `normalizeCreatedAt`: an empty value stays empty, a value in UTC
      (ending in "Z") is rewritten to local time by `localize`, anything
      else is kept. */
  function CreatedAtCell(v: string, localize: string -> string): string {
    if v == "" then ""
    else if v[|v| - 1] == 'Z' then localize(v)
    else v
  }

  /** `String(x ?? "")` for a number field: `num` is `String(n)`. */
  function NumCell(n: Option<Num>, num: Num -> string): string {
    match n
    case None => ""
    case Some(x) => num(x)
  }

  /** A record's cells, column by column. */
  function Fields(e: Expense, num: Num -> string, localize: string -> string): (r: seq<string>)
    ensures |r| == |Headers|
  {
    [e.id, e.date, num(Finite(e.amount)), e.category, e.subcategory, e.kind, e.deliveryProvider,
     e.deliveryProviderOther, e.paymentMethod, e.card, num(e.installments),
     NumCell(e.fuelPricePerLiter, num), e.fuelType, e.priority, e.merchant, e.description,
     CreatedAtCell(e.createdAt, localize)]
  }

  function Table(es: seq<Expense>, num: Num -> string, localize: string -> string): (r: seq<seq<string>>)
    ensures |r| == |es| && forall i :: 0 <= i < |es| ==> r[i] == Fields(es[i], num, localize)
  {
    seq(|es|, i requires 0 <= i < |es| => Fields(es[i], num, localize))
  }

  /** `toCSV`: the header line, then one line per record. */
  function ToCsv(es: seq<Expense>, num: Num -> string, localize: string -> string): string {
    Join([Join(Headers, ",")] + JoinRows(Table(es, num, localize)), "\n")
  }

  // ---------------------------------------------------------------------
  // Reading: the tokenizer as a state machine
  // ---------------------------------------------------------------------

  /** The reader's state: finished rows, the cells of the current row, the
      current cell, and whether the reader is inside quotes. */
  datatype Scan = Scan(rows: seq<seq<string>>, row: seq<string>, cell: string, quoted: bool)

  const Start := Scan([], [], "", false)

  /** A row is kept unless it is a single empty cell. */
  predicate Kept(row: seq<string>) {
    |row| > 1 || (|row| == 1 && row[0] != "")
  }

  /** The end of a line: the current cell closes the row, which is kept
      unless it is a single empty cell. */
  function EndRow(st: Scan): (r: Scan)
    ensures r.row == [] && r.cell == "" && r.quoted == st.quoted
    ensures var row := st.row + [st.cell];
      r.rows == st.rows + (if Kept(row) then [row] else [])
  {
    var row := st.row + [st.cell];
    Scan(if Kept(row) then st.rows + [row] else st.rows, [], "", st.quoted)
  }

  /** One turn of the reading loop on the text still to read: the new
      state and how many characters the turn consumed. */
  function Step(st: Scan, s: string): (res: (Scan, nat))
    requires |s| > 0
    ensures 1 <= res.1 <= |s|
  {
    var ch := s[0];
    if st.quoted then
      if ch == '"' && |s| > 1 && s[1] == '"' then (st.(cell := st.cell + ['"']), 2)
      else if ch == '"' then (st.(quoted := false), 1)
      else (st.(cell := st.cell + [ch]), 1)
    else if ch == '"' then (st.(quoted := true), 1)
    else if ch == ',' then (st.(row := st.row + [st.cell], cell := ""), 1)
    else if ch == '\n' then (EndRow(st), 1)
    else if ch == '\r' then (st, 1)
    else (st.(cell := st.cell + [ch]), 1)
  }

  /** The rows read from `s` starting in state `st`. */
  function Run(st: Scan, s: string): seq<seq<string>>
    decreases |s|
  {
    if |s| == 0 then EndRow(st).rows
    else
      var (next, n) := Step(st, s);
      Run(next, s[n..])
  }

  /** One turn of the loop, spelled out. */
  lemma RunStep(st: Scan, s: string)
    requires |s| > 0
    ensures Run(st, s) == Run(Step(st, s).0, s[Step(st, s).1..])
  {
  }

  /** The rows of a text, before the header row is applied. */
  function Rows(text: string): seq<seq<string>> {
    Run(Start, text)
  }

  /** The loop of `parseCSV`, cell by cell and row by row. */
  method Tokenize(text: string) returns (rows: seq<seq<string>>)
    ensures rows == Rows(text)
  {
    rows := [];
    var row: seq<string> := [];
    var cell := "";
    var inQuotes := false;
    var i := 0;
    while i < |text|
      invariant 0 <= i <= |text|
      invariant Run(Scan(rows, row, cell, inQuotes), text[i..]) == Rows(text)
      decreases |text| - i
    {
      var ch := text[i];
      assert Step(Scan(rows, row, cell, inQuotes), text[i..]).0 == Step(Scan(rows, row, cell, inQuotes), text[i..]).0;
      if inQuotes {
        if ch == '"' && i + 1 < |text| && text[i + 1] == '"' {
          assert text[i..][2..] == text[i + 2..];
          cell := cell + ['"'];
          i := i + 2;
          continue;
        }
        assert text[i..][1..] == text[i + 1..];
        if ch == '"' {
          inQuotes := false;
        } else {
          cell := cell + [ch];
        }
        i := i + 1;
        continue;
      }
      assert text[i..][1..] == text[i + 1..];
      if ch == '"' {
        inQuotes := true;
      } else if ch == ',' {
        row := row + [cell];
        cell := "";
      } else if ch == '\n' {
        row := row + [cell];
        cell := "";
        if Kept(row) {
          rows := rows + [row];
        }
        row := [];
      } else if ch != '\r' {
        cell := cell + [ch];
      }
      i := i + 1;
    }
    row := row + [cell];
    if Kept(row) {
      rows := rows + [row];
    }
  }

  /** Every row read is kept: a line holding nothing, or a lone empty cell,
      never yields a row. */
  lemma {:induction false} RunKeeps(st: Scan, s: string)
    requires forall r :: r in st.rows ==> Kept(r)
    ensures forall r :: r in Run(st, s) ==> Kept(r)
    decreases |s|
  {
    if |s| > 0 {
      var (next, n) := Step(st, s);
      RunKeeps(next, s[n..]);
    }
  }

  /** Empty text has no rows. */
  lemma NoRowsFromEmptyText()
    ensures Rows("") == []
  {
  }

  // ---------------------------------------------------------------------
  // Round trip: reading what was written
  // ---------------------------------------------------------------------

  /** A cell whose carriage returns survive reading: an unquoted cell loses
      them, a quoted one keeps them. */
  predicate Readable(c: string) {
    '\r' in c ==> NeedsQuotes(c)
  }

  lemma {:induction false} PlainCell(c: string, rest: string, st: Scan)
    requires !st.quoted && !NeedsQuotes(c) && '\r' !in c
    ensures Run(st, c + rest) == Run(st.(cell := st.cell + c), rest)
    decreases |c|
  {
    if |c| == 0 {
      assert c + rest == rest;
      assert st.cell + c == st.cell;
    } else {
      var s := c + rest;
      assert s[0] == c[0] && s[1..] == c[1..] + rest;
      assert !NeedsQuotes(c[1..]) by {
        assert forall x :: x in c[1..] ==> x in c;
      }
      RunStep(st, s);
      PlainCell(c[1..], rest, st.(cell := st.cell + [c[0]]));
      SnocHead(st.cell, c);
    }
  }

  lemma {:induction false} QuotedBody(c: string, rest: string, st: Scan)
    requires st.quoted && (rest == [] || rest[0] != '"')
    ensures Run(st, ReplaceChar(c, '"', "\"\"") + "\"" + rest)
         == Run(st.(cell := st.cell + c, quoted := false), rest)
    decreases |c|
  {
    var s := ReplaceChar(c, '"', "\"\"") + "\"" + rest;
    if |c| == 0 {
      assert s == "\"" + rest;
      assert s[0] == '"' && s[1..] == rest && (|s| == 1 || s[1] != '"');
      RunStep(st, s);
      assert st.(cell := st.cell + c, quoted := false) == st.(quoted := false);
    } else {
      var next := st.(cell := st.cell + [c[0]]);
      QuotedStep(c, rest, st);
      QuotedBody(c[1..], rest, next);
      SnocHead(st.cell, c);
    }
  }

  /** Inside quotes, one character of an escaped cell (a doubled quote
      counting as one) moves into the current cell. */
  lemma QuotedStep(c: string, rest: string, st: Scan)
    requires st.quoted && |c| > 0
    ensures Run(st, ReplaceChar(c, '"', "\"\"") + "\"" + rest)
         == Run(st.(cell := st.cell + [c[0]]), ReplaceChar(c[1..], '"', "\"\"") + "\"" + rest)
  {
    var s := ReplaceChar(c, '"', "\"\"") + "\"" + rest;
    var tail := ReplaceChar(c[1..], '"', "\"\"") + "\"" + rest;
    if c[0] == '"' {
      assert s == "\"\"" + tail;
      assert s[0] == '"' && s[1] == '"' && s[2..] == tail;
    } else {
      assert s == [c[0]] + tail;
      assert s[0] == c[0] && s[1..] == tail;
    }
    RunStep(st, s);
  }

  /** Reading an escaped cell gives back the cell. */
  lemma CellRoundTrip(c: string, rest: string, st: Scan)
    requires !st.quoted && Readable(c) && (rest == [] || rest[0] != '"')
    ensures Run(st, Escape(c) + rest) == Run(st.(cell := st.cell + c), rest)
  {
    if NeedsQuotes(c) {
      QuotedCell(c, rest, st);
    } else {
      PlainCell(c, rest, st);
    }
  }

  lemma EscapedText(c: string, rest: string)
    requires NeedsQuotes(c)
    ensures Escape(c) + rest == "\"" + (ReplaceChar(c, '"', "\"\"") + "\"" + rest)
  {
  }

  lemma QuotedCell(c: string, rest: string, st: Scan)
    requires !st.quoted && NeedsQuotes(c) && (rest == [] || rest[0] != '"')
    ensures Run(st, Escape(c) + rest) == Run(st.(cell := st.cell + c), rest)
  {
    var body := ReplaceChar(c, '"', "\"\"") + "\"" + rest;
    var inside := st.(quoted := true);
    var after := inside.(cell := inside.cell + c, quoted := false);
    calc {
      Run(st, Escape(c) + rest);
      { EscapedText(c, rest); }
      Run(st, "\"" + body);
      { OpenQuote(st, body); }
      Run(inside, body);
      { QuotedBody(c, rest, inside); }
      Run(after, rest);
      { assert after == st.(cell := st.cell + c); }
      Run(st.(cell := st.cell + c), rest);
    }
  }

  /** A quote outside quotes opens a quoted cell. */
  lemma OpenQuote(st: Scan, t: string)
    requires !st.quoted
    ensures Run(st, "\"" + t) == Run(st.(quoted := true), t)
  {
    var s := "\"" + t;
    assert s[0] == '"' && s[1..] == t;
    RunStep(st, s);
  }

  lemma JoinRowCons(cells: seq<string>)
    requires |cells| >= 2
    ensures JoinRow(cells) == Escape(cells[0]) + "," + JoinRow(cells[1..])
  {
    assert EscapeAll(cells)[1..] == EscapeAll(cells[1..]);
  }

  /** A comma outside quotes closes the current cell. */
  lemma CommaStep(st: Scan, t: string)
    requires !st.quoted
    ensures Run(st, "," + t) == Run(st.(row := st.row + [st.cell], cell := ""), t)
  {
    var s := "," + t;
    assert s[0] == ',' && s[1..] == t;
    RunStep(st, s);
  }

  /** A line feed outside quotes closes the current row. */
  lemma NewlineStep(st: Scan, t: string)
    requires !st.quoted
    ensures Run(st, "\n" + t) == Run(EndRow(st), t)
  {
    var s := "\n" + t;
    assert s[0] == '\n' && s[1..] == t;
    RunStep(st, s);
  }

  /** Reading a written line gives back its cells: all but the last are
      closed, the last is the current cell. */
  lemma {:induction false} RowRoundTrip(cells: seq<string>, rest: string, st: Scan)
    requires |cells| >= 1 && forall i :: 0 <= i < |cells| ==> Readable(cells[i])
    requires !st.quoted && st.cell == "" && (rest == [] || rest[0] == '\n')
    ensures Run(st, JoinRow(cells) + rest)
         == Run(st.(row := st.row + cells[..|cells| - 1], cell := cells[|cells| - 1]), rest)
    decreases |cells|
  {
    if |cells| == 1 {
      RowOne(cells, rest, st);
      assert st.row + cells[..0] == st.row;
    } else {
      var next := st.(row := st.row + [cells[0]], cell := "");
      var n := |cells|;
      var tail := cells[1..];
      forall i | 0 <= i < |tail| ensures Readable(tail[i]) {
        assert tail[i] == cells[i + 1];
      }
      calc {
        Run(st, JoinRow(cells) + rest);
        { RowFirst(cells, rest, st); }
        Run(next, JoinRow(tail) + rest);
        { RowRoundTrip(tail, rest, next); }
        Run(next.(row := next.row + tail[..n - 2], cell := tail[n - 2]), rest);
        { RowPrefix(st, cells); }
        Run(st.(row := st.row + cells[..n - 1], cell := cells[n - 1]), rest);
      }
    }
  }

  /** Closing the first cell, then all but the last of the others, closes
      all but the last cell. */
  lemma RowPrefix(st: Scan, cells: seq<string>)
    requires |cells| >= 2
    ensures var n := |cells|;
      var next := st.(row := st.row + [cells[0]], cell := "");
      next.(row := next.row + cells[1..][..n - 2], cell := cells[1..][n - 2])
        == st.(row := st.row + cells[..n - 1], cell := cells[n - 1])
  {
    var n := |cells|;
    assert cells[..n - 1] == [cells[0]] + cells[1..][..n - 2];
    assert st.row + [cells[0]] + cells[1..][..n - 2] == st.row + cells[..n - 1];
  }

  lemma RowOne(cells: seq<string>, rest: string, st: Scan)
    requires |cells| == 1 && Readable(cells[0])
    requires !st.quoted && st.cell == "" && (rest == [] || rest[0] == '\n')
    ensures Run(st, JoinRow(cells) + rest) == Run(st.(cell := cells[0]), rest)
  {
    assert JoinRow(cells) == Escape(cells[0]);
    CellRoundTrip(cells[0], rest, st);
    assert st.cell + cells[0] == cells[0];
  }

  lemma RowFirst(cells: seq<string>, rest: string, st: Scan)
    requires |cells| >= 2 && Readable(cells[0])
    requires !st.quoted && st.cell == ""
    ensures Run(st, JoinRow(cells) + rest)
         == Run(st.(row := st.row + [cells[0]], cell := ""), JoinRow(cells[1..]) + rest)
  {
    var tail := JoinRow(cells[1..]) + rest;
    var mid := st.(cell := st.cell + cells[0]);
    calc {
      Run(st, JoinRow(cells) + rest);
      { JoinRowText(cells, rest); }
      Run(st, Escape(cells[0]) + ("," + tail));
      { CellRoundTrip(cells[0], "," + tail, st); }
      Run(mid, "," + tail);
      { CommaStep(mid, tail); }
      Run(mid.(row := mid.row + [mid.cell], cell := ""), tail);
      { assert mid.cell == cells[0]; }
      Run(st.(row := st.row + [cells[0]], cell := ""), tail);
    }
  }

  lemma JoinRowText(cells: seq<string>, rest: string)
    requires |cells| >= 2
    ensures JoinRow(cells) + rest == Escape(cells[0]) + ("," + (JoinRow(cells[1..]) + rest))
  {
    JoinRowCons(cells);
  }

  /** The rows of a list, less those a reader skips. */
  function KeptRows(rows: seq<seq<string>>): seq<seq<string>> {
    if |rows| == 0 then []
    else (if Kept(rows[0]) then [rows[0]] else []) + KeptRows(rows[1..])
  }

  /** `KeptRows` keeps exactly the kept rows. */
  lemma {:induction false} KeptRowsMembers(rows: seq<seq<string>>)
    ensures forall x :: x in KeptRows(rows) <==> x in rows && Kept(x)
  {
    if |rows| > 0 {
      KeptRowsMembers(rows[1..]);
      assert rows == [rows[0]] + rows[1..];
    }
  }

  lemma JoinLinesCons(rows: seq<seq<string>>)
    requires |rows| >= 2
    ensures JoinLines(rows) == JoinRow(rows[0]) + ("\n" + JoinLines(rows[1..]))
  {
    assert JoinRows(rows)[1..] == JoinRows(rows[1..]);
  }

  /** The first line of several: its row is closed and kept if `Kept`. */
  lemma LineFirst(rows: seq<seq<string>>, st: Scan)
    requires |rows| >= 2 && |rows[0]| >= 1
    requires forall j :: 0 <= j < |rows[0]| ==> Readable(rows[0][j])
    requires !st.quoted && st.row == [] && st.cell == ""
    ensures var next := st.(rows := st.rows + (if Kept(rows[0]) then [rows[0]] else []));
      Run(st, JoinLines(rows)) == Run(next, JoinLines(rows[1..]))
  {
    var r0 := rows[0];
    var n := |r0|;
    var tail := JoinLines(rows[1..]);
    var after := st.(row := st.row + r0[..n - 1], cell := r0[n - 1]);
    calc {
      Run(st, JoinLines(rows));
      { JoinLinesText(rows); }
      Run(st, JoinRow(r0) + ("\n" + tail));
      { RowRoundTrip(r0, "\n" + tail, st); }
      Run(after, "\n" + tail);
      { NewlineStep(after, tail); }
      Run(EndRow(after), tail);
      { CloseRow(st, r0); }
      Run(st.(rows := st.rows + (if Kept(r0) then [r0] else [])), tail);
    }
  }

  lemma JoinLinesText(rows: seq<seq<string>>)
    requires |rows| >= 2
    ensures JoinLines(rows) == JoinRow(rows[0]) + ("\n" + JoinLines(rows[1..]))
  {
    JoinLinesCons(rows);
  }

  /** The end of a line on which all cells were read closes that row. */
  lemma CloseRow(st: Scan, r0: seq<string>)
    requires |r0| >= 1 && st.row == [] && st.cell == ""
    ensures var n := |r0|;
      EndRow(st.(row := st.row + r0[..n - 1], cell := r0[n - 1]))
        == st.(rows := st.rows + (if Kept(r0) then [r0] else []))
  {
    var n := |r0|;
    assert st.row + r0[..n - 1] + [r0[n - 1]] == r0;
  }

  /** The last line: its row is closed at the end of the text. */
  lemma LineLast(rows: seq<seq<string>>, st: Scan)
    requires |rows| == 1 && |rows[0]| >= 1
    requires forall j :: 0 <= j < |rows[0]| ==> Readable(rows[0][j])
    requires !st.quoted && st.row == [] && st.cell == ""
    ensures Run(st, JoinLines(rows)) == st.rows + (if Kept(rows[0]) then [rows[0]] else [])
  {
    var r0 := rows[0];
    var n := |r0|;
    var after := st.(row := st.row + r0[..n - 1], cell := r0[n - 1]);
    calc {
      Run(st, JoinLines(rows));
      { assert JoinLines(rows) == JoinRow(r0) + []; }
      Run(st, JoinRow(r0) + []);
      { RowRoundTrip(r0, [], st); }
      Run(after, []);
      EndRow(after).rows;
      { CloseRow(st, r0); }
      st.rows + (if Kept(r0) then [r0] else []);
    }
  }

  /** Reading written lines gives back the rows, less those the reader
      skips. */
  lemma {:induction false} LinesRoundTrip(rows: seq<seq<string>>, st: Scan)
    requires forall i, j :: 0 <= i < |rows| && 0 <= j < |rows[i]| ==> Readable(rows[i][j])
    requires forall i :: 0 <= i < |rows| ==> |rows[i]| >= 1
    requires !st.quoted && st.row == [] && st.cell == ""
    ensures Run(st, JoinLines(rows)) == st.rows + KeptRows(rows)
    decreases |rows|
  {
    if |rows| == 0 {
      assert JoinLines(rows) == [];
    } else if |rows| == 1 {
      LineLast(rows, st);
      assert KeptRows(rows[1..]) == [];
      assert KeptRows(rows) == (if Kept(rows[0]) then [rows[0]] else []) + [];
    } else {
      var head := if Kept(rows[0]) then [rows[0]] else [];
      var next := st.(rows := st.rows + head);
      calc {
        Run(st, JoinLines(rows));
        { LineFirst(rows, st); }
        Run(next, JoinLines(rows[1..]));
        { LinesRoundTrip(rows[1..], next); }
        st.rows + head + KeptRows(rows[1..]);
        { KeptRowsCons(rows); }
        st.rows + KeptRows(rows);
      }
    }
  }

  lemma KeptRowsCons(rows: seq<seq<string>>)
    requires |rows| >= 1
    ensures KeptRows(rows) == (if Kept(rows[0]) then [rows[0]] else []) + KeptRows(rows[1..])
  {
  }

  /** Reading a written table gives back its rows, less the rows that are
      a lone empty cell, provided every cell is `Readable`. */
  lemma TableRoundTrip(rows: seq<seq<string>>)
    requires forall i, j :: 0 <= i < |rows| && 0 <= j < |rows[i]| ==> Readable(rows[i][j])
    requires forall i :: 0 <= i < |rows| ==> |rows[i]| >= 1
    ensures Rows(JoinLines(rows)) == KeptRows(rows)
  {
    LinesRoundTrip(rows, Start);
  }

  /** A carriage return outside quotes is lost: the round trip needs
      `Readable`. */
  lemma CarriageReturnDropped()
    ensures Rows(JoinLines([["a\r"]])) == [["a"]]
  {
    assert JoinLines([["a\r"]]) == "a\r";
    var st1 := Start.(cell := "a");
    assert Start.cell + ['a'] == "a";
    RunStep(Start, "a\r");
    assert Step(Start, "a\r") == (st1, 1);
    assert "a\r"[1..] == "\r";
    RunStep(st1, "\r");
    assert Step(st1, "\r") == (st1, 1);
    assert "\r"[1..] == "";
    assert Rows("a\r") == Run(st1, "");
    assert st1.row + [st1.cell] == ["a"];
    assert EndRow(st1).rows == [["a"]];
  }

  // ---------------------------------------------------------------------
  // Reading: records
  // ---------------------------------------------------------------------

  /** `rows[r][c] ?? ""`: a missing cell reads as empty. */
  function CellAt(row: seq<string>, c: int): string {
    if 0 <= c < |row| then row[c] else ""
  }

  /** The object built for one row, header by header from column `c` on;
      a header that occurs twice takes the later column's cell. */
  function Assign(headers: seq<string>, row: seq<string>, c: nat, obj: map<string, string>): map<string, string>
    decreases |headers| - c
  {
    if c >= |headers| then obj
    else Assign(headers, row, c + 1, obj[headers[c] := CellAt(row, c)])
  }

  /** The column names from column `c` on. */
  function NamesFrom(headers: seq<string>, c: nat): set<string> {
    set d | c <= d < |headers| :: headers[d]
  }

  lemma NamesFromStep(headers: seq<string>, c: nat)
    requires c < |headers|
    ensures NamesFrom(headers, c) == {headers[c]} + NamesFrom(headers, c + 1)
  {
    assert headers[c] in NamesFrom(headers, c);
    forall k | k in NamesFrom(headers, c) ensures k in {headers[c]} + NamesFrom(headers, c + 1) {
      var d :| c <= d < |headers| && headers[d] == k;
      if d > c {
        assert k in NamesFrom(headers, c + 1);
      }
    }
  }

  /** Every column name is a key and nothing else is added; a name used by
      one column only maps to that column's cell, or to "" when the row is
      too short. */
  lemma {:induction false} AssignFacts(headers: seq<string>, row: seq<string>, c: nat, obj: map<string, string>)
    requires c <= |headers|
    ensures Assign(headers, row, c, obj).Keys == obj.Keys + NamesFrom(headers, c)
    ensures forall d :: c <= d < |headers| ==> headers[d] in Assign(headers, row, c, obj)
    ensures forall d :: c <= d < |headers| && (forall e :: d < e < |headers| ==> headers[e] != headers[d]) ==>
      Assign(headers, row, c, obj)[headers[d]] == CellAt(row, d)
    decreases |headers| - c
  {
    if c < |headers| {
      var obj' := obj[headers[c] := CellAt(row, c)];
      AssignFacts(headers, row, c + 1, obj');
      NamesFromStep(headers, c);
      AssignGrows(headers, row, c + 1, obj', headers[c]);
      if forall e :: c < e < |headers| ==> headers[e] != headers[c] {
        AssignKeeps(headers, row, c + 1, obj', headers[c]);
      }
    }
  }

  lemma {:induction false} AssignGrows(headers: seq<string>, row: seq<string>, c: nat, obj: map<string, string>, k: string)
    requires k in obj
    ensures k in Assign(headers, row, c, obj)
    decreases |headers| - c
  {
    if c < |headers| {
      AssignGrows(headers, row, c + 1, obj[headers[c] := CellAt(row, c)], k);
    }
  }

  lemma {:induction false} AssignKeeps(headers: seq<string>, row: seq<string>, c: nat, obj: map<string, string>, k: string)
    requires k in obj && forall d :: c <= d < |headers| ==> headers[d] != k
    ensures k in Assign(headers, row, c, obj) && Assign(headers, row, c, obj)[k] == obj[k]
    decreases |headers| - c
  {
    if c < |headers| {
      AssignKeeps(headers, row, c + 1, obj[headers[c] := CellAt(row, c)], k);
    }
  }

  function Record(headers: seq<string>, row: seq<string>): (r: map<string, string>)
    ensures r.Keys == set d | 0 <= d < |headers| :: headers[d]
    ensures forall d :: 0 <= d < |headers| ==> headers[d] in r
    ensures forall d :: 0 <= d < |headers| && (forall e :: d < e < |headers| ==> headers[e] != headers[d]) ==>
      r[headers[d]] == CellAt(row, d)
  {
    AssignFacts(headers, row, 0, map[]);
    Assign(headers, row, 0, map[])
  }

  function TrimAll(cells: seq<string>): (r: seq<string>)
    ensures |r| == |cells| && forall i :: 0 <= i < |cells| ==> r[i] == Trim(cells[i])
  {
    seq(|cells|, i requires 0 <= i < |cells| => Trim(cells[i]))
  }

  /** The objects for a list of rows: the first row, trimmed, names the
      columns; every later row becomes one object holding every column
      name. */
  function RecordsOf(rows: seq<seq<string>>): (r: seq<map<string, string>>)
    ensures |rows| == 0 ==> r == []
    ensures |rows| > 0 ==> |r| == |rows| - 1
  {
    if |rows| == 0 then [] else RecordsFor(TrimAll(rows[0]), rows[1..])
  }

  /** One object per row, all under the same column names. */
  function RecordsFor(headers: seq<string>, body: seq<seq<string>>): (r: seq<map<string, string>>)
    ensures |r| == |body| && forall i :: 0 <= i < |body| ==> r[i] == Record(headers, body[i])
  {
    seq(|body|, i requires 0 <= i < |body| => Record(headers, body[i]))
  }

  /** `parseCSV`: the rows of the text turned into objects. */
  function ParseCsv(text: string): (r: seq<map<string, string>>)
    ensures text == "" ==> r == []
  {
    RecordsOf(Rows(text))
  }

  /** The object for row `i + 1`. */
  lemma RecordsOfAt(rows: seq<seq<string>>, i: nat)
    requires i + 1 < |rows|
    ensures RecordsOf(rows)[i] == Record(TrimAll(rows[0]), rows[i + 1])
  {
    assert rows[1..][i] == rows[i + 1];
  }

  /** Every object holds every trimmed name of the first row, whatever
      the length of its own row. */
  lemma RecordsOfKeys(rows: seq<seq<string>>, i: nat)
    requires i + 1 < |rows|
    ensures forall d :: 0 <= d < |rows[0]| ==> Trim(rows[0][d]) in RecordsOf(rows)[i]
    ensures RecordsOf(rows)[i].Keys == set d | 0 <= d < |rows[0]| :: Trim(rows[0][d])
  {
    RecordsOfAt(rows, i);
    var names := TrimAll(rows[0]);
    var got := set d | 0 <= d < |names| :: names[d];
    var trimmed := set d | 0 <= d < |rows[0]| :: Trim(rows[0][d]);
    forall k | k in trimmed ensures k in got {
      var d :| 0 <= d < |rows[0]| && Trim(rows[0][d]) == k;
      assert names[d] == k;
    }
    assert got == trimmed;
  }

  /** A column whose name no later column repeats reads its own cell. */
  lemma RecordField(headers: seq<string>, row: seq<string>, j: nat)
    requires j < |headers| && j < |row|
    requires forall e :: j < e < |headers| ==> headers[e] != headers[j]
    ensures headers[j] in Record(headers, row) && Record(headers, row)[headers[j]] == row[j]
  {
  }

  // ---------------------------------------------------------------------
  // Export then import
  // ---------------------------------------------------------------------

  predicate IsLetter(c: char) {
    'a' <= c <= 'z' || 'A' <= c <= 'Z'
  }

  predicate Word(s: string) {
    |s| > 0 && forall k :: 0 <= k < |s| ==> IsLetter(s[k])
  }

  lemma HeaderWords()
    ensures forall i :: 0 <= i < |Headers| ==> Word(Headers[i])
  {
    FieldWords();
    MoreFieldWords();
  }

  lemma FieldWords()
    ensures Word("id")
    ensures Word("date")
    ensures Word("amount")
    ensures Word("category")
    ensures Word("subcategory")
    ensures Word("kind")
    ensures Word("deliveryProvider")
    ensures Word("deliveryProviderOther")
    ensures Word("paymentMethod")
  {
  }

  lemma MoreFieldWords()
    ensures Word("card")
    ensures Word("installments")
    ensures Word("fuelPricePerLiter")
    ensures Word("fuelType")
    ensures Word("priority")
    ensures Word("merchant")
    ensures Word("description")
    ensures Word("createdAt")
  {
  }

  /** A column name is written as is and reads back as is. */
  lemma HeadersPlain()
    ensures forall i :: 0 <= i < |Headers| ==>
      |Headers[i]| > 0 && !NeedsQuotes(Headers[i]) && '\r' !in Headers[i]
      && !IsSpace(Headers[i][0]) && !IsSpace(Headers[i][|Headers[i]| - 1])
  {
    HeaderWords();
    forall i | 0 <= i < |Headers| ensures WordPlain(Headers[i]) {
      WordIsPlain(Headers[i]);
    }
  }

  predicate WordPlain(s: string) {
    |s| > 0 && !NeedsQuotes(s) && '\r' !in s && !IsSpace(s[0]) && !IsSpace(s[|s| - 1])
  }

  lemma WordIsPlain(s: string)
    requires Word(s)
    ensures WordPlain(s)
  {
    assert forall x :: x in s ==> IsLetter(x);
  }

  /** No two columns share a name. */
  lemma HeadersDistinct()
    ensures forall i, j :: 0 <= i < j < |Headers| ==> Headers[i] != Headers[j]
  {
    var sig := [(2, 'i'), (4, 'd'), (6, 'a'), (8, 'c'), (11, 's'), (4, 'k'), (16, 'd'), (21, 'd'),
                (13, 'p'), (4, 'c'), (12, 'i'), (17, 'f'), (8, 'f'), (8, 'p'), (8, 'm'), (11, 'd'), (9, 'c')];
    assert forall i :: 0 <= i < |Headers| ==> sig[i] == (|Headers[i]|, Headers[i][0]);
    assert forall i, j :: 0 <= i < j < |sig| ==> sig[i] != sig[j];
  }

  lemma TrimUnspaced(s: string)
    requires |s| > 0 && !IsSpace(s[0]) && !IsSpace(s[|s| - 1])
    ensures Trim(s) == s
  {
    assert LeadingSpaces(s) == 0;
    assert s[0..] == s;
  }

  /** The export is the written table whose first row is the header row. */
  lemma ToCsvLines(es: seq<Expense>, num: Num -> string, localize: string -> string)
    ensures ToCsv(es, num, localize) == JoinLines([Headers] + Table(es, num, localize))
  {
    HeadersPlain();
    var table := [Headers] + Table(es, num, localize);
    assert EscapeAll(Headers) == Headers;
    assert JoinRows(table) == [Join(Headers, ",")] + JoinRows(Table(es, num, localize));
  }

  /** Reading an export gives back the header row and one row per record. */
  lemma ExportRows(es: seq<Expense>, num: Num -> string, localize: string -> string)
    requires forall i, j :: 0 <= i < |es| && 0 <= j < |Headers| ==>
      Readable(Fields(es[i], num, localize)[j])
    ensures Rows(ToCsv(es, num, localize)) == [Headers] + Table(es, num, localize)
  {
    var table := [Headers] + Table(es, num, localize);
    calc {
      Rows(ToCsv(es, num, localize));
      { ToCsvLines(es, num, localize); }
      Rows(JoinLines(table));
      { ExportReadable(es, num, localize); TableRoundTrip(table); }
      KeptRows(table);
      { ExportReadable(es, num, localize); KeptAll(table); }
      table;
    }
  }

  /** Every row of an export has all the columns, and every cell of it is
      `Readable` when every field is. */
  lemma ExportReadable(es: seq<Expense>, num: Num -> string, localize: string -> string)
    requires forall i, j :: 0 <= i < |es| && 0 <= j < |Headers| ==>
      Readable(Fields(es[i], num, localize)[j])
    ensures var table := [Headers] + Table(es, num, localize);
      && (forall i :: 0 <= i < |table| ==> |table[i]| == |Headers| > 1)
      && forall i, j :: 0 <= i < |table| && 0 <= j < |table[i]| ==> Readable(table[i][j])
  {
    var table := [Headers] + Table(es, num, localize);
    HeadersPlain();
    forall i, j | 0 <= i < |table| && 0 <= j < |table[i]| ensures Readable(table[i][j]) {
      if i > 0 {
        assert table[i] == Fields(es[i - 1], num, localize);
      }
    }
  }

  lemma HeadersTrimmed()
    ensures TrimAll(Headers) == Headers
  {
    HeadersPlain();
    forall i | 0 <= i < |Headers| ensures TrimAll(Headers)[i] == Headers[i] {
      TrimUnspaced(Headers[i]);
    }
  }

  /** Importing an export gives one object per record, mapping each column
      name to the record's cell in that column, whenever every cell is
      `Readable`. */
  lemma ExportImport(es: seq<Expense>, num: Num -> string, localize: string -> string)
    requires forall i, j :: 0 <= i < |es| && 0 <= j < |Headers| ==>
      Readable(Fields(es[i], num, localize)[j])
    ensures |ParseCsv(ToCsv(es, num, localize))| == |es|
    ensures forall i :: 0 <= i < |es| ==>
      ParseCsv(ToCsv(es, num, localize))[i].Keys == set j | 0 <= j < |Headers| :: Headers[j]
    ensures forall i, j :: 0 <= i < |es| && 0 <= j < |Headers| ==>
      Headers[j] in ParseCsv(ToCsv(es, num, localize))[i]
      && ParseCsv(ToCsv(es, num, localize))[i][Headers[j]] == Fields(es[i], num, localize)[j]
  {
    var rows := [Headers] + Table(es, num, localize);
    ExportRows(es, num, localize);
    ImportedAll(es, num, localize, rows);
  }

  lemma ImportedAll(es: seq<Expense>, num: Num -> string, localize: string -> string, rows: seq<seq<string>>)
    requires rows == [Headers] + Table(es, num, localize)
    ensures |RecordsOf(rows)| == |es|
    ensures forall i :: 0 <= i < |es| ==> RecordsOf(rows)[i].Keys == set j | 0 <= j < |Headers| :: Headers[j]
    ensures forall i, j :: 0 <= i < |es| && 0 <= j < |Headers| ==>
      Headers[j] in RecordsOf(rows)[i] && RecordsOf(rows)[i][Headers[j]] == Fields(es[i], num, localize)[j]
  {
    HeadersTrimmed();
    forall i | 0 <= i < |es| ensures RecordsOf(rows)[i].Keys == set j | 0 <= j < |Headers| :: Headers[j] {
      RecordsOfAt(rows, i);
    }
    forall i, j | 0 <= i < |es| && 0 <= j < |Headers|
      ensures Headers[j] in RecordsOf(rows)[i] && RecordsOf(rows)[i][Headers[j]] == Fields(es[i], num, localize)[j]
    {
      ImportedField(es, num, localize, rows, i, j);
    }
  }

  lemma ImportedField(es: seq<Expense>, num: Num -> string, localize: string -> string,
                      rows: seq<seq<string>>, i: nat, j: nat)
    requires rows == [Headers] + Table(es, num, localize) && TrimAll(rows[0]) == Headers
    requires i < |es| && j < |Headers|
    ensures Headers[j] in RecordsOf(rows)[i]
    ensures RecordsOf(rows)[i][Headers[j]] == Fields(es[i], num, localize)[j]
  {
    var row := Fields(es[i], num, localize);
    assert rows[i + 1] == row;
    RecordsOfAt(rows, i);
    assert forall e :: j < e < |Headers| ==> Headers[e] != Headers[j] by {
      HeadersDistinct();
    }
    RecordField(Headers, row, j);
  }

  lemma {:induction false} KeptAll(rows: seq<seq<string>>)
    requires forall i :: 0 <= i < |rows| ==> |rows[i]| > 1
    ensures KeptRows(rows) == rows
  {
    if |rows| > 0 {
      KeptAll(rows[1..]);
      assert rows == [rows[0]] + rows[1..];
    }
  }
}

=== FILE: filters.dfy ===
/** The record filters of the list screen and the insights screen
    (js/utils.js `inRangeISO`, `includesText`; js/app.js `renderList`,
    `refreshInsights`). */
module Filters {
  import opened Text
  import opened Calendar
  import opened Records
  import opened Tally
  import opened Insights

  /** `inRangeISO`: an empty bound does not restrict; otherwise the date
      must not sort before the start nor after the end as a string. */
  function InRange(date: string, start: string, end: string): bool {
    if start != "" && LexLess(date, start) then false
    else if end != "" && LexLess(end, date) then false
    else true
  }

  /** For real dates, the string comparison is the calendar one: a date is
      in range exactly when its day lies between the bounds' days. */
  lemma InRangeChronological(date: string, start: string, end: string)
    requires IsDate(date) && IsDate(start) && IsDate(end)
    ensures InRange(date, start, end) <==> DayOf(start) <= DayOf(date) <= DayOf(end)
  {
    StringOrderIsChronological(date, start);
    StringOrderIsChronological(end, date);
  }

  /** With no bounds every date is in range, and a bound on one side only
      restricts that side. */
  lemma InRangeUnbounded(date: string, start: string, end: string)
    ensures InRange(date, "", "")
    ensures InRange(date, start, "") <==> start == "" || LexLe(start, date)
    ensures InRange(date, "", end) <==> end == "" || LexLe(date, end)
  {
    LexLessTotal(date, start);
    if LexLess(start, date) { LexLessAsymmetric(start, date); }
    if start == date { LexLessIrreflexive(date); }
    LexLessTotal(end, date);
    if LexLess(date, end) { LexLessAsymmetric(date, end); }
    if end == date { LexLessIrreflexive(date); }
  }

  /** The text searched: description, merchant, category and subcategory,
      separated by spaces and lowercased. */
  function Haystack(e: Expense): string {
    Lower(e.description + " " + e.merchant + " " + e.category + " " + e.subcategory)
  }

  /** `includesText`: a blank query matches everything; otherwise the
      trimmed, lowercased query must occur in the haystack. */
  function IncludesText(e: Expense, q: string): bool {
    if q == "" then true
    else
      var s := Lower(Trim(q));
      if s == "" then true else Contains(Haystack(e), s)
  }

  /** A query of white space only matches every record. */
  lemma BlankQueryMatches(e: Expense, q: string)
    requires AllSpace(q)
    ensures IncludesText(e, q)
  {
  }

  lemma HaystackParts(e: Expense)
    ensures Haystack(e) == Lower(e.description) + " " + Lower(e.merchant) + " "
      + Lower(e.category) + " " + Lower(e.subcategory)
  {
    var d, m, c, u := e.description, e.merchant, e.category, e.subcategory;
    LowerAppend(d + " " + m + " " + c + " ", u);
    LowerAppend(d + " " + m + " " + c, " ");
    LowerAppend(d + " " + m + " ", c);
    LowerAppend(d + " " + m, " ");
    LowerAppend(d + " ", m);
    LowerAppend(d, " ");
    assert Lower(" ") == " ";
  }

  lemma ContainsInMiddle(p: string, x: string, q: string, s: string)
    requires Contains(x, s)
    ensures Contains(p + x + q, s)
  {
    ContainsInAppend(p, x, s);
    ContainsInAppend(p + x, q, s);
  }

  /** A query found in any one of the four fields, ignoring case, matches. */
  lemma QueryInFieldMatches(e: Expense, q: string)
    requires var s := Lower(Trim(q));
      || Contains(Lower(e.description), s) || Contains(Lower(e.merchant), s)
      || Contains(Lower(e.category), s) || Contains(Lower(e.subcategory), s)
    ensures IncludesText(e, q)
  {
    FieldInHaystack(e, Lower(Trim(q)));
  }

  lemma FieldInHaystack(e: Expense, s: string)
    requires
      || Contains(Lower(e.description), s) || Contains(Lower(e.merchant), s)
      || Contains(Lower(e.category), s) || Contains(Lower(e.subcategory), s)
    ensures Contains(Haystack(e), s)
  {
    HaystackParts(e);
    InSpaceJoined(Lower(e.description), Lower(e.merchant), Lower(e.category), Lower(e.subcategory), s);
  }

  /** Text found in one of four parts is found in the four joined by
      spaces. */
  lemma InSpaceJoined(d: string, m: string, c: string, u: string, s: string)
    requires Contains(d, s) || Contains(m, s) || Contains(c, s) || Contains(u, s)
    ensures Contains(d + " " + m + " " + c + " " + u, s)
  {
    var j := d + " " + m + " " + c + " " + u;
    if Contains(d, s) {
      ContainsInMiddle([], d, " " + m + " " + c + " " + u, s);
      assert [] + d + (" " + m + " " + c + " " + u) == j;
    } else if Contains(m, s) {
      ContainsInMiddle(d + " ", m, " " + c + " " + u, s);
      assert d + " " + m + (" " + c + " " + u) == j;
    } else if Contains(c, s) {
      ContainsInMiddle(d + " " + m + " ", c, " " + u, s);
      assert d + " " + m + " " + c + (" " + u) == j;
    } else {
      ContainsInMiddle(d + " " + m + " " + c + " ", u, [], s);
      assert j + [] == j;
    }
  }

  /** Surrounding white space in the query does not matter. */
  lemma QueryTrimmed(e: Expense, q: string)
    ensures IncludesText(e, Trim(q)) == IncludesText(e, q)
  {
    TrimIdempotent(q);
    if q == "" {
      assert Trim(q) == [];
    }
  }

  // ---------------------------------------------------------------------
  // The list screen
  // ---------------------------------------------------------------------

  /** The list screen's filter fields; an empty field does not filter. */
  datatype ListFilter = ListFilter(start: string, end: string, category: string, payment: string, query: string)

  const NoFilter := ListFilter("", "", "", "", "")

  /** The predicate of `renderList`'s `filter`. */
  predicate Shown(e: Expense, f: ListFilter) {
    && InRange(e.date, f.start, f.end)
    && (f.category == "" || e.category == f.category)
    && (f.payment == "" || e.paymentMethod == f.payment)
    && IncludesText(e, f.query)
  }

  /** The shown records, in list order. */
  function FilterList(es: seq<Expense>, f: ListFilter): (r: seq<Expense>)
    ensures forall e :: e in r <==> e in es && Shown(e, f)
    ensures |r| <= |es|
  {
    if |es| == 0 then []
    else (if Shown(es[0], f) then [es[0]] else []) + FilterList(es[1..], f)
  }

  lemma {:induction false} FilterListAppend(a: seq<Expense>, b: seq<Expense>, f: ListFilter)
    ensures FilterList(a + b, f) == FilterList(a, f) + FilterList(b, f)
  {
    if |a| == 0 {
      assert a + b == b;
    } else {
      assert (a + b)[1..] == a[1..] + b;
      FilterListAppend(a[1..], b, f);
    }
  }

  /** With every filter field empty, the list shows every record in order. */
  lemma {:induction false} NoFilterShowsAll(es: seq<Expense>)
    ensures FilterList(es, NoFilter) == es
  {
    if |es| > 0 {
      assert Shown(es[0], NoFilter);
      NoFilterShowsAll(es[1..]);
      assert es == [es[0]] + es[1..];
    }
  }

  /** The total pill: the amounts of exactly the shown records, added up in
      one pass. */
  method ListTotal(es: seq<Expense>, f: ListFilter) returns (total: real)
    ensures total == SumAmounts(FilterList(es, f))
  {
    total := 0.0;
    var i := 0;
    while i < |es|
      invariant 0 <= i <= |es|
      invariant total == SumAmounts(FilterList(es[..i], f))
    {
      ShownSnoc(es, i, f);
      if Shown(es[i], f) {
        total := total + es[i].amount;
      }
      i := i + 1;
    }
    assert es[..i] == es;
  }

  lemma ShownSnoc(es: seq<Expense>, i: int, f: ListFilter)
    requires 0 <= i < |es|
    ensures SumAmounts(FilterList(es[..i + 1], f))
      == SumAmounts(FilterList(es[..i], f)) + (if Shown(es[i], f) then es[i].amount else 0.0)
  {
    FilterListAppend(es[..i], [es[i]], f);
    assert es[..i + 1] == es[..i] + [es[i]];
    SumAmountsAppend(FilterList(es[..i], f), FilterList([es[i]], f));
  }

  // ---------------------------------------------------------------------
  // The insights screen
  // ---------------------------------------------------------------------

  /** The records whose date is in range, in list order. */
  function FilterRange(es: seq<Expense>, start: string, end: string): (r: seq<Expense>)
    ensures forall e :: e in r <==> e in es && InRange(e.date, start, end)
  {
    if |es| == 0 then []
    else (if InRange(es[0].date, start, end) then [es[0]] else []) + FilterRange(es[1..], start, end)
  }

  /** The mode handed to `buildInsights`: "range" is the daily grouping. */
  function NormalizeMode(mode: string): (m: string)
    ensures m != "range"
    ensures Bucket(m, "") == Bucket(mode, "") && forall d :: Bucket(m, d) == Bucket(mode, d)
  {
    if mode == "range" then "daily" else mode
  }

  /** `refreshInsights`: the in-range records, sorted by date with equal
      dates kept in list order (a stable sort), aggregated in the
      normalised mode. */
  function RefreshInsights(es: seq<Expense>, start: string, end: string, mode: string): (r: Insights)
    ensures exists s ::
      && multiset(s) == multiset(FilterRange(es, start, end))
      && Ascending(s, DateOf)
      && (forall d :: WithKey(s, DateOf, d) == WithKey(FilterRange(es, start, end), DateOf, d))
      && r == BuildInsights(s, NormalizeMode(mode))
    ensures r.stats.total == SumAmounts(FilterRange(es, start, end))
  {
    var r := BuildInsights(SortAsc(FilterRange(es, start, end), DateOf), NormalizeMode(mode));
    RefreshOrder(es, start, end, mode);
    RefreshStats(es, start, end, mode);
    r
  }

  /** Whatever order the records are in, the average is the total over the
      days the in-range dates span. */
  lemma RefreshAverageMeaning(es: seq<Expense>, start: string, end: string, mode: string)
    ensures var r := RefreshInsights(es, start, end, mode);
      r.stats.avg == Average(r.stats.total, EstimateDays(DatesOf(FilterRange(es, start, end))))
  {
    RefreshStats(es, start, end, mode);
  }

  /** The line chart plots the in-range records: one point per bucket an
      in-range record falls in, ascending, worth the amounts of the
      in-range records in that bucket. */
  lemma RefreshLineMeaning(es: seq<Expense>, start: string, end: string, mode: string)
    ensures Plots(RefreshInsights(es, start, end, mode).line, FilterRange(es, start, end), mode)
  {
    RefreshLineChart(es, start, end, mode);
  }

  /** The four breakdown charts describe the in-range records. */
  lemma RefreshChartsMeaning(es: seq<Expense>, start: string, end: string, mode: string)
    ensures var r := RefreshInsights(es, start, end, mode);
      && Describes(r.pie, FilterRange(es, start, end), ByCategory)
      && Describes(r.bar, FilterRange(es, start, end), ByPayment)
      && Describes(r.kind, FilterRange(es, start, end), ByKind)
      && Describes(r.delivery, Deliveries(FilterRange(es, start, end)), ByProvider)
  {
    RefreshCharts(es, start, end, mode);
  }

  /** The records handed to `buildInsights` are the in-range ones in stable
      ascending date order. */
  lemma RefreshOrder(es: seq<Expense>, start: string, end: string, mode: string)
    ensures var inRange := FilterRange(es, start, end);
      var s := SortAsc(inRange, DateOf);
      && multiset(s) == multiset(inRange)
      && Ascending(s, DateOf)
      && (forall d :: WithKey(s, DateOf, d) == WithKey(inRange, DateOf, d))
  {
    var inRange := FilterRange(es, start, end);
    forall d ensures WithKey(SortAsc(inRange, DateOf), DateOf, d) == WithKey(inRange, DateOf, d) {
      SortAscStable(inRange, DateOf, d);
    }
  }

  lemma RefreshStats(es: seq<Expense>, start: string, end: string, mode: string)
    ensures var r := BuildInsights(SortAsc(FilterRange(es, start, end), DateOf), NormalizeMode(mode));
      && r.stats.total == SumAmounts(FilterRange(es, start, end))
      && r.stats.avg == Average(r.stats.total, EstimateDays(DatesOf(FilterRange(es, start, end))))
  {
    var inRange := FilterRange(es, start, end);
    var sorted := SortAsc(inRange, DateOf);
    SumAmountsPermutation(sorted, inRange);
    RefreshAverage(inRange, sorted, NormalizeMode(mode));
  }

  lemma RefreshLineChart(es: seq<Expense>, start: string, end: string, mode: string)
    ensures Plots(BuildInsights(SortAsc(FilterRange(es, start, end), DateOf), NormalizeMode(mode)).line,
                  FilterRange(es, start, end), mode)
  {
    var inRange := FilterRange(es, start, end);
    RefreshLine(inRange, SortAsc(inRange, DateOf), NormalizeMode(mode), mode);
  }

  lemma RefreshCharts(es: seq<Expense>, start: string, end: string, mode: string)
    ensures var r := BuildInsights(SortAsc(FilterRange(es, start, end), DateOf), NormalizeMode(mode));
      && Describes(r.pie, FilterRange(es, start, end), ByCategory)
      && Describes(r.bar, FilterRange(es, start, end), ByPayment)
      && Describes(r.kind, FilterRange(es, start, end), ByKind)
      && Describes(r.delivery, Deliveries(FilterRange(es, start, end)), ByProvider)
  {
    var inRange := FilterRange(es, start, end);
    RefreshBreakdowns(inRange, SortAsc(inRange, DateOf), NormalizeMode(mode));
  }

  lemma RefreshAverage(inRange: seq<Expense>, sorted: seq<Expense>, m: string)
    requires multiset(sorted) == multiset(inRange)
    ensures var r := BuildInsights(sorted, m);
      r.stats.avg == Average(r.stats.total, EstimateDays(DatesOf(inRange)))
  {
    BuildInsightsAverage(sorted, m);
    DatesOfPermutation(sorted, inRange);
    EstimateDaysPermutation(DatesOf(sorted), DatesOf(inRange));
  }

  lemma RefreshLine(inRange: seq<Expense>, sorted: seq<Expense>, m: string, mode: string)
    requires multiset(sorted) == multiset(inRange)
    requires forall d :: Bucket(m, d) == Bucket(mode, d)
    ensures Plots(BuildInsights(sorted, m).line, inRange, mode)
  {
    var line := BuildInsights(sorted, m).line;
    LinePlots(sorted, m);
    PlotsPermutation(line, sorted, inRange, m);
    PlotsSameBuckets(line, inRange, m, mode);
  }

  lemma RefreshBreakdowns(inRange: seq<Expense>, sorted: seq<Expense>, m: string)
    requires multiset(sorted) == multiset(inRange)
    ensures var r := BuildInsights(sorted, m);
      && Describes(r.pie, inRange, ByCategory)
      && Describes(r.bar, inRange, ByPayment)
      && Describes(r.kind, inRange, ByKind)
      && Describes(r.delivery, Deliveries(inRange), ByProvider)
  {
    var r := BuildInsights(sorted, m);
    BreakdownMeaning(sorted, m);
    DescribesPermutation(r.pie, sorted, inRange, ByCategory);
    DescribesPermutation(r.bar, sorted, inRange, ByPayment);
    DescribesPermutation(r.kind, sorted, inRange, ByKind);
    DeliveriesPermutation(sorted, inRange);
    DescribesPermutation(r.delivery, Deliveries(sorted), Deliveries(inRange), ByProvider);
  }

  /** The records `buildInsights` receives are fixed by the date sort: any
      arrangement of the in-range records in ascending date order, equal
      dates in list order, gives the same insights. */
  lemma RefreshSortsByDate(es: seq<Expense>, start: string, end: string, mode: string, s: seq<Expense>)
    requires multiset(s) == multiset(FilterRange(es, start, end)) && Ascending(s, DateOf)
    requires forall d :: WithKey(s, DateOf, d) == WithKey(FilterRange(es, start, end), DateOf, d)
    ensures RefreshInsights(es, start, end, mode) == BuildInsights(s, NormalizeMode(mode))
  {
    SortAscUnique(FilterRange(es, start, end), s, DateOf);
  }
}

=== FILE: form.dfy ===
/** The expense form: the record built on submit, its validation, and the
    form a "copy last expense" click fills in (js/app.js). Number parsing
    (`Number(...)`) is a parameter of the model. */
module Form {
  import opened Wrappers
  import opened Text
  import opened Records

  /** The form's input values, as the text the inputs hold. */
  datatype Fields = Fields(
    date: string, amount: string, category: string, subcategory: string, kind: string,
    deliveryProvider: string, deliveryProviderOther: string, paymentMethod: string,
    card: string, installments: string, fuelPricePerLiter: string, fuelType: string,
    priority: string, merchant: string, description: string)

  /** The record fields a submit stores (the id and creation time are
      added by storage). */
  datatype Payload = Payload(
    date: string, amount: real, category: string, subcategory: string, kind: string,
    deliveryProvider: string, deliveryProviderOther: string, paymentMethod: string,
    card: string, installments: Num, fuelPricePerLiter: Option<Num>, fuelType: string,
    priority: string, merchant: string, description: string)

  /** `parseAmount`: a value that is not a finite number counts as 0. */
  function ParseAmount(v: string, toNumber: string -> Num): (a: real)
    ensures toNumber(v).Finite? ==> a == toNumber(v).value
    ensures toNumber(v).NonFinite? ==> a == 0.0
  {
    match toNumber(v)
    case Finite(x) => x
    case NonFinite => 0.0
  }

  /** The payload of the submit handler: fields that do not apply to the
      chosen payment method or subcategory are cleared, and the free-text
      fields are trimmed. */
  function BuildPayload(f: Fields, toNumber: string -> Num): (p: Payload)
    ensures f.paymentMethod != "credito" ==> p.card == "" && p.installments == Finite(1.0)
    ensures f.paymentMethod == "credito" ==> p.card == f.card
    ensures f.subcategory != "Delivery" ==> p.deliveryProvider == ""
    ensures p.deliveryProviderOther != "" ==>
      f.subcategory == "Delivery" && f.deliveryProvider == "outros"
    ensures f.subcategory != "Combustível" ==> p.fuelPricePerLiter == None && p.fuelType == ""
    ensures p.merchant == Trim(f.merchant) && p.description == Trim(f.description)
    ensures p.amount == ParseAmount(f.amount, toNumber)
  {
    var credit := f.paymentMethod == "credito";
    var delivery := f.subcategory == "Delivery";
    var fuel := f.subcategory == "Combustível";
    Payload(
      date := f.date,
      amount := ParseAmount(f.amount, toNumber),
      category := f.category,
      subcategory := f.subcategory,
      kind := f.kind,
      deliveryProvider := if delivery then f.deliveryProvider else "",
      deliveryProviderOther := if delivery && f.deliveryProvider == "outros" then Trim(f.deliveryProviderOther) else "",
      paymentMethod := f.paymentMethod,
      card := if credit then f.card else "",
      installments := if credit then (if f.installments == "" then Finite(1.0) else toNumber(f.installments)) else Finite(1.0),
      fuelPricePerLiter := if fuel && f.fuelPricePerLiter != "" then Some(toNumber(f.fuelPricePerLiter)) else None,
      fuelType := if fuel then f.fuelType else "",
      priority := f.priority,
      merchant := Trim(f.merchant),
      description := Trim(f.description))
  }

  /** The submit handler's checks: a date must be chosen and the amount
      must be greater than zero; the error is the message shown. */
  function Submit(f: Fields, toNumber: string -> Num): (r: Result<Payload, string>)
    ensures r.Success? <==> f.date != "" && toNumber(f.amount).Finite? && toNumber(f.amount).value > 0.0
    ensures r.Success? ==> r.value == BuildPayload(f, toNumber) && r.value.amount > 0.0
    ensures f.date == "" ==> r == Failure("Selecione a data.")
  {
    var p := BuildPayload(f, toNumber);
    if p.date == "" then Failure("Selecione a data.")
    else if !(p.amount > 0.0) then Failure("Informe um valor maior que zero.")
    else Success(p)
  }

  /** An amount that is not a number is always rejected, with the amount
      message when a date is chosen. */
  lemma NonNumericAmountRejected(f: Fields, toNumber: string -> Num)
    requires toNumber(f.amount).NonFinite?
    ensures Submit(f, toNumber).Failure?
    ensures f.date != "" ==> Submit(f, toNumber) == Failure("Informe um valor maior que zero.")
  {
  }

  // ---------------------------------------------------------------------
  // Copying the last expense into the form
  // ---------------------------------------------------------------------

  /** `x ?? d` on a record field: an absent (null or undefined) field gives
      the default. */
  function FieldOr(rec: map<string, string>, k: string, d: string): string {
    if k in rec then rec[k] else d
  }

  /** The fields the copy sets itself rather than taking from the record. */
  const Reset: set<string> := {"id", "date", "amount", "description", "installments",
    "fuelPricePerLiter", "fuelType", "kind", "deliveryProvider", "deliveryProviderOther"}

  /** The form values after "copy last expense": a fresh form for today with
      no amount, the kind defaulting to "compra", the installments to "1",
      and every other field of the last record carried over unchanged. */
  function QuickCopy(last: map<string, string>, today: string): (r: map<string, string>)
    ensures r.Keys == last.Keys + Reset
    ensures r["id"] == "" && r["amount"] == "" && r["date"] == today
    ensures r["kind"] == (if "kind" in last then last["kind"] else "compra")
    ensures r["installments"] == (if "installments" in last then last["installments"] else "1")
    ensures forall k :: k in Reset && k !in {"id", "amount", "date", "kind", "installments"} ==>
      r[k] == (if k in last then last[k] else "")
    ensures forall k :: k in last && k !in Reset ==> r[k] == last[k]
  {
    last
      ["id" := ""]
      ["date" := today]
      ["amount" := ""]
      ["description" := FieldOr(last, "description", "")]
      ["installments" := FieldOr(last, "installments", "1")]
      ["fuelPricePerLiter" := FieldOr(last, "fuelPricePerLiter", "")]
      ["fuelType" := FieldOr(last, "fuelType", "")]
      ["kind" := FieldOr(last, "kind", "compra")]
      ["deliveryProvider" := FieldOr(last, "deliveryProvider", "")]
      ["deliveryProviderOther" := FieldOr(last, "deliveryProviderOther", "")]
  }
}

=== FILE: insights.dfy ===
/** The insights screen's aggregation (js/charts.js `buildInsights` and
    `estimateDays`, js/utils.js `summarizeTopCategory`): one pass over the
    records fills five running-total objects, which are then turned into
    chart data and three statistics. */
module Insights {
  import opened Wrappers
  import opened Text
  import opened Calendar
  import opened Records
  import opened Tally
  import opened Seqs

  // ---------------------------------------------------------------------
  // The labels records are grouped by
  // ---------------------------------------------------------------------

  /** The period a date falls in: week, month or year key, and for every
      other mode (the daily one) the date itself. */
  function Bucket(mode: string, date: string): string {
    if mode == "weekly" then WeekKey(date)
    else if mode == "monthly" then MonthKey(date)
    else if mode == "yearly" then YearKey(date)
    else date
  }

  /** The payment label of the bar chart. */
  function PaymentLabel(pay: string, card: string): string {
    if pay == "credito" then "Crédito" + (if card != "" then " (" + card + ")" else "")
    else if pay == "debito" then "Débito"
    else "Pix"
  }

  /** The kind label of the kind chart. */
  function KindLabel(kind: string): string {
    if kind == "conta" then "Conta"
    else if kind == "doacao" then "Doação"
    else "Compra"
  }

  /** The provider label of the delivery chart. */
  function DeliveryLabel(provider: string, other: string): string {
    if provider == "ifood" then "iFood"
    else if provider == "99" then "99"
    else if provider == "outros" then (if other != "" then other else "Outros")
    else if provider != "" then provider
    else "(não informado)"
  }

  /** Two records get the same payment label exactly when they were paid
      the same way, and for credit with the same card: the bar chart never
      merges credit with debit, or two different cards. */
  lemma PaymentLabelSeparates(m1: string, c1: string, m2: string, c2: string)
    ensures PaymentLabel(m1, c1) == PaymentLabel(m2, c2) <==>
      if m1 == "credito" || m2 == "credito" then m1 == m2 && c1 == c2
      else (m1 == "debito") == (m2 == "debito")
  {
    var l1, l2 := PaymentLabel(m1, c1), PaymentLabel(m2, c2);
    if m1 == "credito" && m2 == "credito" && c1 != "" && c2 != "" && l1 == l2 {
      assert c1 == l1[|"Crédito ("|..|l1| - 1];
      assert c2 == l2[|"Crédito ("|..|l2| - 1];
    }
    if m1 == "credito" && m2 != "credito" {
      assert |l1| >= 7 > |l2|;
    }
    if m2 == "credito" && m1 != "credito" {
      assert |l2| >= 7 > |l1|;
    }
  }

  /** A delivery label is never empty: a record without a provider is
      counted as "(não informado)". */
  lemma DeliveryLabelNonEmpty(provider: string, other: string)
    ensures DeliveryLabel(provider, other) != ""
    ensures provider == "" ==> DeliveryLabel(provider, other) == "(não informado)"
    ensures provider == "outros" ==> DeliveryLabel(provider, other) == (if other == "" then "Outros" else other)
    ensures provider == "ifood" ==> DeliveryLabel(provider, other) == "iFood"
    ensures provider == "99" ==> DeliveryLabel(provider, other) == "99"
    ensures provider != "" && provider !in {"ifood", "99", "outros"} ==> DeliveryLabel(provider, other) == provider
  {
  }

  /** What a breakdown groups records by. */
  datatype Grouping = ByBucket(mode: string) | ByCategory | ByPayment | ByKind | ByProvider

  function LabelFor(g: Grouping, e: Expense): string {
    match g
    case ByBucket(mode) => Bucket(mode, e.date)
    case ByCategory => e.category
    case ByPayment => PaymentLabel(e.paymentMethod, e.card)
    case ByKind => KindLabel(e.kind)
    case ByProvider => DeliveryLabel(e.deliveryProvider, e.deliveryProviderOther)
  }

  /** Each record's label paired with its amount, in record order. */
  function Pairs(es: seq<Expense>, g: Grouping): (r: seq<Entry>)
    ensures |r| == |es|
    ensures forall i :: 0 <= i < |es| ==> r[i] == (LabelFor(g, es[i]), es[i].amount)
  {
    seq(|es|, i requires 0 <= i < |es| => (LabelFor(g, es[i]), es[i].amount))
  }

  /** The reference meaning of a chart value: the amounts of the records
      that carry label `k`, added up. */
  function AmountWhere(es: seq<Expense>, g: Grouping, k: string): real {
    if |es| == 0 then 0.0
    else (if LabelFor(g, es[0]) == k then es[0].amount else 0.0) + AmountWhere(es[1..], g, k)
  }

  predicate Labelled(es: seq<Expense>, g: Grouping, k: string) {
    exists i :: 0 <= i < |es| && LabelFor(g, es[i]) == k
  }

  lemma {:induction false} PairsFacts(es: seq<Expense>, g: Grouping)
    ensures Total(Pairs(es, g)) == SumAmounts(es)
    ensures forall k :: SumFor(Pairs(es, g), k) == AmountWhere(es, g, k)
    ensures forall k :: k in Labels(Pairs(es, g)) <==> Labelled(es, g, k)
  {
    var p := Pairs(es, g);
    if |es| > 0 {
      assert p[1..] == Pairs(es[1..], g);
      PairsFacts(es[1..], g);
    }
    forall k ensures k in Labels(p) <==> Labelled(es, g, k) {
      if k in Labels(p) {
        var i :| 0 <= i < |p| && Labels(p)[i] == k;
        assert LabelFor(g, es[i]) == k;
      }
      if Labelled(es, g, k) {
        var i :| 0 <= i < |es| && LabelFor(g, es[i]) == k;
        assert Labels(p)[i] == k;
      }
    }
  }

  lemma {:induction false} AmountWhereAppend(a: seq<Expense>, b: seq<Expense>, g: Grouping, k: string)
    ensures AmountWhere(a + b, g, k) == AmountWhere(a, g, k) + AmountWhere(b, g, k)
  {
    if |a| == 0 {
      assert a + b == b;
    } else {
      assert (a + b)[1..] == a[1..] + b;
      AmountWhereAppend(a[1..], b, g, k);
    }
  }

  /** Two modes that put every date in the same bucket give the same
      line-chart values. */
  lemma {:induction false} AmountWhereSameBuckets(es: seq<Expense>, m: string, mode: string, k: string)
    requires forall d :: Bucket(m, d) == Bucket(mode, d)
    ensures AmountWhere(es, ByBucket(m), k) == AmountWhere(es, ByBucket(mode), k)
  {
    if |es| > 0 {
      AmountWhereSameBuckets(es[1..], m, mode, k);
      assert LabelFor(ByBucket(m), es[0]) == LabelFor(ByBucket(mode), es[0]);
    }
  }

  /** A chart value does not depend on the order of the records. */
  lemma {:induction false} AmountWherePermutation(a: seq<Expense>, b: seq<Expense>, g: Grouping, k: string)
    requires multiset(a) == multiset(b)
    ensures AmountWhere(a, g, k) == AmountWhere(b, g, k)
    decreases |a|
  {
    if |a| > 0 {
      var i := HeadInPermutation(a, b);
      AmountWherePermutation(a[1..], b[..i] + b[i + 1..], g, k);
      AmountWhereAt(b, i, g, k);
    } else {
      assert |b| == |multiset(b)| == 0;
    }
  }

  /** Taking one record out takes its amount out of the sum for its label. */
  lemma AmountWhereAt(b: seq<Expense>, i: int, g: Grouping, k: string)
    requires 0 <= i < |b|
    ensures AmountWhere(b, g, k)
      == (if LabelFor(g, b[i]) == k then b[i].amount else 0.0) + AmountWhere(b[..i] + b[i + 1..], g, k)
  {
    var x, y := b[..i], b[i + 1..];
    assert b == x + ([b[i]] + y);
    AmountWhereAppend(x, [b[i]] + y, g, k);
    AmountWhereAppend(x, y, g, k);
    assert ([b[i]] + y)[1..] == y;
  }

  /** Which labels occur does not depend on the order of the records. */
  lemma LabelledPermutation(a: seq<Expense>, b: seq<Expense>, g: Grouping, k: string)
    requires multiset(a) == multiset(b)
    ensures Labelled(a, g, k) <==> Labelled(b, g, k)
  {
    if Labelled(a, g, k) {
      var i :| 0 <= i < |a| && LabelFor(g, a[i]) == k;
      assert a[i] in multiset(b);
      var j :| 0 <= j < |b| && b[j] == a[i];
    }
    if Labelled(b, g, k) {
      var j :| 0 <= j < |b| && LabelFor(g, b[j]) == k;
      assert b[j] in multiset(a);
      var i :| 0 <= i < |a| && a[i] == b[j];
    }
  }

  /** The running-total object one pass over the records builds for a
      grouping, in first-insertion order. */
  function Grouped(es: seq<Expense>, g: Grouping): (t: seq<Entry>)
    ensures DistinctLabels(t)
    ensures forall k :: k in Labels(t) <==> Labelled(es, g, k)
    ensures forall i :: 0 <= i < |t| ==> t[i].1 == AmountWhere(es, g, t[i].0)
    ensures Total(t) == SumAmounts(es)
  {
    var t := Totals(Pairs(es, g));
    PairsFacts(es, g);
    TotalsValues(Pairs(es, g));
    t
  }

  /** The line chart's data: one entry per bucket, buckets in string order. */
  function Series(es: seq<Expense>, mode: string): (r: seq<Entry>)
    ensures StrictlyAscending(r, LabelOf)
    ensures forall k :: k in Labels(r) <==> Labelled(es, ByBucket(mode), k)
    ensures forall i :: 0 <= i < |r| ==> r[i].1 == AmountWhere(es, ByBucket(mode), r[i].0)
    ensures Total(r) == SumAmounts(es)
  {
    var t := Grouped(es, ByBucket(mode));
    var r := SortAsc(t, LabelOf);
    SortAscStrict(t, LabelOf);
    SameLabels(t, r);
    TotalOfPermutation(r, t);
    forall i | 0 <= i < |r| ensures r[i].1 == AmountWhere(es, ByBucket(mode), r[i].0) {
      assert r[i] in multiset(t);
    }
    r
  }

  /** A pie, bar or doughnut chart's data: one entry per label, largest
      first, equal values in the object's enumeration order. */
  function Breakdown(es: seq<Expense>, g: Grouping): (r: seq<Entry>)
    ensures Descending(r)
    ensures DistinctLabels(r)
    ensures forall k :: k in Labels(r) <==> Labelled(es, g, k)
    ensures forall i :: 0 <= i < |r| ==> r[i].1 == AmountWhere(es, g, r[i].0)
    ensures Total(r) == SumAmounts(es)
    ensures forall v :: WithValue(r, v) == WithValue(Grouped(es, g), v)
  {
    var t := Grouped(es, g);
    var r := SortDesc(t);
    SortDescDistinct(t);
    SameLabels(t, r);
    TotalOfPermutation(r, t);
    forall i | 0 <= i < |r| ensures r[i].1 == AmountWhere(es, g, r[i].0) {
      assert r[i] in multiset(t);
    }
    forall v ensures WithValue(r, v) == WithValue(t, v) {
      SortDescStable(t, v);
    }
    r
  }

  /** The records of subcategory "Delivery", the only ones the delivery
      chart counts. */
  function Deliveries(es: seq<Expense>): (r: seq<Expense>)
    ensures forall e :: e in r <==> e in es && e.subcategory == "Delivery"
    ensures |r| <= |es|
  {
    if |es| == 0 then []
    else (if es[0].subcategory == "Delivery" then [es[0]] else []) + Deliveries(es[1..])
  }

  /** Each record is kept as often as it occurs when it is a delivery,
      and not at all otherwise. */
  lemma {:induction false} DeliveriesCount(es: seq<Expense>, e: Expense)
    ensures multiset(Deliveries(es))[e] == if e.subcategory == "Delivery" then multiset(es)[e] else 0
  {
    if |es| > 0 {
      DeliveriesCount(es[1..], e);
      assert es == [es[0]] + es[1..];
    }
  }

  /** Reordering the records reorders the delivery records. */
  lemma DeliveriesPermutation(a: seq<Expense>, b: seq<Expense>)
    requires multiset(a) == multiset(b)
    ensures multiset(Deliveries(a)) == multiset(Deliveries(b))
  {
    forall e ensures multiset(Deliveries(a))[e] == multiset(Deliveries(b))[e] {
      DeliveriesCount(a, e);
      DeliveriesCount(b, e);
    }
  }

  // ---------------------------------------------------------------------
  // Top category
  // ---------------------------------------------------------------------

  /** The scan of `summarizeTopCategory`: keep the entry seen so far with
      the greatest value, replacing it only on a strictly greater one. */
  function TopFrom(t: seq<Entry>, top: Entry): Entry {
    if |t| == 0 then top
    else TopFrom(t[1..], if t[0].1 > top.1 then t[0] else top)
  }

  /** Entry `i` holds the greatest value and is the first to hold it. */
  predicate FirstMaximum(t: seq<Entry>, i: int) {
    && 0 <= i < |t|
    && (forall j :: 0 <= j < |t| ==> t[j].1 <= t[i].1)
    && (forall j :: 0 <= j < i ==> t[j].1 < t[i].1)
  }

  lemma TopFromSpec(t: seq<Entry>, top: Entry)
    ensures (forall j :: 0 <= j < |t| ==> t[j].1 <= top.1) ==> TopFrom(t, top) == top
    ensures (exists j :: 0 <= j < |t| && t[j].1 > top.1) ==>
      exists i :: FirstMaximum(t, i) && t[i].1 > top.1 && TopFrom(t, top) == t[i]
  {
    if forall j :: 0 <= j < |t| ==> t[j].1 <= top.1 {
      TopFromKeeps(t, top);
    } else {
      TopFromFinds(t, top);
    }
  }

  /** Nothing greater than `top`: the scan ends where it started. */
  lemma {:induction false} TopFromKeeps(t: seq<Entry>, top: Entry)
    requires forall j :: 0 <= j < |t| ==> t[j].1 <= top.1
    ensures TopFrom(t, top) == top
  {
    if |t| > 0 {
      var rest := t[1..];
      assert t[0].1 <= top.1;
      forall j | 0 <= j < |rest| ensures rest[j].1 <= top.1 {
        assert rest[j] == t[j + 1];
      }
      TopFromKeeps(rest, top);
    }
  }

  /** Something greater than `top`: the scan ends on the first maximum. */
  lemma {:induction false} TopFromFinds(t: seq<Entry>, top: Entry)
    requires exists j :: 0 <= j < |t| && t[j].1 > top.1
    ensures exists i :: FirstMaximum(t, i) && t[i].1 > top.1 && TopFrom(t, top) == t[i]
  {
    var next := if t[0].1 > top.1 then t[0] else top;
    var rest := t[1..];
    assert TopFrom(t, top) == TopFrom(rest, next);
    if exists j :: 0 <= j < |rest| && rest[j].1 > next.1 {
      TopFromFinds(rest, next);
      var i :| FirstMaximum(rest, i) && rest[i].1 > next.1 && TopFrom(rest, next) == rest[i];
      assert t[i + 1] == rest[i];
      forall j | 0 <= j < |t| ensures t[j].1 <= t[i + 1].1 && (j < i + 1 ==> t[j].1 < t[i + 1].1) {
        if j > 0 { assert t[j] == rest[j - 1]; }
      }
      assert FirstMaximum(t, i + 1);
    } else {
      TopFromKeeps(rest, next);
      forall j | 0 < j < |t| ensures t[j].1 <= next.1 {
        assert t[j] == rest[j - 1];
      }
      assert t[0].1 > top.1;
      assert FirstMaximum(t, 0);
    }
  }

  /** `summarizeTopCategory`: "—" when no category total is positive, and
      otherwise the first category holding the greatest total. */
  function TopCategory(t: seq<Entry>): (k: string)
    ensures (forall j :: 0 <= j < |t| ==> t[j].1 <= 0.0) ==> k == "—"
    ensures (exists j :: 0 <= j < |t| && t[j].1 > 0.0) ==>
      exists i :: FirstMaximum(t, i) && t[i].1 > 0.0 && k == t[i].0
  {
    TopFromSpec(t, ("—", 0.0));
    TopFrom(t, ("—", 0.0)).0
  }

  /** The stable sort by value puts the first entry of greatest value
      first. */
  lemma FirstMaximumLeads(t: seq<Entry>, i: int)
    requires FirstMaximum(t, i)
    ensures |SortDesc(t)| > 0 && SortDesc(t)[0] == t[i]
  {
    var m := t[i].1;
    var s := SortDesc(t);
    assert s[0] in multiset(t);
    var a :| 0 <= a < |t| && t[a] == s[0];
    assert t[i] in multiset(s);
    var b :| 0 <= b < |s| && s[b] == t[i];
    DescendingFirst(s, b);
    assert s[0].1 == m;
    assert WithValue(s, m) == [s[0]] + WithValue(s[1..], m);
    WithValueHead(t, i);
    SortDescStable(t, m);
  }

  /** When some category total is positive, the top category is the first
      slice of the category chart: both pick the first entry of greatest
      value, the scan by its strict comparison, the sort by stability. */
  lemma TopCategoryIsPieHead(t: seq<Entry>)
    requires exists j :: 0 <= j < |t| && t[j].1 > 0.0
    ensures |SortDesc(t)| > 0 && TopCategory(t) == SortDesc(t)[0].0
  {
    var k := TopCategory(t);
    assert exists i :: FirstMaximum(t, i) && t[i].1 > 0.0 && k == t[i].0;
    var i :| FirstMaximum(t, i) && t[i].1 > 0.0 && k == t[i].0;
    FirstMaximumLeads(t, i);
  }

  // ---------------------------------------------------------------------
  // Days covered and the daily average
  // ---------------------------------------------------------------------

  function Itself(s: string): string {
    s
  }

  function DatesOf(es: seq<Expense>): (r: seq<string>)
    ensures |r| == |es| && forall i :: 0 <= i < |es| ==> r[i] == es[i].date
  {
    seq(|es|, i requires 0 <= i < |es| => es[i].date)
  }

  /** The dates of reordered records are the same dates reordered. */
  lemma {:induction false} DatesOfPermutation(a: seq<Expense>, b: seq<Expense>)
    requires multiset(a) == multiset(b)
    ensures multiset(DatesOf(a)) == multiset(DatesOf(b))
    decreases |a|
  {
    if |a| > 0 {
      var i := HeadInPermutation(a, b);
      var rest := b[..i] + b[i + 1..];
      calc {
        multiset(DatesOf(a));
        { DatesOfCons(a); }
        multiset{a[0].date} + multiset(DatesOf(a[1..]));
        { DatesOfPermutation(a[1..], rest); }
        multiset{b[i].date} + multiset(DatesOf(rest));
        { DatesOfRemove(b, i); }
        multiset(DatesOf(b));
      }
    } else {
      assert |b| == |multiset(b)| == 0;
    }
  }

  lemma DatesOfCons(a: seq<Expense>)
    requires |a| > 0
    ensures multiset(DatesOf(a)) == multiset{a[0].date} + multiset(DatesOf(a[1..]))
  {
    assert DatesOf(a) == [a[0].date] + DatesOf(a[1..]);
  }

  /** Taking one record out takes its date out of the dates. */
  lemma DatesOfRemove(b: seq<Expense>, i: int)
    requires 0 <= i < |b|
    ensures multiset(DatesOf(b)) == multiset{b[i].date} + multiset(DatesOf(b[..i] + b[i + 1..]))
  {
    var x, y := b[..i], b[i + 1..];
    assert b == x + ([b[i]] + y);
    DatesOfAppend(x, [b[i]] + y);
    DatesOfAppend([b[i]], y);
    DatesOfAppend(x, y);
    assert DatesOf([b[i]]) == [b[i].date];
  }

  lemma DatesOfAppend(x: seq<Expense>, y: seq<Expense>)
    ensures DatesOf(x + y) == DatesOf(x) + DatesOf(y)
  {
  }

  function Abs(x: int): nat {
    if x < 0 then -x else x
  }

  /** The first of the dates in string order (`dates.sort()[0]`). */
  function Earliest(dates: seq<string>): (r: string)
    requires |dates| > 0
    ensures r in dates && forall d :: d in dates ==> LexLe(r, d)
  {
    var s := SortAsc(dates, Itself);
    SortedEnds(dates);
    s[0]
  }

  /** The last of the dates in string order. */
  function Latest(dates: seq<string>): (r: string)
    requires |dates| > 0
    ensures r in dates && forall d :: d in dates ==> LexLe(d, r)
  {
    var s := SortAsc(dates, Itself);
    SortedEnds(dates);
    s[|s| - 1]
  }

  /** The first and last of the sorted dates are the least and greatest in
      string order. */
  lemma SortedEnds(dates: seq<string>)
    requires |dates| > 0
    ensures var s := SortAsc(dates, Itself);
      && s[0] in dates && s[|s| - 1] in dates
      && forall d :: d in dates ==> LexLe(s[0], d) && LexLe(d, s[|s| - 1])
  {
    var s := SortAsc(dates, Itself);
    assert s[0] in multiset(dates) && s[|s| - 1] in multiset(dates);
    forall d | d in dates ensures LexLe(s[0], d) && LexLe(d, s[|s| - 1]) {
      assert d in multiset(s);
      var k :| 0 <= k < |s| && s[k] == d;
      AscendingEnds(s, Itself, k);
    }
  }

  /** `estimateDays`: the number of days from the earliest to the latest
      date, both included; `None` when either is not a date (the source's
      NaN). */
  function EstimateDays(dates: seq<string>): (r: Option<nat>)
    ensures |dates| == 0 ==> r == Some(0)
    ensures r.Some? && |dates| > 0 ==> r.value >= 1
  {
    if |dates| == 0 then Some(0) else DaySpan(Latest(dates), Earliest(dates))
  }

  /** Whole days from one date string to another, both ends counted, in
      either direction; `None` when either is not a date. */
  function DaySpan(start: string, end: string): (r: Option<nat>)
    ensures r.Some? ==> r.value >= 1
  {
    var a, b := Parse(start), Parse(end);
    if a.None? || b.None? then None
    else Some(Abs(DayNumber(b.value) - DayNumber(a.value)) + 1)
  }

  /** The estimate does not depend on the order of the records. */
  lemma EstimateDaysPermutation(a: seq<string>, b: seq<string>)
    requires multiset(a) == multiset(b)
    ensures EstimateDays(a) == EstimateDays(b)
  {
    assert |a| == |multiset(a)| == |multiset(b)| == |b|;
    if |a| > 0 {
      EndsPermutation(a, b);
    }
  }

  lemma EndsPermutation(a: seq<string>, b: seq<string>)
    requires |a| > 0 && |b| > 0 && multiset(a) == multiset(b)
    ensures Earliest(a) == Earliest(b) && Latest(a) == Latest(b)
  {
    var ea, eb := Earliest(a), Earliest(b);
    var la, lb := Latest(a), Latest(b);
    assert ea in multiset(b) && eb in multiset(a);
    assert la in multiset(b) && lb in multiset(a);
    LexLeAntisymmetric(ea, eb);
    LexLeAntisymmetric(la, lb);
  }

  function DayOf(s: string): int
    requires IsDate(s)
  {
    DayNumber(Parse(s).value)
  }

  /** When every date is a real date, the estimate is the span from the
      earliest to the latest date in days, plus one. */
  lemma EstimateDaysSpan(dates: seq<string>)
    requires |dates| > 0 && forall d :: d in dates ==> IsDate(d)
    ensures EstimateDays(dates).Some?
    ensures exists lo, hi :: (lo in dates && hi in dates
      && EstimateDays(dates).value == DayOf(hi) - DayOf(lo) + 1
      && forall d :: d in dates ==> DayOf(lo) <= DayOf(d) <= DayOf(hi))
  {
    var lo, hi := Earliest(dates), Latest(dates);
    forall d | d in dates ensures DayOf(lo) <= DayOf(d) <= DayOf(hi) {
      StringOrderIsChronological(lo, d);
      StringOrderIsChronological(d, hi);
    }
    assert EstimateDays(dates).value == DayOf(hi) - DayOf(lo) + 1;
  }

  /** `days > 0 ? total / days : 0`. */
  function Average(total: real, days: Option<nat>): (avg: real)
    ensures days.Some? && days.value > 0 ==> avg * days.value as real == total
    ensures days.None? || days == Some(0) ==> avg == 0.0
  {
    if days.Some? && days.value > 0 then total / days.value as real else 0.0
  }

  // ---------------------------------------------------------------------
  // buildInsights
  // ---------------------------------------------------------------------

  datatype Chart = Chart(labels: seq<string>, values: seq<real>)

  datatype Stats = Stats(total: real, avg: real, topCategory: string)

  datatype Insights = Insights(
    line: Chart, pie: Chart, bar: Chart, delivery: Chart, kind: Chart, stats: Stats)

  function ChartOf(t: seq<Entry>): Chart {
    Chart(Labels(t), Values(t))
  }

  /** `buildInsights(expenses, mode)`. */
  function BuildInsights(es: seq<Expense>, mode: string): (r: Insights)
    ensures r.stats.total == SumAmounts(es)
    ensures Sum(r.pie.values) == Sum(r.bar.values) == Sum(r.kind.values) == r.stats.total
    ensures Sum(r.delivery.values) == SumAmounts(Deliveries(es))
    ensures |r.line.labels| == |r.line.values| && |r.pie.labels| == |r.pie.values|
    ensures forall i, j :: 0 <= i < j < |r.line.labels| ==> LexLess(r.line.labels[i], r.line.labels[j])
  {
    var series := Series(es, mode);
    var pie := Breakdown(es, ByCategory);
    var bar := Breakdown(es, ByPayment);
    var delivery := Breakdown(Deliveries(es), ByProvider);
    var kind := Breakdown(es, ByKind);
    var total := Sum(Values(series));
    var days := EstimateDays(DatesOf(es));
    SumValues(series);
    SumValues(pie);
    SumValues(bar);
    SumValues(delivery);
    SumValues(kind);
    forall i, j | 0 <= i < j < |series| ensures LexLess(Labels(series)[i], Labels(series)[j]) {
      StrictlyAscendingAll(series, LabelOf, i, j);
    }
    Insights(
      ChartOf(series), ChartOf(pie), ChartOf(bar), ChartOf(delivery), ChartOf(kind),
      Stats(total, Average(total, days), TopCategory(Grouped(es, ByCategory))))
  }

  /** The parts of `buildInsights`' result, each from its own helper. */
  lemma BuildInsightsParts(es: seq<Expense>, mode: string)
    ensures var r := BuildInsights(es, mode);
      && r.line == ChartOf(Series(es, mode))
      && r.pie == ChartOf(Breakdown(es, ByCategory))
      && r.bar == ChartOf(Breakdown(es, ByPayment))
      && r.kind == ChartOf(Breakdown(es, ByKind))
      && r.delivery == ChartOf(Breakdown(Deliveries(es), ByProvider))
  {
  }

  lemma BuildInsightsAverage(es: seq<Expense>, mode: string)
    ensures var r := BuildInsights(es, mode);
      r.stats.avg == Average(r.stats.total, EstimateDays(DatesOf(es)))
  {
  }

  lemma BuildInsightsTop(es: seq<Expense>, mode: string)
    ensures var r := BuildInsights(es, mode);
      && r.pie == ChartOf(Breakdown(es, ByCategory))
      && r.stats.topCategory == TopCategory(Grouped(es, ByCategory))
  {
  }

  /** Each point of the line chart is a bucket some record falls in, and
      its value is the sum of the amounts of the records in that bucket;
      every bucket a record falls in has a point. */
  lemma LineChartMeaning(es: seq<Expense>, mode: string)
    ensures var line := BuildInsights(es, mode).line;
      && (forall i :: 0 <= i < |line.labels| ==>
            line.values[i] == AmountWhere(es, ByBucket(mode), line.labels[i]))
      && forall e :: e in es ==> Bucket(mode, e.date) in line.labels
  {
    BuildInsightsLine(es, mode);
    SeriesMeaning(es, mode);
  }

  lemma BuildInsightsLine(es: seq<Expense>, mode: string)
    ensures BuildInsights(es, mode).line == ChartOf(Series(es, mode))
  {
  }

  lemma SeriesMeaning(es: seq<Expense>, mode: string)
    ensures var line := ChartOf(Series(es, mode));
      && (forall i :: 0 <= i < |line.labels| ==>
            line.values[i] == AmountWhere(es, ByBucket(mode), line.labels[i]))
      && forall e :: e in es ==> Bucket(mode, e.date) in line.labels
  {
    var series := Series(es, mode);
    forall e | e in es ensures Bucket(mode, e.date) in Labels(series) {
      var i :| 0 <= i < |es| && es[i] == e;
      assert LabelFor(ByBucket(mode), es[i]) == Bucket(mode, e.date);
    }
  }

  /** What the line chart of the records `es` in mode `mode` shows: the
      buckets some record falls in, each once and in ascending order, each
      worth the amounts of the records in it. */
  ghost predicate Plots(c: Chart, es: seq<Expense>, mode: string) {
    && |c.labels| == |c.values|
    && (forall i, j :: 0 <= i < j < |c.labels| ==> LexLess(c.labels[i], c.labels[j]))
    && (forall i :: 0 <= i < |c.labels| ==> c.values[i] == AmountWhere(es, ByBucket(mode), c.labels[i]))
    && (forall k :: k in c.labels <==> Labelled(es, ByBucket(mode), k))
  }

  /** The line chart of `buildInsights` has the meaning above. */
  lemma LinePlots(es: seq<Expense>, mode: string)
    ensures Plots(BuildInsights(es, mode).line, es, mode)
  {
    BuildInsightsLine(es, mode);
    SeriesPlots(es, mode);
  }

  lemma SeriesPlots(es: seq<Expense>, mode: string)
    ensures Plots(ChartOf(Series(es, mode)), es, mode)
  {
    var series := Series(es, mode);
    var c := ChartOf(series);
    forall i, j | 0 <= i < j < |c.labels| ensures LexLess(c.labels[i], c.labels[j]) {
      StrictlyAscendingAll(series, LabelOf, i, j);
    }
    forall i | 0 <= i < |c.labels| ensures c.values[i] == AmountWhere(es, ByBucket(mode), c.labels[i]) {
      assert c.values[i] == series[i].1 && c.labels[i] == series[i].0;
    }
  }

  /** A line chart of some records plots them in any order. */
  lemma PlotsPermutation(c: Chart, a: seq<Expense>, b: seq<Expense>, mode: string)
    requires multiset(a) == multiset(b) && Plots(c, a, mode)
    ensures Plots(c, b, mode)
  {
    forall i | 0 <= i < |c.labels| ensures c.values[i] == AmountWhere(b, ByBucket(mode), c.labels[i]) {
      AmountWherePermutation(a, b, ByBucket(mode), c.labels[i]);
    }
    forall k ensures k in c.labels <==> Labelled(b, ByBucket(mode), k) {
      LabelledPermutation(a, b, ByBucket(mode), k);
    }
  }

  /** Two modes that bucket every date alike plot the same chart. */
  lemma PlotsSameBuckets(c: Chart, es: seq<Expense>, m: string, mode: string)
    requires forall d :: Bucket(m, d) == Bucket(mode, d)
    requires Plots(c, es, m)
    ensures Plots(c, es, mode)
  {
    forall i | 0 <= i < |c.labels| ensures c.values[i] == AmountWhere(es, ByBucket(mode), c.labels[i]) {
      AmountWhereSameBuckets(es, m, mode, c.labels[i]);
    }
    forall k ensures Labelled(es, ByBucket(m), k) <==> Labelled(es, ByBucket(mode), k) {
      if Labelled(es, ByBucket(m), k) {
        var i :| 0 <= i < |es| && LabelFor(ByBucket(m), es[i]) == k;
        assert LabelFor(ByBucket(mode), es[i]) == k;
      }
      if Labelled(es, ByBucket(mode), k) {
        var i :| 0 <= i < |es| && LabelFor(ByBucket(mode), es[i]) == k;
        assert LabelFor(ByBucket(m), es[i]) == k;
      }
    }
  }

  /** What a breakdown chart of the records `es` grouped by `g` shows:
      each label once, largest value first, each value the sum of the
      amounts under its label, and exactly the labels some record carries. */
  ghost predicate Describes(c: Chart, es: seq<Expense>, g: Grouping) {
    && |c.labels| == |c.values|
    && (forall i, j :: 0 <= i < j < |c.labels| ==> c.labels[i] != c.labels[j])
    && (forall i :: 0 < i < |c.values| ==> c.values[i - 1] >= c.values[i])
    && (forall i :: 0 <= i < |c.labels| ==> c.values[i] == AmountWhere(es, g, c.labels[i]))
    && (forall k :: k in c.labels <==> Labelled(es, g, k))
  }

  /** A breakdown chart has the meaning above. */
  lemma ChartMeaning(es: seq<Expense>, g: Grouping)
    ensures Describes(ChartOf(Breakdown(es, g)), es, g)
  {
  }

  /** A chart that describes some records describes them in any order. */
  lemma DescribesPermutation(c: Chart, a: seq<Expense>, b: seq<Expense>, g: Grouping)
    requires multiset(a) == multiset(b) && Describes(c, a, g)
    ensures Describes(c, b, g)
  {
    forall i | 0 <= i < |c.labels| ensures c.values[i] == AmountWhere(b, g, c.labels[i]) {
      AmountWherePermutation(a, b, g, c.labels[i]);
    }
    forall k ensures k in c.labels <==> Labelled(b, g, k) {
      LabelledPermutation(a, b, g, k);
    }
  }

  /** The four breakdowns of `buildInsights` have the meaning above, the
      delivery one over the delivery records only. */
  lemma BreakdownMeaning(es: seq<Expense>, mode: string)
    ensures var r := BuildInsights(es, mode);
      && Describes(r.pie, es, ByCategory)
      && Describes(r.bar, es, ByPayment)
      && Describes(r.kind, es, ByKind)
      && Describes(r.delivery, Deliveries(es), ByProvider)
  {
    BuildInsightsParts(es, mode);
    ChartMeaning(es, ByCategory);
    ChartMeaning(es, ByPayment);
    ChartMeaning(es, ByKind);
    ChartMeaning(Deliveries(es), ByProvider);
  }

  /** The headline "top category" is the first slice of the category chart
      whenever some category total is positive, and "—" otherwise. */
  lemma TopCategoryIsFirstSlice(es: seq<Expense>, mode: string)
    ensures var r := BuildInsights(es, mode);
      if exists i :: 0 <= i < |r.pie.values| && r.pie.values[i] > 0.0
      then r.stats.topCategory == r.pie.labels[0]
      else r.stats.topCategory == "—"
  {
    BuildInsightsTop(es, mode);
    TopIsFirstSliceOf(es);
  }

  lemma TopIsFirstSliceOf(es: seq<Expense>)
    ensures var pie := ChartOf(Breakdown(es, ByCategory));
      var top := TopCategory(Grouped(es, ByCategory));
      if exists i :: 0 <= i < |pie.values| && pie.values[i] > 0.0
      then top == pie.labels[0]
      else top == "—"
  {
    var t := Grouped(es, ByCategory);
    var s := SortDesc(t);
    var pie := ChartOf(Breakdown(es, ByCategory));
    assert Breakdown(es, ByCategory) == s;
    TopIsSortedHead(t);
    if exists i :: 0 <= i < |s| && s[i].1 > 0.0 {
      var i :| 0 <= i < |s| && s[i].1 > 0.0;
      assert pie.values[i] == s[i].1;
      assert pie.labels[0] == s[0].0;
    }
  }

  /** Over one table of totals: the top category is the head of the table
      sorted by value when some total is positive, and "—" otherwise. */
  lemma TopIsSortedHead(t: seq<Entry>)
    ensures var s := SortDesc(t);
      if exists i :: 0 <= i < |s| && s[i].1 > 0.0
      then TopCategory(t) == s[0].0
      else TopCategory(t) == "—"
  {
    var s := SortDesc(t);
    if exists i :: 0 <= i < |s| && s[i].1 > 0.0 {
      var i :| 0 <= i < |s| && s[i].1 > 0.0;
      assert s[i] in multiset(t);
      TopCategoryIsPieHead(t);
    } else {
      forall j | 0 <= j < |t| ensures t[j].1 <= 0.0 {
        assert t[j] in multiset(s);
      }
    }
  }

  /** Records that all carry one date cover one day, so the average per
      day is the total. */
  lemma SingleDateAverage(es: seq<Expense>, mode: string, date: string)
    requires |es| > 0 && IsDate(date)
    requires forall e :: e in es ==> e.date == date
    ensures BuildInsights(es, mode).stats.avg == BuildInsights(es, mode).stats.total
  {
    SameDates(es, date);
    BuildInsightsAverage(es, mode);
    var total := BuildInsights(es, mode).stats.total;
    assert Average(total, Some(1)) == total;
  }

  lemma SameDates(es: seq<Expense>, date: string)
    requires |es| > 0 && IsDate(date)
    requires forall e :: e in es ==> e.date == date
    ensures EstimateDays(DatesOf(es)) == Some(1)
  {
    var dates := DatesOf(es);
    forall d | d in dates ensures d == date {
      var i :| 0 <= i < |dates| && dates[i] == d;
      assert es[i] in es;
    }
    SingleDateDays(dates, date);
  }

  /** Dates that are all one date cover one day. */
  lemma SingleDateDays(dates: seq<string>, date: string)
    requires |dates| > 0 && IsDate(date)
    requires forall d :: d in dates ==> d == date
    ensures EstimateDays(dates) == Some(1)
  {
    assert Earliest(dates) == date && Latest(dates) == date;
  }

  /** No records: empty charts, a zero total and average, and "—". */
  lemma EmptyInsights(mode: string)
    ensures var r := BuildInsights([], mode);
      && r.line.labels == [] && r.pie.labels == [] && r.bar.labels == []
      && r.delivery.labels == [] && r.kind.labels == []
      && r.stats == Stats(0.0, 0.0, "—")
  {
  }

  /** Any mode other than the weekly, monthly and yearly ones (such as
      "range") groups exactly as the daily one. */
  lemma RangeModeIsDaily(es: seq<Expense>, mode: string)
    requires mode != "weekly" && mode != "monthly" && mode != "yearly"
    ensures BuildInsights(es, mode) == BuildInsights(es, "daily")
  {
    assert Pairs(es, ByBucket(mode)) == Pairs(es, ByBucket("daily"));
    assert Series(es, mode) == Series(es, "daily");
  }

  /** A record outside subcategory "Delivery" leaves the delivery chart as
      it was, whatever its provider field says. */
  lemma NonDeliveryIgnored(es: seq<Expense>, e: Expense, mode: string)
    requires e.subcategory != "Delivery"
    ensures BuildInsights(es + [e], mode).delivery == BuildInsights(es, mode).delivery
  {
    DeliveriesAppend(es, [e]);
    assert Deliveries([e]) == [];
    assert Deliveries(es) + [] == Deliveries(es);
  }

  lemma {:induction false} DeliveriesAppend(a: seq<Expense>, b: seq<Expense>)
    ensures Deliveries(a + b) == Deliveries(a) + Deliveries(b)
  {
    if |a| == 0 {
      assert a + b == b;
    } else {
      assert (a + b)[1..] == a[1..] + b;
      DeliveriesAppend(a[1..], b);
    }
  }
}

=== FILE: records.dfy ===
/** The stored expense record (js/db.js keeps these in IndexedDB; this
    model only reads them). Every text field holds a string, an empty one
    where the form left the field blank. A stored record that lacks a field
    altogether (possible after a JSON import) is not modelled: the code
    reads `undefined` there, which it does not treat as "". */
module Records {
  import opened Wrappers
  import opened Seqs

  /** A JavaScript number as far as the core looks at it: a finite value,
      or NaN / an infinity (what `Number(...)` gives for a non-numeric
      string). */
  datatype Num = Finite(value: real) | NonFinite

  datatype Expense = Expense(
    id: string,
    date: string,                   // YYYY-MM-DD
    amount: real,
    category: string,
    subcategory: string,            // "Delivery" and "Combustível" unlock extra fields
    kind: string,                   // "compra" | "conta" | "doacao"
    deliveryProvider: string,       // "ifood" | "99" | "outros" | ""
    deliveryProviderOther: string,
    paymentMethod: string,          // "pix" | "debito" | "credito"
    card: string,
    installments: Num,
    fuelPricePerLiter: Option<Num>,  // None: undefined
    fuelType: string,
    priority: string,               // "essencial" | "importante" | "opcional"
    merchant: string,
    description: string,
    createdAt: string)

  function DateOf(e: Expense): string {
    e.date
  }

  /** The sum of the records' amounts, as the list total adds them up. */
  function SumAmounts(es: seq<Expense>): real {
    if |es| == 0 then 0.0 else es[0].amount + SumAmounts(es[1..])
  }

  /** The sum does not depend on the order of the records. */
  lemma {:induction false} SumAmountsPermutation(a: seq<Expense>, b: seq<Expense>)
    requires multiset(a) == multiset(b)
    ensures SumAmounts(a) == SumAmounts(b)
    decreases |a|
  {
    if |a| > 0 {
      var i := HeadInPermutation(a, b);
      SumAmountsPermutation(a[1..], b[..i] + b[i + 1..]);
      SumAmountsAppend(b[..i], [b[i]] + b[i + 1..]);
      SumAmountsAppend(b[..i], b[i + 1..]);
      assert b == b[..i] + ([b[i]] + b[i + 1..]);
    }
  }

  lemma {:induction false} SumAmountsAppend(a: seq<Expense>, b: seq<Expense>)
    ensures SumAmounts(a + b) == SumAmounts(a) + SumAmounts(b)
  {
    if |a| == 0 {
      assert a + b == b;
    } else {
      assert (a + b)[1..] == a[1..] + b;
      SumAmountsAppend(a[1..], b);
    }
  }
}

=== FILE: seqs.dfy ===
/** Facts about sequences as bags, shared by the sums over records and
    over label/value tables. */
module Seqs {

  /** Taking out the element at `i` takes one copy of it out of the bag. */
  lemma MultisetRemove<T>(b: seq<T>, i: int)
    requires 0 <= i < |b|
    ensures multiset(b[..i] + b[i + 1..]) == multiset(b) - multiset{b[i]}
  {
    assert b == b[..i] + ([b[i]] + b[i + 1..]);
  }

  /** The first element of a sequence, and some position holding it in any
      permutation of it. */
  lemma HeadInPermutation<T>(a: seq<T>, b: seq<T>) returns (i: int)
    requires |a| > 0 && multiset(a) == multiset(b)
    ensures 0 <= i < |b| && b[i] == a[0]
    ensures multiset(a[1..]) == multiset(b[..i] + b[i + 1..])
  {
    assert a[0] in multiset(b);
    i :| 0 <= i < |b| && b[i] == a[0];
    assert a == [a[0]] + a[1..];
    MultisetRemove(b, i);
  }
}

=== FILE: tally.dfy ===
/** Running totals keyed by a label, as the insights code keeps them in
    plain JavaScript objects (`obj[k] = (obj[k] || 0) + amount`), and the
    two orderings applied to them afterwards: ascending by label
    (`Object.keys(series).sort()`) and descending by value with ties kept
    in enumeration order (`sort((a, b) => obj[b] - obj[a])`, a stable sort).
    An object is an association list whose labels are distinct and appear
    in first-insertion order. */
module Tally {
  import opened Text
  import opened Seqs

  /** A label and the amount accumulated for it. */
  type Entry = (string, real)

  function LabelOf(e: Entry): string {
    e.0
  }

  function Labels(t: seq<Entry>): (r: seq<string>)
    ensures |r| == |t| && forall i :: 0 <= i < |t| ==> r[i] == t[i].0
  {
    seq(|t|, i requires 0 <= i < |t| => t[i].0)
  }

  function Values(t: seq<Entry>): (r: seq<real>)
    ensures |r| == |t| && forall i :: 0 <= i < |t| ==> r[i] == t[i].1
  {
    seq(|t|, i requires 0 <= i < |t| => t[i].1)
  }

  predicate DistinctLabels(t: seq<Entry>) {
    forall i, j :: 0 <= i < j < |t| ==> t[i].0 != t[j].0
  }

  /** Sum of all values (`values.reduce((a, b) => a + b, 0)`). */
  function Total(t: seq<Entry>): real {
    if |t| == 0 then 0.0 else t[0].1 + Total(t[1..])
  }

  /** Sum of the values carried under label `k`. */
  function SumFor(t: seq<Entry>, k: string): real {
    if |t| == 0 then 0.0
    else (if t[0].0 == k then t[0].1 else 0.0) + SumFor(t[1..], k)
  }

  /** Position of the first entry labelled `k`, or `|t|` when there is none. */
  function IndexOf(t: seq<Entry>, k: string): (i: nat)
    ensures i <= |t|
    ensures i < |t| ==> t[i].0 == k
    ensures forall j :: 0 <= j < i ==> t[j].0 != k
  {
    if |t| == 0 then 0
    else if t[0].0 == k then 0
    else 1 + IndexOf(t[1..], k)
  }

  /** `obj[k] || 0`. */
  function Lookup(t: seq<Entry>, k: string): real {
    var i := IndexOf(t, k);
    if i < |t| then t[i].1 else 0.0
  }

  lemma LookupAt(t: seq<Entry>, i: int)
    requires DistinctLabels(t) && 0 <= i < |t|
    ensures Lookup(t, t[i].0) == t[i].1
  {
  }

  lemma LookupAbsent(t: seq<Entry>, k: string)
    requires k !in Labels(t)
    ensures Lookup(t, k) == 0.0
  {
    forall j | 0 <= j < |t| ensures t[j].0 != k {
      assert Labels(t)[j] == t[j].0;
    }
  }

  lemma {:induction false} TotalSnoc(t: seq<Entry>, e: Entry)
    ensures Total(t + [e]) == Total(t) + e.1
  {
    if |t| > 0 {
      assert (t + [e])[1..] == t[1..] + [e];
      TotalSnoc(t[1..], e);
    }
  }

  lemma {:induction false} TotalUpdate(t: seq<Entry>, i: int, e: Entry)
    requires 0 <= i < |t|
    ensures Total(t[i := e]) == Total(t) - t[i].1 + e.1
  {
    if i > 0 {
      assert t[i := e][1..] == t[1..][i - 1 := e];
      TotalUpdate(t[1..], i - 1, e);
    }
  }

  /** `obj[k] = (obj[k] || 0) + v`: the value under `k` grows by `v`, a new
      label goes to the end, and nothing else changes. */
  function Add(t: seq<Entry>, k: string, v: real): (r: seq<Entry>)
    requires DistinctLabels(t)
    ensures DistinctLabels(r)
    ensures Labels(t) <= Labels(r)
    ensures forall k' :: k' in Labels(r) <==> k' in Labels(t) || k' == k
    ensures forall k' :: Lookup(r, k') == Lookup(t, k') + (if k' == k then v else 0.0)
    ensures Total(r) == Total(t) + v
  {
    var i := IndexOf(t, k);
    if i < |t| then
      var r := t[i := (k, t[i].1 + v)];
      TotalUpdate(t, i, (k, t[i].1 + v));
      AddExisting(t, k, v, i);
      r
    else
      var r := t + [(k, v)];
      TotalSnoc(t, (k, v));
      AddFresh(t, k, v);
      r
  }

  lemma AddExisting(t: seq<Entry>, k: string, v: real, i: int)
    requires DistinctLabels(t) && 0 <= i < |t| && t[i].0 == k
    ensures var r := t[i := (k, t[i].1 + v)];
      && DistinctLabels(r)
      && Labels(r) == Labels(t)
      && forall k' :: Lookup(r, k') == Lookup(t, k') + (if k' == k then v else 0.0)
  {
    var r := t[i := (k, t[i].1 + v)];
    assert Labels(r) == Labels(t);
    forall k' ensures Lookup(r, k') == Lookup(t, k') + (if k' == k then v else 0.0) {
      if k' in Labels(r) {
        var j :| 0 <= j < |r| && Labels(r)[j] == k';
        LookupAt(r, j);
        LookupAt(t, j);
      } else {
        LookupAbsent(r, k');
        LookupAbsent(t, k');
      }
    }
  }

  lemma AddFresh(t: seq<Entry>, k: string, v: real)
    requires DistinctLabels(t) && IndexOf(t, k) == |t|
    ensures var r := t + [(k, v)];
      && DistinctLabels(r)
      && Labels(r) == Labels(t) + [k]
      && forall k' :: Lookup(r, k') == Lookup(t, k') + (if k' == k then v else 0.0)
  {
    var r := t + [(k, v)];
    assert Labels(r) == Labels(t) + [k];
    assert k !in Labels(t) by {
      forall j | 0 <= j < |t| ensures Labels(t)[j] != k {
        assert Labels(t)[j] == t[j].0;
      }
    }
    forall k' ensures Lookup(r, k') == Lookup(t, k') + (if k' == k then v else 0.0) {
      if k' in Labels(r) {
        var j :| 0 <= j < |r| && Labels(r)[j] == k';
        LookupAt(r, j);
        if j < |t| {
          LookupAt(t, j);
        } else {
          LookupAbsent(t, k);
        }
      } else {
        LookupAbsent(r, k');
        LookupAbsent(t, k');
      }
    }
  }

  /** The loop `for (const e of expenses) obj[key(e)] = (obj[key(e)] || 0) + amount(e)`,
      started from the object `acc`. */
  function Accumulate(acc: seq<Entry>, pairs: seq<Entry>): (r: seq<Entry>)
    requires DistinctLabels(acc)
    ensures DistinctLabels(r)
    ensures Labels(acc) <= Labels(r)
    ensures forall k :: k in Labels(r) <==> k in Labels(acc) || k in Labels(pairs)
    ensures forall k :: Lookup(r, k) == Lookup(acc, k) + SumFor(pairs, k)
    ensures Total(r) == Total(acc) + Total(pairs)
    decreases |pairs|
  {
    if |pairs| == 0 then acc
    else
      var mid := Add(acc, pairs[0].0, pairs[0].1);
      var r := Accumulate(mid, pairs[1..]);
      AccumulateLabelsStep(acc, pairs, mid, r);
      AccumulateValuesStep(acc, pairs, mid, r);
      AccumulateTotalStep(acc, pairs, mid, r);
      r
  }

  lemma LabelsCons(t: seq<Entry>)
    requires |t| > 0
    ensures forall k :: k in Labels(t) <==> k == t[0].0 || k in Labels(t[1..])
  {
    var a, b := Labels(t), Labels(t[1..]);
    forall k | k in a ensures k == t[0].0 || k in b {
      var i :| 0 <= i < |a| && a[i] == k;
      if i > 0 {
        assert b[i - 1] == k;
      }
    }
    forall k | k in b ensures k in a {
      var i :| 0 <= i < |b| && b[i] == k;
      assert a[i + 1] == k;
    }
    assert a[0] == t[0].0;
  }

  /** One turn of the loop, for the labels: folding the first pair into
      `acc` and the rest into the result keeps what `Accumulate` promises. */
  lemma AccumulateLabelsStep(acc: seq<Entry>, pairs: seq<Entry>, mid: seq<Entry>, r: seq<Entry>)
    requires |pairs| > 0
    requires Labels(acc) <= Labels(mid) && Labels(mid) <= Labels(r)
    requires forall k :: k in Labels(mid) <==> k in Labels(acc) || k == pairs[0].0
    requires forall k :: k in Labels(r) <==> k in Labels(mid) || k in Labels(pairs[1..])
    ensures Labels(acc) <= Labels(r)
    ensures forall k :: k in Labels(r) <==> k in Labels(acc) || k in Labels(pairs)
  {
    LabelsCons(pairs);
  }

  /** The same turn, for the amount under each label. */
  lemma AccumulateValuesStep(acc: seq<Entry>, pairs: seq<Entry>, mid: seq<Entry>, r: seq<Entry>)
    requires |pairs| > 0
    requires forall k :: Lookup(mid, k) == Lookup(acc, k) + (if k == pairs[0].0 then pairs[0].1 else 0.0)
    requires forall k :: Lookup(r, k) == Lookup(mid, k) + SumFor(pairs[1..], k)
    ensures forall k :: Lookup(r, k) == Lookup(acc, k) + SumFor(pairs, k)
  {
    var p := pairs[0];
    forall k ensures Lookup(r, k) == Lookup(acc, k) + SumFor(pairs, k) {
      assert SumFor(pairs, k) == (if p.0 == k then p.1 else 0.0) + SumFor(pairs[1..], k);
    }
  }

  /** The same turn, for the grand total. */
  lemma AccumulateTotalStep(acc: seq<Entry>, pairs: seq<Entry>, mid: seq<Entry>, r: seq<Entry>)
    requires |pairs| > 0
    requires Total(mid) == Total(acc) + pairs[0].1
    requires Total(r) == Total(mid) + Total(pairs[1..])
    ensures Total(r) == Total(acc) + Total(pairs)
  {
    assert Total(pairs) == pairs[0].1 + Total(pairs[1..]);
  }

  /** Totals per label, labels in order of first appearance. */
  function Totals(pairs: seq<Entry>): (r: seq<Entry>)
    ensures DistinctLabels(r)
    ensures forall k :: k in Labels(r) <==> k in Labels(pairs)
    ensures Total(r) == Total(pairs)
  {
    Accumulate([], pairs)
  }

  /** Every value of a tally is the sum of the amounts carried under its
      label. */
  lemma TotalsValues(pairs: seq<Entry>)
    ensures forall i :: 0 <= i < |Totals(pairs)| ==> Totals(pairs)[i].1 == SumFor(pairs, Totals(pairs)[i].0)
  {
    var r := Totals(pairs);
    forall i | 0 <= i < |r| ensures r[i].1 == SumFor(pairs, r[i].0) {
      LookupAt(r, i);
      LookupAbsent([], r[i].0);
    }
  }

  // ---------------------------------------------------------------------
  // Ascending order by a string key (a stable insertion sort)
  // ---------------------------------------------------------------------

  /** Neighbours are in key order. */
  predicate Ascending<T>(s: seq<T>, key: T -> string) {
    forall i :: 0 < i < |s| ==> LexLe(key(s[i - 1]), key(s[i]))
  }

  /** Neighbours are in strict key order. */
  predicate StrictlyAscending<T>(s: seq<T>, key: T -> string) {
    forall i :: 0 < i < |s| ==> LexLess(key(s[i - 1]), key(s[i]))
  }

  function Keys<T>(s: seq<T>, key: T -> string): (r: seq<string>)
    ensures |r| == |s| && forall i :: 0 <= i < |s| ==> r[i] == key(s[i])
  {
    seq(|s|, i requires 0 <= i < |s| => key(s[i]))
  }

  predicate DistinctKeys<T>(s: seq<T>, key: T -> string) {
    forall i, j :: 0 <= i < j < |s| ==> key(s[i]) != key(s[j])
  }

  function InsertAsc<T>(x: T, s: seq<T>, key: T -> string): (r: seq<T>)
    requires Ascending(s, key)
    ensures Ascending(r, key)
    ensures multiset(r) == multiset(s) + multiset{x}
    ensures |r| == |s| + 1
    ensures r[0] == x || (|s| > 0 && r[0] == s[0])
  {
    if |s| == 0 || LexLe(key(x), key(s[0])) then
      [x] + s
    else
      var rest := InsertAsc(x, s[1..], key);
      LexLeTotal(key(x), key(s[0]));
      assert s == [s[0]] + s[1..];
      [s[0]] + rest
  }

  lemma {:induction false} InsertAscStrict<T>(x: T, s: seq<T>, key: T -> string)
    requires StrictlyAscending(s, key) && key(x) !in Keys(s, key)
    ensures StrictlyAscending(InsertAsc(x, s, key), key)
  {
    if |s| > 0 {
      assert key(s[0]) == Keys(s, key)[0];
      LexLessTotal(key(x), key(s[0]));
      if !LexLe(key(x), key(s[0])) {
        assert Keys(s[1..], key) == Keys(s, key)[1..];
        InsertAscStrict(x, s[1..], key);
      }
    }
  }

  /** `arr.sort()` on the key: the same elements, in ascending key order. */
  function SortAsc<T>(s: seq<T>, key: T -> string): (r: seq<T>)
    ensures Ascending(r, key)
    ensures multiset(r) == multiset(s)
    ensures |r| == |s|
  {
    if |s| == 0 then []
    else
      assert s == [s[0]] + s[1..];
      InsertAsc(s[0], SortAsc(s[1..], key), key)
  }

  /** Sorting elements whose keys are all different yields strictly ascending
      keys. */
  lemma {:induction false} SortAscStrict<T>(s: seq<T>, key: T -> string)
    requires DistinctKeys(s, key)
    ensures StrictlyAscending(SortAsc(s, key), key)
  {
    if |s| > 0 {
      var rest := SortAsc(s[1..], key);
      SortAscStrict(s[1..], key);
      assert s == [s[0]] + s[1..];
      forall i | 0 <= i < |rest| ensures Keys(rest, key)[i] != key(s[0]) {
        assert rest[i] in multiset(s[1..]);
        var m :| 0 <= m < |s[1..]| && s[1..][m] == rest[i];
        assert s[m + 1] == rest[i];
      }
      InsertAscStrict(s[0], rest, key);
    }
  }

  /** The elements whose key is `k`, in order. */
  function WithKey<T>(s: seq<T>, key: T -> string, k: string): seq<T> {
    if |s| == 0 then []
    else (if key(s[0]) == k then [s[0]] else []) + WithKey(s[1..], key, k)
  }

  lemma WithKeyCons<T>(y: T, t: seq<T>, key: T -> string, k: string)
    ensures WithKey([y] + t, key, k) == (if key(y) == k then [y] else []) + WithKey(t, key, k)
  {
    assert ([y] + t)[1..] == t;
  }

  /** An inserted element goes before every element of its key already
      there, which all came after it. */
  lemma {:induction false} InsertAscStable<T>(x: T, s: seq<T>, key: T -> string, k: string)
    requires Ascending(s, key)
    ensures WithKey(InsertAsc(x, s, key), key, k) == (if key(x) == k then [x] else []) + WithKey(s, key, k)
  {
    var hx := if key(x) == k then [x] else [];
    if |s| == 0 || LexLe(key(x), key(s[0])) {
      WithKeyCons(x, s, key, k);
    } else {
      var rest := InsertAsc(x, s[1..], key);
      var h0 := if key(s[0]) == k then [s[0]] else [];
      assert s == [s[0]] + s[1..];
      assert h0 == [] || hx == [];
      calc {
        WithKey(InsertAsc(x, s, key), key, k);
        WithKey([s[0]] + rest, key, k);
        { WithKeyCons(s[0], rest, key, k); }
        h0 + WithKey(rest, key, k);
        { InsertAscStable(x, s[1..], key, k); }
        h0 + (hx + WithKey(s[1..], key, k));
        hx + (h0 + WithKey(s[1..], key, k));
        { WithKeyCons(s[0], s[1..], key, k); }
        hx + WithKey(s, key, k);
      }
    }
  }

  /** Stability: for each key, the elements carrying it keep their order,
      as the stable `Array.prototype.sort` keeps them. */
  lemma {:induction false} SortAscStable<T>(s: seq<T>, key: T -> string, k: string)
    ensures WithKey(SortAsc(s, key), key, k) == WithKey(s, key, k)
  {
    if |s| > 0 {
      SortAscStable(s[1..], key, k);
      InsertAscStable(s[0], SortAsc(s[1..], key), key, k);
      WithKeyCons(s[0], s[1..], key, k);
      assert s == [s[0]] + s[1..];
    }
  }

  /** A stable ascending order is unique: two ascending arrangements of the
      same elements that keep each key's elements in the same order are
      the same sequence. */
  lemma {:induction false} StableSortUnique<T>(a: seq<T>, b: seq<T>, key: T -> string)
    requires multiset(a) == multiset(b) && Ascending(a, key) && Ascending(b, key)
    requires forall k :: WithKey(a, key, k) == WithKey(b, key, k)
    ensures a == b
    decreases |a|
  {
    assert |a| == |multiset(a)| == |multiset(b)| == |b|;
    if |a| > 0 {
      StableHeads(a, b, key);
      StableTails(a, b, key);
      assert multiset(a[1..]) == multiset(a) - multiset{a[0]} by {
        assert a == [a[0]] + a[1..];
      }
      assert multiset(b[1..]) == multiset(b) - multiset{b[0]} by {
        assert b == [b[0]] + b[1..];
      }
      StableSortUnique(a[1..], b[1..], key);
      assert a == [a[0]] + a[1..] && b == [b[0]] + b[1..];
    }
  }

  /** Both arrangements start with the same element: its key is the least,
      and it is the first element of that key. */
  lemma StableHeads<T>(a: seq<T>, b: seq<T>, key: T -> string)
    requires multiset(a) == multiset(b) && Ascending(a, key) && Ascending(b, key)
    requires forall k :: WithKey(a, key, k) == WithKey(b, key, k)
    requires |a| > 0 && |b| > 0
    ensures a[0] == b[0]
  {
    var k := key(a[0]);
    LeastKeys(a, b, key);
    assert a == [a[0]] + a[1..] && b == [b[0]] + b[1..];
    WithKeyCons(a[0], a[1..], key, k);
    WithKeyCons(b[0], b[1..], key, k);
    assert WithKey(a, key, k)[0] == a[0];
    assert WithKey(b, key, k)[0] == b[0];
  }

  /** Two ascending arrangements of the same elements start with the same
      key. */
  lemma LeastKeys<T>(a: seq<T>, b: seq<T>, key: T -> string)
    requires multiset(a) == multiset(b) && Ascending(a, key) && Ascending(b, key)
    requires |a| > 0 && |b| > 0
    ensures key(a[0]) == key(b[0])
  {
    assert a[0] in multiset(b) && b[0] in multiset(a);
    var j :| 0 <= j < |b| && b[j] == a[0];
    var m :| 0 <= m < |a| && a[m] == b[0];
    AscendingPrefix(b, key, j);
    AscendingPrefix(a, key, m);
    LexLeAntisymmetric(key(b[0]), key(a[0]));
  }

  /** With equal heads, the rests keep each key's elements in the same
      order too. */
  lemma StableTails<T>(a: seq<T>, b: seq<T>, key: T -> string)
    requires |a| > 0 && |b| > 0 && a[0] == b[0]
    requires forall k :: WithKey(a, key, k) == WithKey(b, key, k)
    ensures forall k :: WithKey(a[1..], key, k) == WithKey(b[1..], key, k)
  {
    assert a == [a[0]] + a[1..] && b == [b[0]] + b[1..];
    forall k ensures WithKey(a[1..], key, k) == WithKey(b[1..], key, k) {
      var h := if key(a[0]) == k then [a[0]] else [];
      var x, y := WithKey(a[1..], key, k), WithKey(b[1..], key, k);
      WithKeyCons(a[0], a[1..], key, k);
      WithKeyCons(b[0], b[1..], key, k);
      assert h + x == h + y;
      assert (h + x)[|h|..] == x && (h + y)[|h|..] == y;
    }
  }

  /** So a stable ascending arrangement of `s` is `SortAsc(s, key)`. */
  lemma SortAscUnique<T>(s: seq<T>, t: seq<T>, key: T -> string)
    requires multiset(t) == multiset(s) && Ascending(t, key)
    requires forall k :: WithKey(t, key, k) == WithKey(s, key, k)
    ensures t == SortAsc(s, key)
  {
    forall k ensures WithKey(t, key, k) == WithKey(SortAsc(s, key), key, k) {
      SortAscStable(s, key, k);
    }
    StableSortUnique(t, SortAsc(s, key), key);
  }

  /** Strict order between neighbours is strict order between any two. */
  lemma {:induction false} StrictlyAscendingAll<T>(s: seq<T>, key: T -> string, i: int, j: int)
    requires StrictlyAscending(s, key) && 0 <= i < j < |s|
    ensures LexLess(key(s[i]), key(s[j]))
    decreases j - i
  {
    if i + 1 < j {
      StrictlyAscendingAll(s, key, i, j - 1);
      LexLessTransitive(key(s[i]), key(s[j - 1]), key(s[j]));
    }
  }

  /** In a sorted sequence the first element has the least key and the
      last the greatest. */
  lemma {:induction false} AscendingEnds<T>(s: seq<T>, key: T -> string, k: int)
    requires Ascending(s, key) && 0 <= k < |s|
    ensures LexLe(key(s[0]), key(s[k])) && LexLe(key(s[k]), key(s[|s| - 1]))
  {
    AscendingPrefix(s, key, k);
    AscendingSuffix(s, key, k);
  }

  lemma {:induction false} AscendingPrefix<T>(s: seq<T>, key: T -> string, k: int)
    requires Ascending(s, key) && 0 <= k < |s|
    ensures LexLe(key(s[0]), key(s[k]))
    decreases k
  {
    if k > 0 {
      AscendingPrefix(s, key, k - 1);
      LexLeTransitive(key(s[0]), key(s[k - 1]), key(s[k]));
    }
  }

  lemma {:induction false} AscendingSuffix<T>(s: seq<T>, key: T -> string, k: int)
    requires Ascending(s, key) && 0 <= k < |s|
    ensures LexLe(key(s[k]), key(s[|s| - 1]))
    decreases |s| - k
  {
    if k < |s| - 1 {
      AscendingSuffix(s, key, k + 1);
      LexLeTransitive(key(s[k]), key(s[k + 1]), key(s[|s| - 1]));
    }
  }

  // ---------------------------------------------------------------------
  // Descending order by value, ties in original order
  // ---------------------------------------------------------------------

  predicate Descending(t: seq<Entry>) {
    forall i :: 0 < i < |t| ==> t[i - 1].1 >= t[i].1
  }

  /** The entries whose value is `v`, in order. */
  function WithValue(t: seq<Entry>, v: real): seq<Entry> {
    if |t| == 0 then []
    else (if t[0].1 == v then [t[0]] else []) + WithValue(t[1..], v)
  }

  function InsertDesc(x: Entry, s: seq<Entry>): (r: seq<Entry>)
    requires Descending(s)
    ensures Descending(r)
    ensures multiset(r) == multiset(s) + multiset{x}
    ensures |r| == |s| + 1
    ensures r[0] == x || (|s| > 0 && r[0] == s[0])
  {
    if |s| == 0 || s[0].1 <= x.1 then
      [x] + s
    else
      assert s == [s[0]] + s[1..];
      [s[0]] + InsertDesc(x, s[1..])
  }

  /** An inserted entry goes after every entry of its value already there. */
  lemma {:induction false} InsertDescStable(x: Entry, s: seq<Entry>, v: real)
    requires Descending(s)
    ensures WithValue(InsertDesc(x, s), v) == (if x.1 == v then [x] else []) + WithValue(s, v)
  {
    var hx := if x.1 == v then [x] else [];
    if |s| == 0 || s[0].1 <= x.1 {
      WithValueCons(x, s, v);
    } else {
      var rest := InsertDesc(x, s[1..]);
      var h0 := if s[0].1 == v then [s[0]] else [];
      assert s == [s[0]] + s[1..];
      assert h0 == [] || hx == [];
      calc {
        WithValue(InsertDesc(x, s), v);
        WithValue([s[0]] + rest, v);
        { WithValueCons(s[0], rest, v); }
        h0 + WithValue(rest, v);
        { InsertDescStable(x, s[1..], v); }
        h0 + (hx + WithValue(s[1..], v));
        hx + (h0 + WithValue(s[1..], v));
        { WithValueCons(s[0], s[1..], v); }
        hx + WithValue(s, v);
      }
    }
  }

  lemma WithValueCons(y: Entry, t: seq<Entry>, v: real)
    ensures WithValue([y] + t, v) == (if y.1 == v then [y] else []) + WithValue(t, v)
  {
    assert ([y] + t)[1..] == t;
  }

  /** Inserting an entry with a new label keeps the labels distinct. */
  lemma {:induction false} InsertDescDistinct(x: Entry, s: seq<Entry>)
    requires Descending(s) && DistinctLabels(s) && x.0 !in Labels(s)
    ensures DistinctLabels(InsertDesc(x, s))
  {
    if |s| > 0 && x.1 < s[0].1 {
      var rest := InsertDesc(x, s[1..]);
      assert x.0 !in Labels(s[1..]) by {
        forall j | 0 <= j < |s| - 1 ensures Labels(s[1..])[j] != x.0 {
          assert Labels(s[1..])[j] == Labels(s)[j + 1];
        }
      }
      InsertDescDistinct(x, s[1..]);
      forall j | 0 <= j < |rest| ensures rest[j].0 != s[0].0 {
        InsertDescMembers(x, s[1..], rest[j]);
        if rest[j] == x {
          assert Labels(s)[0] == s[0].0;
        } else {
          var m :| 0 <= m < |s| - 1 && s[1..][m] == rest[j];
          assert s[m + 1] == rest[j];
        }
      }
      DistinctCons(s[0], rest);
    } else {
      forall j | 0 <= j < |s| ensures s[j].0 != x.0 {
        assert Labels(s)[j] == s[j].0;
      }
      DistinctCons(x, s);
    }
  }

  lemma InsertDescMembers(x: Entry, s: seq<Entry>, y: Entry)
    requires Descending(s) && y in InsertDesc(x, s)
    ensures y == x || y in s
  {
    assert y in multiset(InsertDesc(x, s));
  }

  lemma DistinctCons(y: Entry, t: seq<Entry>)
    requires DistinctLabels(t) && forall j :: 0 <= j < |t| ==> t[j].0 != y.0
    ensures DistinctLabels([y] + t)
  {
    var r := [y] + t;
    forall i, j | 0 <= i < j < |r| ensures r[i].0 != r[j].0 {
      assert r[j] == t[j - 1];
      if i > 0 {
        assert r[i] == t[i - 1];
      }
    }
  }

  /** The stable sort by value, largest first. */
  function SortDesc(t: seq<Entry>): (r: seq<Entry>)
    ensures Descending(r)
    ensures multiset(r) == multiset(t)
    ensures |r| == |t|
  {
    if |t| == 0 then []
    else
      assert t == [t[0]] + t[1..];
      InsertDesc(t[0], SortDesc(t[1..]))
  }

  /** Stability: for each value, the entries carrying it keep their order. */
  lemma {:induction false} SortDescStable(t: seq<Entry>, v: real)
    ensures WithValue(SortDesc(t), v) == WithValue(t, v)
  {
    if |t| > 0 {
      SortDescStable(t[1..], v);
      InsertDescStable(t[0], SortDesc(t[1..]), v);
    }
  }

  lemma {:induction false} TotalOfPermutation(a: seq<Entry>, b: seq<Entry>)
    requires multiset(a) == multiset(b)
    ensures Total(a) == Total(b)
    decreases |a|
  {
    if |a| > 0 {
      var i := HeadInPermutation(a, b);
      TotalOfPermutation(a[1..], b[..i] + b[i + 1..]);
      TotalAppend(b[..i], [b[i]] + b[i + 1..]);
      TotalAppend(b[..i], b[i + 1..]);
      assert b == b[..i] + ([b[i]] + b[i + 1..]);
    }
  }

  lemma {:induction false} TotalAppend(a: seq<Entry>, b: seq<Entry>)
    ensures Total(a + b) == Total(a) + Total(b)
  {
    if |a| == 0 {
      assert a + b == b;
    } else {
      assert (a + b)[1..] == a[1..] + b;
      TotalAppend(a[1..], b);
    }
  }

  /** The first entry with value `v` leads the entries with that value. */
  lemma {:induction false} WithValueHead(t: seq<Entry>, i: int)
    requires 0 <= i < |t|
    requires forall j :: 0 <= j < i ==> t[j].1 != t[i].1
    ensures |WithValue(t, t[i].1)| > 0 && WithValue(t, t[i].1)[0] == t[i]
  {
    if i > 0 {
      WithValueHead(t[1..], i - 1);
    }
  }

  /** Sorting by value keeps labels distinct. */
  lemma {:induction false} SortDescDistinct(t: seq<Entry>)
    requires DistinctLabels(t)
    ensures DistinctLabels(SortDesc(t))
  {
    if |t| > 0 {
      var rest := SortDesc(t[1..]);
      SortDescDistinct(t[1..]);
      assert t == [t[0]] + t[1..];
      forall j | 0 <= j < |rest| ensures Labels(rest)[j] != t[0].0 {
        assert rest[j] in multiset(t[1..]);
        var m :| 0 <= m < |t[1..]| && t[1..][m] == rest[j];
        assert t[m + 1] == rest[j];
      }
      InsertDescDistinct(t[0], rest);
    }
  }

  /** The head of a descending sequence carries its largest value. */
  lemma {:induction false} DescendingFirst(t: seq<Entry>, k: int)
    requires Descending(t) && 0 <= k < |t|
    ensures t[0].1 >= t[k].1
    decreases k
  {
    if k > 0 {
      DescendingFirst(t, k - 1);
    }
  }

  /** Two sequences holding the same entries hold the same labels. */
  lemma SameLabels(a: seq<Entry>, b: seq<Entry>)
    requires multiset(a) == multiset(b)
    ensures forall k :: k in Labels(a) <==> k in Labels(b)
  {
    forall k | k in Labels(a) ensures k in Labels(b) {
      var i :| 0 <= i < |a| && Labels(a)[i] == k;
      assert a[i] in multiset(b);
      var j :| 0 <= j < |b| && b[j] == a[i];
      assert Labels(b)[j] == k;
    }
    forall k | k in Labels(b) ensures k in Labels(a) {
      var i :| 0 <= i < |b| && Labels(b)[i] == k;
      assert b[i] in multiset(a);
      var j :| 0 <= j < |a| && a[j] == b[i];
      assert Labels(a)[j] == k;
    }
  }

  /** Sum of a list of numbers. */
  function Sum(vs: seq<real>): real {
    if |vs| == 0 then 0.0 else vs[0] + Sum(vs[1..])
  }

  lemma {:induction false} SumValues(t: seq<Entry>)
    ensures Sum(Values(t)) == Total(t)
  {
    if |t| > 0 {
      assert Values(t)[1..] == Values(t[1..]);
      SumValues(t[1..]);
    }
  }
}

=== FILE: taxonomy.dfy ===
/** The category configuration: each category name maps to its list of
    subcategories (js/app.js `ensureCategoryExists`,
    `ensureSubcategoryExists`). A missing configuration object is the
    empty map. */
module Taxonomy {
  import opened Text

  type Categories = map<string, seq<string>>

  /** The subcategory list a new category starts with. */
  const DefaultSubcategories: seq<string> := ["Diversos"]

  predicate NoDuplicates(list: seq<string>) {
    forall i, j :: 0 <= i < j < |list| ==> list[i] != list[j]
  }

  /** Names a plain JavaScript object answers through its prototype, so that
      `obj[name]` is truthy although `obj` has no such entry. */
  predicate Inherited(name: string) {
    name in {"constructor", "hasOwnProperty", "isPrototypeOf", "propertyIsEnumerable",
             "toLocaleString", "toString", "valueOf", "__proto__", "__defineGetter__",
             "__defineSetter__", "__lookupGetter__", "__lookupSetter__"}
  }

  /** `ensureCategoryExists` as written: the presence test is the
      truthiness of `cfg.categories[name]`, which also holds for an
      inherited name. It agrees with the corrected `EnsureCategory` except
      on inherited names, which it never adds. */
  function EnsureCategoryAsWritten(cats: Categories, name: string): (r: Categories)
    ensures !Inherited(Trim(name)) ==> r == EnsureCategory(cats, name)
    ensures Inherited(Trim(name)) ==> r == cats
  {
    var n := Trim(name);
    if n == "" then cats
    else if n in cats || Inherited(n) then cats
    else cats[n := DefaultSubcategories]
  }

  /** A category typed as "constructor" is never created, so the category
      the form then selects does not exist. */
  lemma InheritedNameNotAdded()
    ensures Trim("constructor") == "constructor"
    ensures "constructor" !in EnsureCategoryAsWritten(map[], "constructor")
  {
    assert !AllSpace("constructor") by {
      assert !IsSpace("constructor"[0]);
    }
    assert LeadingSpaces("constructor") == 0;
    assert TrailingSpaces("constructor") == 0;
  }

  /** `ensureCategoryExists` with an own-entry presence test: a blank name
      changes nothing; otherwise the trimmed name exists afterwards, a new
      one with the default list, and every existing entry is kept as it
      was. */
  function EnsureCategory(cats: Categories, name: string): (r: Categories)
    ensures Trim(name) == "" ==> r == cats
    ensures Trim(name) != "" ==> r.Keys == cats.Keys + {Trim(name)}
    ensures forall k :: k in cats ==> k in r && r[k] == cats[k]
    ensures Trim(name) != "" && Trim(name) !in cats ==> r[Trim(name)] == DefaultSubcategories
  {
    var n := Trim(name);
    if n == "" then cats
    else if n in cats then cats
    else cats[n := DefaultSubcategories]
  }

  /** Ensuring a category twice is ensuring it once. */
  lemma EnsureCategoryIdempotent(cats: Categories, name: string)
    ensures EnsureCategory(EnsureCategory(cats, name), name) == EnsureCategory(cats, name)
  {
  }

  /** `ensureSubcategoryExists`: with both trimmed names non-blank, the
      category exists afterwards and lists the subcategory, appended at the
      end only when it was missing; every other category is untouched. */
  function EnsureSubcategory(cats: Categories, cat: string, sub: string): (r: Categories)
    ensures Trim(cat) == "" || Trim(sub) == "" ==> r == cats
    ensures Trim(cat) != "" && Trim(sub) != "" ==>
      && r.Keys == cats.Keys + {Trim(cat)}
      && Trim(sub) in r[Trim(cat)]
      && (Trim(cat) in cats ==> cats[Trim(cat)] <= r[Trim(cat)])
      && |r[Trim(cat)]| <= (if Trim(cat) in cats then |cats[Trim(cat)]| else |DefaultSubcategories|) + 1
    ensures forall k :: k in cats && k != Trim(cat) ==> k in r && r[k] == cats[k]
    ensures Trim(cat) in cats && Trim(sub) in cats[Trim(cat)] ==> r == cats
    ensures Trim(cat) != "" && Trim(sub) != "" && Trim(cat) in cats && Trim(sub) !in cats[Trim(cat)] ==>
      r[Trim(cat)] == cats[Trim(cat)] + [Trim(sub)]
    ensures Trim(cat) != "" && Trim(sub) != "" && Trim(cat) !in cats ==>
      r[Trim(cat)] == DefaultSubcategories + (if Trim(sub) in DefaultSubcategories then [] else [Trim(sub)])
  {
    var c := Trim(cat);
    var s := Trim(sub);
    if c == "" || s == "" then cats
    else
      TrimIdempotent(cat);
      var withCat := EnsureCategory(cats, c);
      var list := withCat[c];
      if s in list then withCat else withCat[c := list + [s]]
  }

  /** No subcategory is ever listed twice. */
  lemma EnsureSubcategoryNoDuplicates(cats: Categories, cat: string, sub: string)
    requires forall k :: k in cats ==> NoDuplicates(cats[k])
    ensures var r := EnsureSubcategory(cats, cat, sub);
      forall k :: k in r ==> NoDuplicates(r[k])
  {
    var c, s := Trim(cat), Trim(sub);
    if c != "" && s != "" {
      TrimIdempotent(cat);
      var withCat := EnsureCategory(cats, c);
      var list := withCat[c];
      assert NoDuplicates(list);
      if s !in list {
        var l := list + [s];
        forall i, j | 0 <= i < j < |l| ensures l[i] != l[j] {
          if j == |list| {
            assert l[i] == list[i];
          }
        }
      }
    }
  }

  /** Adding a subcategory twice is adding it once. */
  lemma EnsureSubcategoryIdempotent(cats: Categories, cat: string, sub: string)
    ensures EnsureSubcategory(EnsureSubcategory(cats, cat, sub), cat, sub) == EnsureSubcategory(cats, cat, sub)
  {
    var c, s := Trim(cat), Trim(sub);
    if c != "" && s != "" {
      TrimIdempotent(cat);
      var once := EnsureSubcategory(cats, cat, sub);
      assert c in once && s in once[c];
      assert EnsureCategory(once, c) == once;
    }
  }
}

=== FILE: text.dfy ===
/** The JavaScript string operations the expense tracker relies on, over
    `string` (a sequence of characters): `trim`, `toLowerCase`, `includes`,
    `padStart`, `replaceAll` with a one-character pattern, `Array.join`,
    number-to-decimal conversion, and the relational `<` on strings. */
module Text {

  // ---------------------------------------------------------------------
  // Digits and decimal numbers
  // ---------------------------------------------------------------------

  predicate IsDigit(c: char) {
    '0' <= c <= '9'
  }

  predicate AllDigits(s: string) {
    forall i :: 0 <= i < |s| ==> IsDigit(s[i])
  }

  function DigitValue(c: char): nat
    requires IsDigit(c)
  {
    (c as int) - ('0' as int)
  }

  function DigitChar(n: nat): (c: char)
    requires n < 10
    ensures IsDigit(c) && DigitValue(c) == n
  {
    (('0' as int) + n) as char
  }

  function Pow10(n: nat): (r: nat)
    ensures r >= 1
  {
    if n == 0 then 1 else 10 * Pow10(n - 1)
  }

  /** The value of a digit string read most significant digit first; the
      empty string reads as 0 and leading zeros add nothing. */
  function DigitsValue(s: string): (v: nat)
    requires AllDigits(s)
    ensures v < Pow10(|s|)
  {
    if |s| == 0 then 0
    else
      var p := Pow10(|s| - 1);
      var rest := DigitsValue(s[1..]);
      DigitBound(DigitValue(s[0]), p, rest);
      DigitValue(s[0]) * p + rest
  }

  lemma DigitBound(d: nat, p: nat, rest: nat)
    requires d < 10 && rest < p
    ensures 0 <= d * p + rest < 10 * p
  {
    MulLe(d + 1, 10, p);
    assert d * p + p == (d + 1) * p;
  }

  /** `String(n)` for a non-negative integer: its decimal digits, no
      leading zero. */
  function Decimal(n: nat): (s: string)
    ensures 1 <= |s| && AllDigits(s)
    ensures |s| > 1 ==> s[0] != '0'
  {
    if n < 10 then [DigitChar(n)] else Decimal(n / 10) + [DigitChar(n % 10)]
  }

  function Repeat(c: char, n: nat): (r: string)
    ensures |r| == n && forall i :: 0 <= i < n ==> r[i] == c
  {
    if n == 0 then [] else [c] + Repeat(c, n - 1)
  }

  /** `s.padStart(width, c)`: `s` itself when it is already `width` long,
      otherwise `s` preceded by enough copies of `c`. */
  function PadStart(s: string, width: nat, c: char): (r: string)
    ensures |r| == if |s| >= width then |s| else width
    ensures r[|r| - |s|..] == s
    ensures forall i :: 0 <= i < |r| - |s| ==> r[i] == c
  {
    if |s| >= width then s else Repeat(c, width - |s|) + s
  }

  lemma {:induction false} DigitsValueSnoc(s: string, c: char)
    requires AllDigits(s) && IsDigit(c)
    ensures AllDigits(s + [c])
    ensures DigitsValue(s + [c]) == 10 * DigitsValue(s) + DigitValue(c)
  {
    if |s| > 0 {
      var t := s + [c];
      assert t[1..] == s[1..] + [c];
      DigitsValueSnoc(s[1..], c);
      var d, q := DigitValue(s[0]), Pow10(|s| - 1);
      var r := DigitsValue(s[1..]);
      assert DigitsValue(t) == d * (10 * q) + DigitsValue(s[1..] + [c]);
      assert DigitsValue(s) == d * q + r;
      ShiftDigit(d, q, r, DigitValue(c));
    }
  }

  lemma ShiftDigit(d: int, q: int, r: int, e: int)
    ensures d * (10 * q) + (10 * r + e) == 10 * (d * q + r) + e
  {
  }

  /** Reading back the decimal rendering of `n` gives `n`. */
  lemma {:induction false} DecimalRoundTrip(n: nat)
    ensures DigitsValue(Decimal(n)) == n
  {
    if n >= 10 {
      DecimalRoundTrip(n / 10);
      DigitsValueSnoc(Decimal(n / 10), DigitChar(n % 10));
    }
  }

  /** Zeros in front of a digit string do not change its value. */
  lemma {:induction false} LeadingZeros(k: nat, s: string)
    requires AllDigits(s)
    ensures AllDigits(Repeat('0', k) + s)
    ensures DigitsValue(Repeat('0', k) + s) == DigitsValue(s)
  {
    var t := Repeat('0', k) + s;
    assert AllDigits(t) by {
      forall i | 0 <= i < |t| ensures IsDigit(t[i]) {
        if i >= k { assert t[i] == s[i - k]; }
      }
    }
    if k > 0 {
      var u := Repeat('0', k - 1) + s;
      assert t[1..] == u;
      LeadingZeros(k - 1, s);
      var p := Pow10(|t| - 1);
      assert DigitValue(t[0]) == 0;
      assert DigitsValue(t) == DigitValue(t[0]) * p + DigitsValue(u);
    } else {
      assert t == s;
    }
  }

  /** `padStart` with zeros keeps the value of a digit string. */
  lemma ZeroPadValue(s: string, width: nat)
    requires AllDigits(s)
    ensures AllDigits(PadStart(s, width, '0'))
    ensures DigitsValue(PadStart(s, width, '0')) == DigitsValue(s)
  {
    if |s| < width {
      LeadingZeros(width - |s|, s);
    }
  }

  /** Two digit strings of the same length with the same value are equal. */
  lemma {:induction false} DigitsValueInjective(a: string, b: string)
    requires AllDigits(a) && AllDigits(b) && |a| == |b|
    requires DigitsValue(a) == DigitsValue(b)
    ensures a == b
  {
    if |a| > 0 {
      var p := Pow10(|a| - 1);
      if DigitValue(a[0]) < DigitValue(b[0]) {
        LeadingDigitOrder(a, b);
      } else if DigitValue(b[0]) < DigitValue(a[0]) {
        LeadingDigitOrder(b, a);
      }
      var d := DigitValue(a[0]);
      assert d == DigitValue(b[0]);
      assert DigitsValue(a) == d * p + DigitsValue(a[1..]);
      assert DigitsValue(b) == d * p + DigitsValue(b[1..]);
      DigitsValueInjective(a[1..], b[1..]);
      assert a == [a[0]] + a[1..] && b == [b[0]] + b[1..];
    }
  }

  /** A smaller leading digit means a smaller value, whatever follows. */
  lemma LeadingDigitOrder(a: string, b: string)
    requires AllDigits(a) && AllDigits(b) && |a| == |b| > 0
    requires DigitValue(a[0]) < DigitValue(b[0])
    ensures DigitsValue(a) < DigitsValue(b)
  {
    var p := Pow10(|a| - 1);
    var ra, rb := DigitsValue(a[1..]), DigitsValue(b[1..]);
    assert DigitsValue(a) == DigitValue(a[0]) * p + ra;
    assert DigitsValue(b) == DigitValue(b[0]) * p + rb;
    LeadingTerm(DigitValue(a[0]), DigitValue(b[0]), p, ra, rb);
  }

  lemma LeadingTerm(da: nat, db: nat, p: nat, ra: nat, rb: nat)
    requires da < db && ra < p
    ensures da * p + ra < db * p + rb
  {
    MulLe(da + 1, db, p);
    assert da * p + p == (da + 1) * p;
  }

  lemma MulLe(x: nat, y: nat, p: nat)
    requires x <= y
    ensures x * p <= y * p
  {
  }

  // ---------------------------------------------------------------------
  // String order (JavaScript's `<` on strings)
  // ---------------------------------------------------------------------

  /** `a < b` on strings: the first differing character decides, and a
      proper prefix is smaller than the string it begins. */
  predicate LexLess(a: string, b: string) {
    if |a| == 0 then |b| > 0
    else if |b| == 0 then false
    else if a[0] == b[0] then LexLess(a[1..], b[1..])
    else a[0] < b[0]
  }

  predicate LexLe(a: string, b: string) {
    a == b || LexLess(a, b)
  }

  lemma {:induction false} LexLessIrreflexive(a: string)
    ensures !LexLess(a, a)
  {
    if |a| > 0 {
      LexLessIrreflexive(a[1..]);
    }
  }

  lemma {:induction false} LexLessTransitive(a: string, b: string, c: string)
    requires LexLess(a, b) && LexLess(b, c)
    ensures LexLess(a, c)
  {
    if |a| > 0 && a[0] == b[0] && b[0] == c[0] {
      LexLessTransitive(a[1..], b[1..], c[1..]);
    }
  }

  lemma {:induction false} LexLessTotal(a: string, b: string)
    ensures a == b || LexLess(a, b) || LexLess(b, a)
  {
    if |a| > 0 && |b| > 0 && a[0] == b[0] {
      LexLessTotal(a[1..], b[1..]);
      if a[1..] == b[1..] {
        assert a == [a[0]] + a[1..] && b == [b[0]] + b[1..];
      }
    }
  }

  lemma LexLessAsymmetric(a: string, b: string)
    requires LexLess(a, b)
    ensures !LexLess(b, a) && a != b
  {
    LexLessIrreflexive(a);
    if LexLess(b, a) {
      LexLessTransitive(a, b, a);
    }
  }

  lemma LexLeTransitive(a: string, b: string, c: string)
    requires LexLe(a, b) && LexLe(b, c)
    ensures LexLe(a, c)
  {
    if a != b && b != c {
      LexLessTransitive(a, b, c);
    }
  }

  lemma LexLeTotal(a: string, b: string)
    ensures LexLe(a, b) || LexLe(b, a)
  {
    LexLessTotal(a, b);
  }

  lemma LexLeAntisymmetric(a: string, b: string)
    requires LexLe(a, b) && LexLe(b, a)
    ensures a == b
  {
    if a != b {
      LexLessAsymmetric(a, b);
    }
  }

  /** Comparing two concatenations whose first parts have equal length: the
      first parts decide unless they are equal. */
  lemma {:induction false} LexLessAppend(p: string, q: string, p': string, q': string)
    requires |p| == |p'|
    ensures LexLess(p + q, p' + q') == if p == p' then LexLess(q, q') else LexLess(p, p')
  {
    if |p| > 0 {
      assert (p + q)[1..] == p[1..] + q;
      assert (p' + q')[1..] == p'[1..] + q';
      LexLessAppend(p[1..], q, p'[1..], q');
      if p[0] == p'[0] && p[1..] == p'[1..] {
        assert p == [p[0]] + p[1..] && p' == [p'[0]] + p'[1..];
      }
    } else {
      assert p + q == q && p' + q' == q';
    }
  }

  /** For digit strings of one width, string order is numeric order. */
  lemma {:induction false} LexLessDigits(a: string, b: string)
    requires AllDigits(a) && AllDigits(b) && |a| == |b|
    ensures LexLess(a, b) <==> DigitsValue(a) < DigitsValue(b)
  {
    if |a| > 0 {
      if a[0] == b[0] {
        LexLessDigits(a[1..], b[1..]);
      } else if a[0] < b[0] {
        LeadingDigitOrder(a, b);
      } else {
        LeadingDigitOrder(b, a);
      }
    }
  }

  // ---------------------------------------------------------------------
  // trim, toLowerCase, includes
  // ---------------------------------------------------------------------

  /** The characters `String.prototype.trim` removes: ECMAScript white
      space and line terminators. */
  predicate IsSpace(c: char) {
    || c == '\t' || c == '\n' || c == '\U{0B}' || c == '\U{0C}' || c == '\r'
    || c == ' ' || c == '\U{A0}' || c == '\U{1680}'
    || ('\U{2000}' <= c <= '\U{200A}')
    || c == '\U{2028}' || c == '\U{2029}' || c == '\U{202F}' || c == '\U{205F}'
    || c == '\U{3000}' || c == '\U{FEFF}'
  }

  predicate AllSpace(s: string) {
    forall i :: 0 <= i < |s| ==> IsSpace(s[i])
  }

  function LeadingSpaces(s: string): (n: nat)
    ensures n <= |s|
    ensures forall i :: 0 <= i < n ==> IsSpace(s[i])
    ensures n < |s| ==> !IsSpace(s[n])
  {
    if |s| > 0 && IsSpace(s[0]) then 1 + LeadingSpaces(s[1..]) else 0
  }

  function TrailingSpaces(s: string): (n: nat)
    ensures n <= |s|
    ensures forall i :: |s| - n <= i < |s| ==> IsSpace(s[i])
    ensures n < |s| ==> !IsSpace(s[|s| - n - 1])
  {
    if |s| > 0 && IsSpace(s[|s| - 1]) then 1 + TrailingSpaces(s[..|s| - 1]) else 0
  }

  /** `s.trim()`: the longest run of `s` that neither starts nor ends with
      white space, once the white space at both ends is cut off. */
  function Trim(s: string): (r: string)
    ensures var a := LeadingSpaces(s);
      && a + |r| <= |s|
      && r == s[a..a + |r|]
      && forall i :: a + |r| <= i < |s| ==> IsSpace(s[i])
    ensures r == [] <==> AllSpace(s)
    ensures r != [] ==> !IsSpace(r[0]) && !IsSpace(r[|r| - 1])
  {
    var a := LeadingSpaces(s);
    var t := s[a..];
    var r := t[..|t| - TrailingSpaces(t)];
    assert |t| > 0 ==> t[0] == s[a];
    r
  }

  /** Trimming twice is trimming once. */
  lemma TrimIdempotent(s: string)
    ensures Trim(Trim(s)) == Trim(s)
  {
    var r := Trim(s);
    if r != [] {
      assert LeadingSpaces(r) == 0;
      assert r[0..] == r;
      assert TrailingSpaces(r) == 0;
    }
  }

  /** `toLowerCase` on the Basic Latin and Latin-1 capital letters. */
  function LowerChar(c: char): char {
    if 'A' <= c <= 'Z' || ('\U{C0}' <= c <= '\U{DE}' && c != '\U{D7}')
    then ((c as int) + 32) as char
    else c
  }

  function Lower(s: string): (r: string)
    ensures |r| == |s| && forall i :: 0 <= i < |s| ==> r[i] == LowerChar(s[i])
  {
    seq(|s|, i requires 0 <= i < |s| => LowerChar(s[i]))
  }

  lemma LowerAppend(a: string, b: string)
    ensures Lower(a + b) == Lower(a) + Lower(b)
  {
  }

  /** `hay.includes(needle)`: `needle` occurs in `hay` at some position. */
  predicate Contains(hay: string, needle: string) {
    exists i :: 0 <= i <= |hay| - |needle| && OccursAt(hay, needle, i)
  }

  predicate OccursAt(hay: string, needle: string, i: int) {
    0 <= i <= |hay| - |needle| && hay[i..i + |needle|] == needle
  }

  /** What occurs in a part of a concatenation occurs in the whole. */
  lemma ContainsInAppend(a: string, b: string, needle: string)
    ensures Contains(a, needle) ==> Contains(a + b, needle)
    ensures Contains(b, needle) ==> Contains(a + b, needle)
  {
    if Contains(a, needle) {
      var i :| 0 <= i <= |a| - |needle| && OccursAt(a, needle, i);
      assert (a + b)[i..i + |needle|] == needle;
      assert OccursAt(a + b, needle, i);
    }
    if Contains(b, needle) {
      var i :| 0 <= i <= |b| - |needle| && OccursAt(b, needle, i);
      assert (a + b)[|a| + i..|a| + i + |needle|] == needle;
      assert OccursAt(a + b, needle, |a| + i);
    }
  }

  // ---------------------------------------------------------------------
  // replaceAll with a one-character pattern, and Array.join
  // ---------------------------------------------------------------------

  /** Moving the first character of `c` onto `a` first builds the same
      string. */
  lemma SnocHead(a: string, c: string)
    requires |c| > 0
    ensures a + [c[0]] + c[1..] == a + c
  {
    assert c == [c[0]] + c[1..];
  }

  /** `s.replaceAll(c, rep)` for a one-character pattern `c`. */
  function ReplaceChar(s: string, c: char, rep: string): (r: string)
    ensures c !in s ==> r == s
    ensures c !in rep ==> c !in r
  {
    if |s| == 0 then []
    else (if s[0] == c then rep else [s[0]]) + ReplaceChar(s[1..], c, rep)
  }

  lemma {:induction false} ReplaceCharAppend(a: string, b: string, c: char, rep: string)
    ensures ReplaceChar(a + b, c, rep) == ReplaceChar(a, c, rep) + ReplaceChar(b, c, rep)
  {
    if |a| == 0 {
      assert a + b == b;
    } else {
      assert (a + b)[1..] == a[1..] + b;
      ReplaceCharAppend(a[1..], b, c, rep);
    }
  }

  /** `parts.join(sep)`. */
  function Join(parts: seq<string>, sep: string): string {
    if |parts| == 0 then []
    else if |parts| == 1 then parts[0]
    else parts[0] + sep + Join(parts[1..], sep)
  }
}

=== FILE: ui.dfy ===
/** The record list's labels and badges (js/ui.js): the text shown for a
    record's payment, installments, kind, priority, fuel type and delivery
    provider, and the HTML escaping applied to free text before it is
    placed in markup. */
module Ui {
  import opened Wrappers
  import opened Text
  import opened Records
  import opened Insights

  // ---------------------------------------------------------------------
  // Labels
  // ---------------------------------------------------------------------

  /** `labelPayment`: credit shows the card in parentheses when there is
      one, debit is "Débito", anything else is "Pix". */
  function LabelPayment(pay: string, card: string): (r: string)
    ensures r == "Pix" <==> pay != "credito" && pay != "debito"
    ensures r == "Débito" <==> pay == "debito"
    ensures pay == "credito" ==> OccursAt(r, "Crédito", 0)
    ensures pay == "credito" && card != "" ==> r == "Crédito (" + card + ")"
    ensures pay == "credito" && card == "" ==> r == "Crédito"
  {
    if pay == "credito" then "Crédito" + (if card != "" then " (" + card + ")" else "")
    else if pay == "debito" then "Débito"
    else "Pix"
  }

  /** The list and the bar chart show the same payment label. */
  lemma LabelPaymentAgrees(pay: string, card: string)
    ensures LabelPayment(pay, card) == PaymentLabel(pay, card)
  {
  }

  /** `labelInstallments`: "<n>x" for a credit purchase split into more
      than one installment, otherwise nothing. A missing or zero count
      counts as one; `show` is the number's decimal text. */
  function LabelInstallments(pay: string, inst: Num, show: real -> string): (r: string)
    ensures r != "" <==> pay == "credito" && inst.Finite? && inst.value > 1.0
    ensures r != "" ==> r == show(inst.value) + "x"
  {
    if pay != "credito" then ""
    else
      var n := if inst == Finite(0.0) || inst == NonFinite then Finite(1.0) else inst;
      if !n.Finite? || n.value <= 1.0 then "" else show(n.value) + "x"
  }

  /** `labelKind`. */
  function LabelKind(k: string): (r: string)
    ensures r == "Conta" <==> k == "conta"
    ensures r == "Doação" <==> k == "doacao"
    ensures r == "Compra" <==> k != "conta" && k != "doacao"
  {
    if k == "conta" then "Conta"
    else if k == "doacao" then "Doação"
    else "Compra"
  }

  /** The list and the kind chart show the same kind label. */
  lemma LabelKindAgrees(k: string)
    ensures LabelKind(k) == KindLabel(k)
  {
  }

  /** `labelPriority`: "essencial" is high, "importante" medium, anything
      else (an unset priority included) low. */
  function LabelPriority(p: string): (r: string)
    ensures r == "Alta" <==> p == "essencial"
    ensures r == "Média" <==> p == "importante"
    ensures r == "Baixa" <==> p != "essencial" && p != "importante"
  {
    if p == "essencial" then "Alta"
    else if p == "importante" then "Média"
    else "Baixa"
  }

  const FuelCodes: seq<string> := ["etanol", "etanol_aditivado", "gasolina", "gasolina_aditivada"]

  /** `labelFuelType`: the four known codes get their names, anything else
      is shown as stored. */
  function LabelFuelType(t: string): (r: string)
    ensures t !in FuelCodes ==> r == t
    ensures t in FuelCodes ==> r !in FuelCodes && r != t
    ensures t == "etanol" ==> r == "Etanol"
    ensures t == "etanol_aditivado" ==> r == "Etanol aditivado"
    ensures t == "gasolina" ==> r == "Gasolina"
    ensures t == "gasolina_aditivada" ==> r == "Gasolina aditivada"
  {
    if t == "etanol" then "Etanol"
    else if t == "etanol_aditivado" then "Etanol aditivado"
    else if t == "gasolina" then "Gasolina"
    else if t == "gasolina_aditivada" then "Gasolina aditivada"
    else t
  }

  /** `labelDeliveryProvider`: "iFood", "99", the typed name or "Outros"
      for "outros", anything else as stored. */
  function LabelDeliveryProvider(p: string, other: string): (r: string)
    ensures p != "" ==> r != ""
    ensures p == "" ==> r == ""
    ensures p == "ifood" ==> r == "iFood"
    ensures p == "99" ==> r == "99"
    ensures p == "outros" ==> r == (if other != "" then other else "Outros")
    ensures p !in {"ifood", "99", "outros"} ==> r == p
  {
    if p == "ifood" then "iFood"
    else if p == "99" then "99"
    else if p == "outros" then (if other != "" then other else "Outros")
    else p
  }

  /** For a record with a provider, the list shows the label the delivery
      chart groups it under. */
  lemma LabelDeliveryProviderAgrees(p: string, other: string)
    requires p != ""
    ensures LabelDeliveryProvider(p, other) == DeliveryLabel(p, other)
  {
  }

  // ---------------------------------------------------------------------
  // Escaping
  // ---------------------------------------------------------------------

  predicate Special(c: char) {
    c == '&' || c == '<' || c == '>' || c == '"' || c == '\''
  }

  /** The entity a character is written as; other characters stand for
      themselves. */
  function EscChar(c: char): (r: string)
    ensures Special(c) ==> |r| >= 4 && r[0] == '&'
    ensures !Special(c) ==> r == [c]
  {
    if c == '&' then "&amp;"
    else if c == '<' then "&lt;"
    else if c == '>' then "&gt;"
    else if c == '"' then "&quot;"
    else if c == '\'' then "&#039;"
    else [c]
  }

  /** The reference escaping, one character at a time. */
  function Escaped(s: string): string {
    if |s| == 0 then [] else EscChar(s[0]) + Escaped(s[1..])
  }

  /** `escapeHTML`: five replace-all passes, ampersands first so that the
      later entities are not escaped again. */
  function EscapeHTML(s: string): (r: string)
    ensures r == Escaped(s)
  {
    EscapeHTMLPerChar(s);
    Replaced(s)
  }

  function Replaced(s: string): string {
    var a := ReplaceChar(s, '&', "&amp;");
    var b := ReplaceChar(a, '<', "&lt;");
    var c := ReplaceChar(b, '>', "&gt;");
    var d := ReplaceChar(c, '"', "&quot;");
    ReplaceChar(d, '\'', "&#039;")
  }

  lemma ReplacedAppend(x: string, y: string)
    ensures Replaced(x + y) == Replaced(x) + Replaced(y)
  {
    var x1, y1 := ReplaceChar(x, '&', "&amp;"), ReplaceChar(y, '&', "&amp;");
    ReplaceCharAppend(x, y, '&', "&amp;");
    var x2, y2 := ReplaceChar(x1, '<', "&lt;"), ReplaceChar(y1, '<', "&lt;");
    ReplaceCharAppend(x1, y1, '<', "&lt;");
    var x3, y3 := ReplaceChar(x2, '>', "&gt;"), ReplaceChar(y2, '>', "&gt;");
    ReplaceCharAppend(x2, y2, '>', "&gt;");
    var x4, y4 := ReplaceChar(x3, '"', "&quot;"), ReplaceChar(y3, '"', "&quot;");
    ReplaceCharAppend(x3, y3, '"', "&quot;");
    ReplaceCharAppend(x4, y4, '\'', "&#039;");
  }

  lemma ReplacedSingle(c: char)
    ensures Replaced([c]) == EscChar(c)
  {
    if c == '&' { ReplacedAmp(c); }
    else if c == '<' { ReplacedLt(c); }
    else if c == '>' { ReplacedGt(c); }
    else if c == '"' { ReplacedQuot(c); }
    else if c == '\'' { ReplacedApos(c); }
    else { ReplacedPlain(c); }
  }

  // One lemma per character class, each following the five passes.

  lemma ReplacedAmp(c: char)
    requires c == '&'
    ensures Replaced([c]) == "&amp;"
  {
    ReplaceOne(c, "&amp;");
    var a := ReplaceChar([c], '&', "&amp;");
    assert '<' !in a && '>' !in a && '"' !in a && '\'' !in a;
    Untouched(a, '<', "&lt;");
    Untouched(a, '>', "&gt;");
    Untouched(a, '"', "&quot;");
    Untouched(a, '\'', "&#039;");
  }

  lemma ReplacedLt(c: char)
    requires c == '<'
    ensures Replaced([c]) == "&lt;"
  {
    Untouched([c], '&', "&amp;");
    ReplaceOne(c, "&lt;");
    var b := ReplaceChar([c], '<', "&lt;");
    assert '>' !in b && '"' !in b && '\'' !in b;
    Untouched(b, '>', "&gt;");
    Untouched(b, '"', "&quot;");
    Untouched(b, '\'', "&#039;");
  }

  lemma ReplacedGt(c: char)
    requires c == '>'
    ensures Replaced([c]) == "&gt;"
  {
    Untouched([c], '&', "&amp;");
    Untouched([c], '<', "&lt;");
    ReplaceOne(c, "&gt;");
    var d := ReplaceChar([c], '>', "&gt;");
    assert '"' !in d && '\'' !in d;
    Untouched(d, '"', "&quot;");
    Untouched(d, '\'', "&#039;");
  }

  lemma ReplacedQuot(c: char)
    requires c == '"'
    ensures Replaced([c]) == "&quot;"
  {
    Untouched([c], '&', "&amp;");
    Untouched([c], '<', "&lt;");
    Untouched([c], '>', "&gt;");
    ReplaceOne(c, "&quot;");
    Untouched(ReplaceChar([c], '"', "&quot;"), '\'', "&#039;");
  }

  lemma ReplacedApos(c: char)
    requires c == '\''
    ensures Replaced([c]) == "&#039;"
  {
    Untouched([c], '&', "&amp;");
    Untouched([c], '<', "&lt;");
    Untouched([c], '>', "&gt;");
    Untouched([c], '"', "&quot;");
    ReplaceOne(c, "&#039;");
  }

  lemma ReplacedPlain(c: char)
    requires !Special(c)
    ensures Replaced([c]) == [c]
  {
    Untouched([c], '&', "&amp;");
    Untouched([c], '<', "&lt;");
    Untouched([c], '>', "&gt;");
    Untouched([c], '"', "&quot;");
    Untouched([c], '\'', "&#039;");
  }

  lemma Untouched(s: string, c: char, rep: string)
    requires c !in s
    ensures ReplaceChar(s, c, rep) == s
  {
  }

  /** Replacing the one character of a one-character string. */
  lemma ReplaceOne(c: char, rep: string)
    ensures ReplaceChar([c], c, rep) == rep
  {
    assert [c][1..] == [];
  }

  /** The five passes escape each character on its own: no pass touches
      what an earlier one wrote. */
  lemma {:induction false} EscapeHTMLPerChar(s: string)
    ensures Replaced(s) == Escaped(s)
  {
    if |s| > 0 {
      assert s == [s[0]] + s[1..];
      ReplacedAppend([s[0]], s[1..]);
      ReplacedSingle(s[0]);
      EscapeHTMLPerChar(s[1..]);
    }
  }

  /** Escaped text holds no markup characters, and text without special
      characters is left as it is. */
  lemma {:induction false} EscapedSafe(s: string)
    ensures forall k :: 0 <= k < |Escaped(s)| ==>
      var c := Escaped(s)[k]; c != '<' && c != '>' && c != '"' && c != '\''
    ensures (forall k :: 0 <= k < |s| ==> !Special(s[k])) ==> Escaped(s) == s
  {
    if |s| > 0 {
      EscapedSafe(s[1..]);
      var e := EscChar(s[0]);
      assert forall k :: 0 <= k < |e| ==> e[k] != '<' && e[k] != '>' && e[k] != '"' && e[k] != '\'';
      assert Escaped(s) == e + Escaped(s[1..]);
    }
  }

  /** Entity decoding, as the browser does when it shows the text. */
  function Unescape(s: string): string
    decreases |s|
  {
    if |s| == 0 then []
    else if |s| >= 5 && s[..5] == "&amp;" then ['&'] + Unescape(s[5..])
    else if |s| >= 4 && s[..4] == "&lt;" then ['<'] + Unescape(s[4..])
    else if |s| >= 4 && s[..4] == "&gt;" then ['>'] + Unescape(s[4..])
    else if |s| >= 6 && s[..6] == "&quot;" then ['"'] + Unescape(s[6..])
    else if |s| >= 6 && s[..6] == "&#039;" then ['\''] + Unescape(s[6..])
    else [s[0]] + Unescape(s[1..])
  }

  lemma UnescapeStep(c: char, t: string)
    ensures Unescape(EscChar(c) + t) == [c] + Unescape(t)
  {
    var s := EscChar(c) + t;
    var n := |EscChar(c)|;
    assert s[..n] == EscChar(c) && s[n..] == t;
    if !Special(c) {
      assert s[0] == c;
      assert |s| >= 4 ==> s[..4][0] == c;
      assert |s| >= 5 ==> s[..5][0] == c;
      assert |s| >= 6 ==> s[..6][0] == c;
    } else {
      assert |s| >= 5 ==> s[..5][1] == s[1];
      assert |s| >= 4 ==> s[..4][1] == s[1];
      assert |s| >= 6 ==> s[..6][1] == s[1];
    }
  }

  /** Decoding the escaped text gives back the text: escaping shows free
      text exactly as typed, never as markup. */
  lemma {:induction false} EscapeRoundTrip(s: string)
    ensures Unescape(EscapeHTML(s)) == s
  {
    UnescapeEscaped(s);
  }

  lemma {:induction false} UnescapeEscaped(s: string)
    ensures Unescape(Escaped(s)) == s
  {
    if |s| > 0 {
      UnescapeStep(s[0], Escaped(s[1..]));
      UnescapeEscaped(s[1..]);
      assert s == [s[0]] + s[1..];
    }
  }

  // ---------------------------------------------------------------------
  // Badges
  // ---------------------------------------------------------------------

  function Badge(inner: string): (r: string)
    ensures |r| > |inner|
  {
    "<span class=\"badge\">" + inner + "</span>"
  }

  /** `deliveryBadges`: a delivery record with a provider gets one badge
      holding its escaped provider label. */
  function DeliveryBadges(e: Expense): (r: string)
    ensures r != "" <==> e.subcategory == "Delivery" && e.deliveryProvider != ""
    ensures r != "" ==>
      r == Badge(EscapeHTML(DeliveryLabel(e.deliveryProvider, e.deliveryProviderOther)))
  {
    if e.subcategory != "Delivery" then ""
    else if e.deliveryProvider == "" then ""
    else
      var shown := LabelDeliveryProvider(e.deliveryProvider, e.deliveryProviderOther);
      LabelDeliveryProviderAgrees(e.deliveryProvider, e.deliveryProviderOther);
      if shown != "" then Badge(EscapeHTML(shown)) else ""
  }

  /** The delivery badge reads as the label the delivery chart uses. */
  lemma DeliveryBadgeText(e: Expense)
    requires e.subcategory == "Delivery" && e.deliveryProvider != ""
    ensures exists x :: (DeliveryBadges(e) == Badge(x)
      && Unescape(x) == DeliveryLabel(e.deliveryProvider, e.deliveryProviderOther))
  {
    var x := EscapeHTML(DeliveryLabel(e.deliveryProvider, e.deliveryProviderOther));
    EscapeRoundTrip(DeliveryLabel(e.deliveryProvider, e.deliveryProviderOther));
    assert DeliveryBadges(e) == Badge(x);
  }

  /** `Number(e.fuelPricePerLiter)` is a positive finite number. */
  predicate PricedPerLiter(e: Expense) {
    e.fuelPricePerLiter.Some? && e.fuelPricePerLiter.value.Finite? && e.fuelPricePerLiter.value.value > 0.0
  }

  /** The price badge: the price per liter in currency text, then "/L". */
  function PriceBadge(e: Expense, formatBRL: real -> string): string
    requires PricedPerLiter(e)
  {
    Badge(formatBRL(e.fuelPricePerLiter.value.value) + "/L")
  }

  /** `fuelBadges` as written: the fuel type's label is placed in markup
      without escaping. `formatBRL` is the currency text of a number. */
  function FuelBadgesAsWritten(e: Expense, formatBRL: real -> string): (r: string)
    ensures r == "" <==> e.subcategory != "Combustível" || (e.fuelType == "" && !PricedPerLiter(e))
    ensures e.subcategory == "Combustível" && e.fuelType != "" ==>
      OccursAt(r, Badge(LabelFuelType(e.fuelType)), 0)
    ensures e.subcategory == "Combustível" && !PricedPerLiter(e) ==>
      r == (if e.fuelType != "" then Badge(LabelFuelType(e.fuelType)) else "")
    ensures e.subcategory == "Combustível" && PricedPerLiter(e) ==>
      OccursAt(r, PriceBadge(e, formatBRL), |r| - |PriceBadge(e, formatBRL)|)
  {
    if e.subcategory != "Combustível" then ""
    else
      var fuel := if e.fuelType != "" then Badge(LabelFuelType(e.fuelType)) else "";
      var price := if PricedPerLiter(e) then PriceBadge(e, formatBRL) else "";
      BothEnds(fuel, price);
      fuel + price
  }

  /** A fuel type carrying markup (a record imported from JSON is stored as
      given) reaches the page as markup. */
  lemma FuelTypeMarkupPassesThrough(e: Expense, formatBRL: real -> string)
    requires e.subcategory == "Combustível" && e.fuelType == "<b>" && e.fuelPricePerLiter.None?
    ensures FuelBadgesAsWritten(e, formatBRL) == Badge("<b>")
  {
  }

  /** `fuelBadges` with the fuel type's label escaped, as `deliveryBadges`
      does for the provider. */
  function FuelBadges(e: Expense, formatBRL: real -> string): (r: string)
    ensures r == "" <==> e.subcategory != "Combustível" || (e.fuelType == "" && !PricedPerLiter(e))
    ensures e.subcategory == "Combustível" && e.fuelType != "" ==>
      exists x :: (OccursAt(r, Badge(x), 0) && Unescape(x) == LabelFuelType(e.fuelType)
        && '<' !in x && '>' !in x)
    ensures e.subcategory == "Combustível" && !PricedPerLiter(e) ==>
      r == (if e.fuelType != "" then Badge(EscapeHTML(LabelFuelType(e.fuelType))) else "")
    ensures e.subcategory == "Combustível" && PricedPerLiter(e) ==>
      OccursAt(r, PriceBadge(e, formatBRL), |r| - |PriceBadge(e, formatBRL)|)
  {
    if e.subcategory != "Combustível" then ""
    else
      var fuel := EscapeHTML(LabelFuelType(e.fuelType));
      var r := (if e.fuelType != "" then Badge(fuel) else "")
        + (if PricedPerLiter(e) then PriceBadge(e, formatBRL) else "");
      FuelBadgeSafe(LabelFuelType(e.fuelType));
      BothEnds((if e.fuelType != "" then Badge(fuel) else ""),
        (if PricedPerLiter(e) then PriceBadge(e, formatBRL) else ""));
      r
  }

  /** Each part of a concatenation occurs at its end of it. */
  lemma BothEnds(a: string, b: string)
    ensures OccursAt(a + b, a, 0)
    ensures OccursAt(a + b, b, |a + b| - |b|)
  {
    assert (a + b)[..|a|] == a;
    assert (a + b)[|a|..] == b;
  }

  lemma FuelBadgeSafe(text: string)
    ensures Unescape(EscapeHTML(text)) == text
    ensures '<' !in EscapeHTML(text) && '>' !in EscapeHTML(text)
  {
    EscapeRoundTrip(text);
    EscapedSafe(text);
  }

  /** The corrected badge shows the markup as text. */
  lemma FuelTypeMarkupEscaped(e: Expense, formatBRL: real -> string)
    requires e.subcategory == "Combustível" && e.fuelType == "<b>" && e.fuelPricePerLiter.None?
    ensures FuelBadges(e, formatBRL) == Badge("&lt;b&gt;")
  {
    var t := e.fuelType;
    assert LabelFuelType(t) == t;
    assert Escaped(t) == "&lt;b&gt;" by {
      assert t[1..] == "b>" && t[1..][1..] == ">";
      assert Escaped(">") == "&gt;";
      assert Escaped("b>") == "b&gt;";
      assert Escaped(t) == "&lt;" + "b&gt;";
    }
    assert !PricedPerLiter(e);
  }
}

=== FILE: wrappers.dfy ===
/** Failure-compatible wrappers used across the model: a value that may be
    missing, and the outcome of an operation that may be rejected. */
module Wrappers {

  datatype Option<+T> = None | Some(value: T) {

    /** The wrapped value, or `default` when there is none. */
    function GetOr(default: T): T {
      match this
      case Some(v) => v
      case None => default
    }
  }

  datatype Result<+R, +E> = Success(value: R) | Failure(error: E)
}
